=== FILE: README.md ===
# A verified model of a book-review backend

This project models, in Dafny, the request handlers of an Express/PostgreSQL
backend for a book-review community. It covers the following parts:

- Readers review books, like or unlike reviews, comment, and like comments.
- Readers follow one another and receive notifications.
- Book details are resolved from a review cache, a curated catalogue and
  Open Library.
- A dashboard suggests books that were not shown recently.
- A personalised feed and a public community feed list recent reviews.

The database is an immutable value, `Db.Store`, with one field per table:

- `users`, `reviews` and `reviewed_books` (the cache);
- `custom_books` (the curated catalogue) and `recommended_books`;
- `review_likes`, `review_unlikes`, `comments` and `comment_likes`;
- `followers` and `notifications`.

Every handler is a pure function from the store, the request's parameters and
its outside services to a `Reply`. A `Reply` holds the status code, the
payload (absent on an error) and the store afterwards.

Rows are kept in insertion order, so "most recent first" means "from the end".
One counter, `nextId`, stands for every serial column.

Outside services are parameters:

- Open Library's work, author, subject and search requests are functions
  keyed by the URL the code builds (`Catalog.OpenLibrary`). `None` means the
  request failed.
- `bcrypt` and `jsonwebtoken` are the functions of `Auth.Crypto`.
- An image upload is a function from the file path to the URL.
- `Math.random()` shuffles and `ORDER BY random()` take their choices from
  `Common.Rng`. Any choices decode to a permutation.
- Whether a notification insert succeeded is a boolean parameter, because
  `sendNotification` swallows the failure.

The modules follow the source:

| module | models |
|---|---|
| `Common` | optional values, sequence helpers, shuffles and random samples |
| `Text` | `toLowerCase`, `replace(/\s+/g, '_')`, `parseInt` and the `\|\| fallback` idiom, `/works/` stripping, `join`, the image-URL regular expression, SQL `LIKE` |
| `Db` | the tables, status codes, row lookups, the placeholder-binding rule |
| `Paging` | `LIMIT`/`OFFSET` windows, `Math.ceil` page counts |
| `Notify` | `utils/sendNotification.js` and the mark-read route |
| `Catalog` | Open Library records and their normalisation |
| `Reviews` | `controllers/reviewController.js` |
| `Comments` | `controllers/commentController.js` |
| `Social` | `controllers/userController.js` |
| `BookDetails` | `controllers/getBookDetailsController.js` |
| `BookSearch` | `controllers/bookController.js` |
| `History`, `Suggestions`, `Dashboard` | `controllers/dashboardController.js` |
| `Feed` | `controllers/feedController.js` |
| `Community` | `controllers/communityController.js` |
| `CustomBooks` | `controllers/getCustomBookController.js`, `controllers/addCustomBookController.js` |
| `Profile` | `controllers/userProfilepageControl.js` |
| `Auth` | `controllers/authController.js`, `middleware/authMiddleware.js`, `middleware/adminMiddleware.js` |

## Model

| member | source | states |
|---|---|---|
| Reviews.ResolveForReview | controllers/reviewController.js:60-84 | a key in the custom catalogue gives source `custom` and that row's columns; otherwise the Open Library record gives source `api`; when the record cannot be fetched there is nothing; the review cache is never consulted |
| Reviews.CacheInsert | controllers/reviewController.js:87-102 | the cache is write-once: an existing row for the key leaves the cache as it was, otherwise one row is appended; every earlier row keeps its place and no other table changes |
| Reviews.CacheInsertKeepsKeysDistinct | controllers/reviewController.js:87-92 | `ON CONFLICT (book_key) DO NOTHING`: an insert into a cache whose keys are distinct keeps them distinct |
| Reviews.CreateReview | controllers/reviewController.js:41-130 | 400 and no write for a missing or falsy rating or text; 409 and no write for a second review of the same book by the same user; 404 and no write when neither the catalogue nor Open Library knows the book; otherwise 201, and the review is appended with the caller, the book, the given rating and text, and source `custom` exactly when the catalogue has the key; the cache gains the book's snapshot only if it had no row for the key |
| Reviews.CreateReviewKeepsOneReviewPerUserBook | controllers/reviewController.js:52-58 | no two reviews share a (user, book) pair before a create, so none do after it |
| Reviews.CreateReviewKeepsIdsFresh | controllers/reviewController.js:105-111 | review ids stay distinct and below the id counter across a create |
| Reviews.UpdateReview | controllers/reviewController.js:170-195 | an id the database cannot read gives 500 and no write; 404 for an unknown id and 403 for someone else's review, with no write in either case; the author gets 200, only that row's rating and text change (to the values sent, even absent ones), and the updated row is returned |
| Reviews.UpdateReviewKeepsOneReviewPerUserBook | controllers/reviewController.js:186 | an update, with a readable id or not, never changes a review's author or book, so at most one review per (user, book) still holds |
| Reviews.DeleteReview | controllers/reviewController.js:226-269 | an id the database cannot read gives 500 and no write; 404 for an unknown id and 403 for a non-author, with no write in either case; for the author, exactly that review goes, and the cache row with the review's key and source survives exactly when another review of the book remains; other cache rows are untouched |
| Reviews.FilterKeepsOneReviewPerUserBook | controllers/reviewController.js:247 | removing any reviews keeps at most one review per (user, book) |
| Reviews.DeleteReviewKeepsOneReviewPerUserBook | controllers/reviewController.js:247 | a delete keeps at most one review per (user, book) |
| Reviews.LikeReview | controllers/reviewController.js:273-318 | an id the database cannot read gives 500 and no write; a repeated like is 400 and writes nothing; otherwise the like is added and any unlike by the same user removed; for an existing review the answer is 201 and at most one notification is appended, addressed to the review's author; for a missing review the answer is 500 but the like and unlike writes stay |
| Reviews.UnlikeReview | controllers/reviewController.js:323-366 | an id the database cannot read gives 500 and no write; otherwise the mirror image of a like: a repeated unlike is 400; otherwise the unlike is added, any like removed and the author notified |
| Reviews.RemoveLike | controllers/reviewController.js:368-379 | an id the database cannot read gives 500 and no write; otherwise always 200; afterwards the likes are exactly the old ones minus the caller's like of that review; nothing else changes |
| Reviews.RemoveUnlike | controllers/reviewController.js:382-393 | an id the database cannot read gives 500 and no write; otherwise always 200; afterwards the unlikes are exactly the old ones minus the caller's unlike of that review; nothing else changes |
| Reviews.CheckReviewLikeStatus | controllers/reviewController.js:470-496 | nothing is written; 500 for an id the database cannot read; otherwise 200, and `liked` and `unliked` say exactly whether the caller's like and unlike rows exist, never both true while reactions are exclusive |
| Reviews.ReactionsStayExclusive | controllers/reviewController.js:279-298 | nobody both likes and unlikes a review, and each of the four reaction handlers keeps it that way |
| Reviews.LikeAfterUnlike | controllers/reviewController.js:289-298 | after an unlike, a like by the same user reads back as liked and not unliked |
| Catalog.CoverUrl | controllers/reviewController.js:24-27 | the cover URL built from an id always passes the image-URL check |
| Catalog.CoverFromId | controllers/dashboardController.js:94-96 | a cover exists exactly when the id is present and not 0, and it is the cover URL for that id |
| Db.NameOr | controllers/reviewController.js:15 | `s \|\| fallback`: a present, non-empty string is kept, anything else gives the fallback |
| Catalog.FlattenDescription | controllers/reviewController.js:29-31 | a string description is kept; an object gives its `value` when that is non-empty; anything else gives null |
| Catalog.AuthorName | controllers/reviewController.js:17-22 | without an author key the name is "Unknown Author"; with a key, a failed author request aborts the fetch, and a fetched author gives its name, or "Unknown Author" when the name is missing or empty; the name is never empty |
| Catalog.FetchWorkDetails | controllers/reviewController.js:8-38 | a failed work or author request gives null; otherwise at most the first four subjects (`[]` without any); the work's title when it is non-empty and "Untitled" otherwise; the author the author lookup gives ("Unknown Author" without a key); the cover built from the first cover id when it is not 0; and the flattened description |
| Catalog.FeaturedDescription | controllers/dashboardController.js:43-66 | the featured book's description is the string description, else a non-empty `.value`, else the placeholder text; a failed request also gives the placeholder |
| BookDetails.RoundTenthsNearest | controllers/getBookDetailsController.js:68 | `ROUND(AVG(rating), 1)` in tenths lies within half a tenth of the exact average, and ties go away from zero |
| BookDetails.AverageTenths | controllers/getBookDetailsController.js:68 | the average is NULL exactly when no rating is present; otherwise it is the nearest tenth of the mean: within half a tenth of it, a tie going away from zero |
| BookDetails.ReviewStats | controllers/getBookDetailsController.js:67-78 | the count is the number of the book's reviews; the average is 0 with no rated review, else the nearest tenth of the mean rating, which `BookDetails.NearestTenthUnique` makes the only possible value |
| BookDetails.NearestTenthUnique | controllers/getBookDetailsController.js:68 | for any non-empty set of ratings, at most one tenth is nearest to the mean with ties away from zero, so the stated average is determined |
| BookDetails.TieRoundsAwayFromZero | controllers/getBookDetailsController.js:68 | ratings 4, 4, 4 and 5 average 4.25, which rounds to 4.3, away from zero |
| BookDetails.NoReviewsNoStats | controllers/getBookDetailsController.js:74-77 | a book without reviews has count 0 and average 0 |
| BookDetails.FromStored | controllers/getBookDetailsController.js:129-136 | a stored row keeps its title, author and cover; the genre list is cut to its first four (`[]` when absent); an empty description becomes null |
| BookDetails.ResolveBook | controllers/getBookDetailsController.js:122-165 | the cache row wins; without one, the custom row; without either, the Open Library record under the requested key; nothing when all three miss |
| BookDetails.GetBookDetails | controllers/getBookDetailsController.js:113-189 | 500 for an empty key; 404 exactly when the chain finds nothing; otherwise 200 with the resolved book, whose key is the requested one and whose genre list has at most four entries, plus the review statistics; nothing is written |
| BookDetails.LocalSourcesShadowApi | controllers/getBookDetailsController.js:127-150 | once the cache or the custom catalogue knows the key, the answer does not depend on Open Library |
| BookDetails.NotFoundOnlyWhenAllMiss | controllers/getBookDetailsController.js:152-158 | 404 is answered exactly when the cache, the catalogue and Open Library all miss |
| BookDetails.GetReviewsByBook | controllers/getBookDetailsController.js:23-64 | 500 for an empty key; otherwise 200 with the count and average (0 when there are none) and rows that are each one of the book's reviews, never more rows than the count |
| BookDetails.JoinAuthors | controllers/getBookDetailsController.js:32-37 | the inner join with `users` gives at most one row per review, each row carrying the id, rating and text of one of the reviews |
| BookDetails.JoinAuthorsAll | controllers/getBookDetailsController.js:32-37 | when every review's author exists, the join keeps every review, in order, with its id, rating and text |
| BookDetails.ReviewsListedNewestFirst | controllers/getBookDetailsController.js:31-52 | when every review of the book has an existing author, the list holds exactly the count of the book's reviews, and row `i` is the review `i` places from the newest |
| Text.Lower | controllers/userController.js:109 | `toLowerCase` keeps the length and lowers each ASCII capital, leaving every other character alone |
| Text.CollapseSpace | controllers/dashboardController.js:78 | no white space is left; the result is never longer and is empty only for an empty input; a leading run of white space becomes one `_`, any other first character is kept; a string without white space is unchanged |
| Text.CollapseSpaceIdempotent | controllers/dashboardController.js:78 | formatting a formatted genre changes nothing |
| Text.CollapseSpaceChars | controllers/dashboardController.js:78 | every character of the result is `_` or a character of the input |
| Text.CollapseSpaceRun | controllers/dashboardController.js:78 | a leading run of white space becomes one `_` before the rest, formatted |
| Text.CollapseSpaceSplit | controllers/dashboardController.js:78 | a word, a run of white space and the rest format to the word, one `_` and the formatted rest |
| Text.LowerHasNoUpper | controllers/dashboardController.js:78 | `toLowerCase` leaves no ASCII capital |
| Text.ParseIntRoundTrip | controllers/getCustomBookController.js:5-6 | `parseInt` reads back every integer a template literal renders |
| Text.QueryInt | controllers/getCustomBookController.js:5-6 | `parseInt(q) \|\| fallback`: a missing, unparsable or zero parameter gives the fallback, any other parsed number is used as is |
| Text.QueryIntRoundTrip | controllers/userProfilepageControl.js:57 | a non-zero page number sent as a query parameter is read back as itself |
| Text.StripWorksOfPath | controllers/bookController.js:51 | an Open Library work path `/works/<id>` normalises to `<id>` |
| Text.StripWorksNoPrefix | controllers/dashboardController.js:84 | a key that never mentions `/works/` is left unchanged |
| Text.Join | controllers/communityController.js:27 | joining no names gives the empty string, joining one gives that name |
| Text.IsImageUrl | controllers/authController.js:28 | the check accepts exactly the strings the regular expression matches |
| Text.ImageUrlCases | controllers/userController.js:29 | a URL is accepted iff it ends with `.jpg`, `.jpeg` or `.png` (any case), or has such an ending before a `?` after which no line terminator follows |
| Text.CoverUrlIsImage | controllers/reviewController.js:26 | every cover URL the code builds passes the image check |
| Text.SubstringLike | controllers/bookController.js:65-67 | for a keyword without LIKE wildcards, matching `'%' \|\| k \|\| '%'` is exactly containing `k` |
| Db.FavoriteGenres | controllers/dashboardController.js:236-242 | `rows[0]?.favorite_genres \|\| []`: the user's genres when set, otherwise none |
| Common.TakeLast | controllers/dashboardController.js:32 | `slice(-n)` keeps exactly the last `min(n, length)` elements |
| Common.ShuffleWith | controllers/dashboardController.js:72 | the shuffled list is a permutation of the input |
| Common.Sample | controllers/dashboardController.js:125-131 | `ORDER BY RANDOM() LIMIT n`: exactly `min(n, m)` rows (none for `n <= 0`), where `m` rows satisfy the `WHERE` clause; each of them such a row, and no row taken more often than the table holds it |
| Common.Newest | controllers/communityController.js:21-22 | `ORDER BY created_at DESC LIMIT n` over rows kept in insertion order: the last `min(n, length)` rows, newest first |
| Common.FindFirst | controllers/dashboardController.js:236-242 | `rows[0]`: some row exactly when a row satisfies the condition, and then one that does |
| Feed.BookOf | controllers/feedController.js:15-22 | an `'api'` review takes its book columns from its `reviewed_books` row, a `'custom'` one from its `custom_books` row, and any other review has NULL book columns |
| Feed.Joined | controllers/feedController.js:19-20 | the inner join keeps only reviews whose author exists |
| Feed.JoinedDistinct | controllers/feedController.js:13-25 | with distinct review ids the joined rows have distinct ids |
| Feed.RecentDistinct | controllers/feedController.js:23-24 | ... and so have the thirty fetched rows |
| Feed.Matching | controllers/feedController.js:27-29 | a row is kept iff it was fetched and its genres overlap the reader's favourites |
| Feed.Unused | controllers/feedController.js:35 | a row is kept iff it was fetched and no feed row has its id |
| Feed.Extras | controllers/feedController.js:34-37 | exactly `7 - matches` unused rows, or every unused row when fewer remain, each one unused |
| Feed.Compose | controllers/feedController.js:27-40 | the feed holds only fetched rows |
| Feed.GetCommunityFeed | controllers/feedController.js:3-46 | always 200 with nothing written; `total` is the feed's length; every item is one of the thirty most recent joined reviews |
| Feed.FeedStartsWithMatches | controllers/feedController.js:31-40 | the feed opens with every matching row, in fetched order; seven or more matches are the whole feed |
| Feed.NullGenreNeverMatches | controllers/feedController.js:28 | a row whose genre list is NULL never matches |
| Feed.ExtrasAreUnmatched | controllers/feedController.js:33-39 | every row after the matches was fetched, does not match, and repeats no match's id |
| Feed.ExtrasDistinct | controllers/feedController.js:34-37 | the top-up repeats no id, neither among itself nor from the matches |
| Feed.FeedNoRepeat | controllers/feedController.js:27-40 | with distinct fetched ids, no review appears twice in the feed |
| Feed.UnusedAreUnmatched | controllers/feedController.js:35 | with distinct ids, the rows not yet in the feed are exactly the non-matching ones |
| Feed.FeedLength | controllers/feedController.js:33-39 | with fewer than seven matches the feed holds seven rows, or all fetched rows when fewer than seven |
| Feed.ServedFeedShape | controllers/feedController.js:3-46 | over distinct review ids the served feed repeats no review and holds at least `min(7, fetched)` rows |
| Community.RenderGenres | controllers/communityController.js:27 | a NULL genre list renders as the empty string, a one-element list as its element |
| Community.Format | controllers/communityController.js:25-29 | the item keeps the review's id, author and rendered genres; a NULL rating becomes 0 |
| Community.GetCommunityFeed | controllers/communityController.js:4-31 | always 200 with nothing written; at most twelve items, each the formatting of the matching most-recent joined row |
| Community.CommunityItemAt | controllers/communityController.js:17-22 | item `i` is the review `i` places from the newest with an existing author, with its rating or 0 |
| Community.CommunityMostRecentFirst | controllers/communityController.js:21-22 | the items are the newest authored reviews, newest first, as many as exist up to twelve |
| Community.CommunityBookColumns | controllers/communityController.js:14-20 | an `'api'` review's book columns come from `reviewed_books`, a `'custom'` one's from `custom_books` |
| Community.JoinTake3 | controllers/communityController.js:27 | the genres render as the first three names, or fewer, separated by a comma and a space |
| History.GetHistory | controllers/dashboardController.js:8-14 | a known user's history, else an empty one last shown at the epoch |
| History.CountKeys | controllers/dashboardController.js:26-29 | each key's count grows by the number of times it occurs in the batch; the keys counted are the old ones plus the batch's |
| History.Base | controllers/dashboardController.js:20-24 | more than an hour (3,600,000 ms) after the last batch the list and the counts are cleared, otherwise the history is kept |
| History.UpdateHistory | controllers/dashboardController.js:16-35 | only the user's entry changes; its last-shown time becomes `now`; the list holds at most 20 keys, exactly as many as the base list plus the batch allow, and it is the tail of the base list followed by the batch |
| History.UpdateHistoryCounts | controllers/dashboardController.js:26-32 | each count grows by the key's occurrences in the batch and is not trimmed when the list is cut to 20 |
| History.GetExcludedKeys | controllers/dashboardController.js:37-40 | the last at most ten shown keys, as many as there are up to ten; none for an unknown user |
| History.BatchEndsHistory | controllers/dashboardController.js:26-32 | a batch of at most 20 keys ends the recorded list |
| History.ResetAfterAnHour | controllers/dashboardController.js:20-29 | after more than an hour only the new batch remains, and each count is the key's number of occurrences in it |
| History.BatchEndsExclusion | controllers/dashboardController.js:37-40 | a recorded batch of at most ten keys ends the next exclusion window |
| History.ExclusionKeepsTail | controllers/dashboardController.js:39 | when the shown list ends with at most ten keys, so does the exclusion window |
| History.ShownKeysExcludedNext | controllers/dashboardController.js:347-350 | every key of a recorded batch of at most ten is excluded on the next load |
| Suggestions.CachedCandidate | controllers/dashboardController.js:253-265 | a cache row as a suggestion keeps its key and source; its count is the text of the number of the book's reviews; its average is NULL exactly when no review is rated |
| Suggestions.CustomCandidate | controllers/dashboardController.js:273-289 | a catalogue row as a suggestion keeps its key and gets the given source; count and average as for a cache row |
| Suggestions.ProcessBookData | controllers/dashboardController.js:185-192 | genres default to `[]`; the description is never empty (placeholder by default); the count becomes a number; the book is new exactly when it comes from Open Library with the number 0 as its count |
| Suggestions.NewOnlyFromOpenLibrary | controllers/dashboardController.js:191 | a database row is never new, because its count arrives as text, which is truthy; an Open Library item always is |
| Suggestions.EscapeElement | controllers/dashboardController.js:130 | escaping an array element never shortens it |
| Suggestions.ArrayLiteral | controllers/dashboardController.js:130 | a JS array reaches the database as text that starts with `{` and ends with `}` |
| Suggestions.AsWrittenExcludesNothing | controllers/dashboardController.js:122 | as written, `NOT IN ($1)` with an array never excludes a key that does not start with `{` |
| Suggestions.ExclusionCounterexample | controllers/dashboardController.js:122 | a key just shown passes the written exclusion but not the intended one |
| Suggestions.FormatGenre | controllers/dashboardController.js:78 | the subject name has no whitespace and no ASCII capital left; it is never longer than the genre and empty only for an empty genre; a genre without white space is just lower-cased |
| Suggestions.WorkCandidate | controllers/dashboardController.js:90-101 | a subject work becomes an `api` suggestion with the stripped key, the genre asked for, the cover built from its `cover_id`, a non-empty author, no average and the number 0 as its count |
| Suggestions.SubjectPicks | controllers/dashboardController.js:82-103 | one subject page gives at most the number still needed, each a fresh `api` suggestion for that genre outside the excluded keys |
| Suggestions.GenreLoop | controllers/dashboardController.js:75-104 | the loop keeps what it has, stops at `limit`, and adds only fresh suggestions for the genres outside the excluded keys; a failed request aborts it |
| Suggestions.TailOfLoop | controllers/dashboardController.js:89-102 | what one genre adds and what the rest of the loop adds both come from the genres |
| Suggestions.FetchBooksByGenre | controllers/dashboardController.js:68-110 | nothing without genres or with no room; never more than `limit`; every item is a fresh `api` suggestion for one of the genres outside the excluded keys |
| Suggestions.FetchRandomBooksAsWritten | controllers/dashboardController.js:122-131 | as written, the reviewed-book statement binds one value fewer than its placeholders, so the random tier always returns nothing |
| Suggestions.RandomTierCounterexample | controllers/dashboardController.js:115-136 | with one stored book and nothing excluded, the written tier returns nothing and the intended one returns that book |
| Suggestions.RandomReviewed | controllers/dashboardController.js:115-136 | exactly `limit` stored books when that many are outside the excluded keys, else all of them, and none for `limit <= 0`; each tagged `reviewed` and outside the excluded keys |
| Suggestions.RandomCustom | controllers/dashboardController.js:139-165 | exactly `limit` catalogue books when that many are outside the excluded keys, else all of them, and none for `limit <= 0`; each tagged `custom` and outside the excluded keys |
| Suggestions.ReviewedRowsFromTier | controllers/dashboardController.js:122-131 | every stored book the sample picks is outside the excluded keys |
| Suggestions.CustomRowsFromTier | controllers/dashboardController.js:147-150 | every catalogue book the sample picks is outside the excluded keys |
| Suggestions.FetchRandomBooks | controllers/dashboardController.js:112-183 | at most `limit` suggestions, each from one of the three tiers and outside the excluded keys, with the stored-book tier first |
| Suggestions.ShortTiersFallThrough | controllers/dashboardController.js:138-178 | when the stored books fall short of `limit`, the answer begins with them followed by the catalogue books, cut to `limit`; when both tiers together fall short, the answer is both followed by the Open Library books for the five random subjects, asked for the remainder |
| Suggestions.FullFirstTierSuffices | controllers/dashboardController.js:139-178 | the custom and Open Library tiers are consulted only when the stored books fall short: a full first tier is the whole answer |
| Suggestions.RandomTierCut | controllers/dashboardController.js:175-178 | the three tiers, concatenated and cut to `limit`, keep the first tier in front and come only from the tiers |
| Suggestions.CachedRowMatches | controllers/dashboardController.js:260-261 | a cache row sharing a favourite genre and not excluded is a genre match |
| Suggestions.CustomRowMatches | controllers/dashboardController.js:280-285 | a catalogue row sharing a favourite genre, with no cache row and not excluded, is a genre match |
| Suggestions.GenreRowAt | controllers/dashboardController.js:296-299 | the cache rows come first in the combined list, then the catalogue rows |
| Suggestions.GenreRowsMatch | controllers/dashboardController.js:253-299 | every row of the two genre queries is a genre match outside the excluded keys |
| Suggestions.GenreMatched | controllers/dashboardController.js:253-302 | at most five books, each a genre match outside the excluded keys |
| Suggestions.GenreMatchedCount | controllers/dashboardController.js:253-302 | the number of matches is `min(5, min(10, a) + min(10, b))`, where `a` and `b` count the cache and catalogue rows that share a favourite genre and are not excluded |
| Suggestions.Matched | controllers/dashboardController.js:251-309 | at most five books, none without favourite genres, none excluded; with favourite genres, one processed book per genre match |
| Suggestions.GenreFill | controllers/dashboardController.js:311-321 | the favourite-genre books fetched to top up a short batch: at most the number still needed, none without favourite genres, each from one of the genres and outside both the excluded keys and the matches |
| Suggestions.TopUp | controllers/dashboardController.js:311-336 | the matches stay in front, followed by the processed favourite-genre books from Open Library; at most five books, none excluded; the fallback flag is set exactly when the random tier is consulted, always without favourite genres; without the flag the batch holds five |
| Suggestions.FillInOrder | controllers/dashboardController.js:332-335 | the processed genre books follow the matches uncut, and they fill the batch to five when they are as many as it lacks |
| Suggestions.Batch | controllers/dashboardController.js:248-338 | at most five books, none among the excluded keys; a batch without the fallback flag holds five books |
| Suggestions.BatchKeepsMatches | controllers/dashboardController.js:311-338 | the genre matches open the batch, and five matches are the whole batch |
| Suggestions.BatchReportsFallback | controllers/dashboardController.js:306-330 | the fallback flag is set exactly when there are favourite genres and fewer than four matches, or when the random tier is consulted (fewer than five matches and too few favourite-genre books from Open Library); so it is always set without favourite genres, and clear only with at least four matches |
| Suggestions.BatchCut | controllers/dashboardController.js:319-335 | the matches followed by the processed fallbacks, cut to five, keep the matches in front and let no excluded key in |
| Dashboard.RefetchFeatured | controllers/dashboardController.js:341-344 | only the first book changes, and only when it comes from Open Library: its description becomes that of its work record |
| Dashboard.Split | controllers/dashboardController.js:353-354 | the featured book followed by the others is the whole batch, and the first book is featured |
| Dashboard.GetDashboardBooks | controllers/dashboardController.js:228-373 | always 200 with nothing written to the database; at most five books, none among the reader's last ten shown; the shown keys are recorded in the history |
| Dashboard.DashboardShape | controllers/dashboardController.js:338-359 | no featured book exactly when the batch is empty, and then no others; the featured book is the batch's first, with a refetched description when it comes from Open Library; the fallback flag is the batch's |
| Dashboard.DashboardFallbackFlag | controllers/dashboardController.js:306-354 | the response's `used_fallback` is set exactly when fewer than four stored books match the favourite genres or the random tier is consulted; a response without it shows five books |
| Dashboard.ShownBooksExcludedNext | controllers/dashboardController.js:245-350 | every book a load shows is in the reader's exclusion window afterwards |
| Dashboard.NoRepeatOnNextLoad | controllers/dashboardController.js:245-350 | two loads in a row never show the same book, whatever the time between them and whatever the stores hold |
| Dashboard.FormatTenths | controllers/dashboardController.js:211 | the rendering has at least three characters |
| Dashboard.FormatTenthsRoundTrip | controllers/dashboardController.js:211 | the rendering of a non-negative value is digits, a point and one digit, and reading them back gives the value |
| Dashboard.NonZeroRatings | controllers/dashboardController.js:202 | `NULLIF(rating, 0)`: no zero rating is averaged |
| Dashboard.GetDashboardMetrics | controllers/dashboardController.js:195-225 | always 200 with nothing written; the count is the number of the reader's reviews; the average is "0.0" with no non-zero rating, else the nearest tenth of the non-zero ratings' mean |
| Notify.SendNotification | utils/sendNotification.js:13-31 | a stored notice appends exactly one unread row carrying the request's sender, receiver, type, message and target; a failed insert is swallowed and changes nothing; no other table changes |
| Notify.MarkRead | routes/notificationRoutes.js:10-19 | only the `is_read` flag of the caller's row with that id is set; other users' rows with that id and every other row stay untouched; no row becomes unread; 200 whether or not a row matched, 500 for an id the database cannot read |
| Notify.MarkReadIdempotent | routes/notificationRoutes.js:13 | marking a notification twice is marking it once |
| Notify.SentUnreadUntilMarked | routes/notificationRoutes.js:10-19 | a sent notification is unread; the receiver marking its id makes it read, and anyone else marking it leaves it unchanged |
| Social.AddFollow | controllers/userController.js:140-161 | the edge is added; the followee's "follow" notice and then the follower's own confirmation are appended when stored; nothing else changes |
| Social.RemoveFollow | controllers/userController.js:200-209 | the edge is removed and the follower's "unfollow" notice appended when stored; nothing else changes |
| Social.Follow | controllers/userController.js:128-185 | 400 for a self-follow, 409 when already following, 500 for an id that is not a number; 200 exactly when a new edge is possible, and then the edge is added, the reply is the confirmation text, earlier notifications stay, the first stored notice goes from the follower to the followee with kind `follow`, and the last is the follower's own `follow` notice carrying the confirmation text |
| Social.Unfollow | controllers/userController.js:186-224 | 400 for oneself, 409 when not following, 500 for an id that is not a number; 200 exactly when the edge exists, and then it is removed and the one stored notice is the follower's own `unfollow` notice |
| Social.ToggleFollow | controllers/userController.js:267-359 | 400 for `NaN` or oneself; otherwise 200, only that edge flips, and the reply says which way |
| Social.CheckFollowStatus | controllers/userController.js:361-372 | the reply is whether the edge exists; nothing is written |
| Social.FollowStatusReadsBack | controllers/userController.js:128-224 | after a follow of another user the status reads back true, after an unfollow false |
| Social.FollowHandlersKeepNoSelfFollow | controllers/userController.js:132-134 | no follow handler ever creates a self-follow |
| Social.ToggleIsFollowOrUnfollow | controllers/userController.js:285-354 | toggling writes what following does when there is no edge and what unfollowing does when there is |
| Social.FollowUnfollowRestores | controllers/userController.js:128-224 | following then unfollowing succeeds and restores the graph |
| Social.ToggleTwiceRestores | controllers/userController.js:267-359 | toggling twice restores the graph |
| Social.ParseGenres | controllers/userController.js:13-19 | an absent or empty field means no genres; otherwise the parser's verdict |
| Social.CurrentImage | controllers/userController.js:38-41 | `profile_img \|\| null`: never an empty image |
| Social.ChooseImage | controllers/userController.js:22-41 | an uploaded file wins over a URL and a failed upload is reported; a URL is refused iff it fails the image pattern and used otherwise; with neither, or an empty upload result, the current image is kept |
| Social.UpdateUserProfile | controllers/userController.js:7-54 | 400 for malformed genres or a refused URL; 500 and no write when the upload fails; 200 exactly when all three are fine; then only the caller's row changes, to the new name, e-mail, bio, image and genres, and the row comes back iff the caller exists |
| Social.FindUserEdited | controllers/userController.js:43-49 | an `UPDATE` that keeps every id finds, under an id, the edited row of the user found there before |
| Social.UpdatedProfileReadsBack | controllers/userController.js:43-53 | after a successful update, looking the caller up gives the returned row, which holds the sent name, e-mail, bio, the chosen image and the parsed genres |
| Social.SearchUsers | controllers/userController.js:102-126 | 400 for an absent or blank keyword; otherwise the first eight users whose lower-cased name or e-mail is LIKE the lower-cased `%keyword%`, 204 exactly when none; nothing is written |
| Social.SearchIsSubstring | controllers/userController.js:109-111 | for a keyword without wildcards, a user matches iff the lower-cased keyword occurs in the lower-cased name or e-mail |
| Comments.LikesCountAdd | controllers/commentController.js:86-96 | a new like raises the comment's count by one |
| Comments.LikesCountRemove | controllers/commentController.js:134-143 | removing an existing like lowers the count by one |
| Comments.PostComment | controllers/commentController.js:6-24 | 400 for an empty or absent text; 201 exactly when there is text and a readable review id, and then one comment by the caller with the next id is appended and nothing else changes |
| Comments.NotifyAuthor | controllers/commentController.js:99-114 | nothing is sent when the liker wrote the comment; otherwise a stored "like_comment" notice goes to the author; only the notification log changes |
| Comments.LikeComment | controllers/commentController.js:68-125 | 404 for a missing comment; otherwise the like is added, a repeat like being ignored, and the reply is the count after it; the author gets one unread "like_comment" notice from the liker, naming the liker and pointing at the comment, when it is stored, and nothing is sent for a like of one's own comment |
| Comments.LikeCommentIdempotent | controllers/commentController.js:86-90 | `ON CONFLICT DO NOTHING`: liking twice leaves the likes and the count as liking once |
| Comments.UnlikeComment | controllers/commentController.js:128-154 | the caller's like is removed if present and the reply is the count after it; only the likes change |
| Comments.ToggleCommentLike | controllers/commentController.js:156-235 | 400 for a missing or non-numeric id, 404 for a missing comment; otherwise only the caller's like flips, the action and `isLiked` report the new state, and the count moves by exactly one; an unlike sends nothing, and a like notifies the author as `Comments.LikeComment` does, except when the caller wrote the comment |
| Comments.ToggleTwiceRestores | controllers/commentController.js:185-228 | toggling twice restores the likes and the count |
| Comments.DeleteComment | controllers/commentController.js:238-263 | 400 for a missing or non-numeric id; 200 exactly when the caller wrote a comment with that id, and then only the comments with that id are removed; 404 otherwise |
| Comments.PostThenDeleteRestores | controllers/commentController.js:6-263 | posting a comment and deleting it by the returned id both succeed and restore the comments |
| Comments.LikeThenUnlikeRestores | controllers/commentController.js:68-154 | liking an existing comment not yet liked and then unliking it restores the likes, and the reply is the count before the like |
| BookSearch.FirstAuthor | controllers/bookController.js:53 | `author_name?.[0] \|\| 'Unknown'`: never empty; the first name when there is a non-empty one |
| BookSearch.ApiItem | controllers/bookController.js:38-63 | null exactly when the work record cannot be fetched; otherwise an `api` item with the stripped key, the document's title, its first author, the cover built from `cover_i`, at most three of the work's subjects and its flattened description |
| BookSearch.Present | controllers/bookController.js:81 | `filter(Boolean)`: a value is in the result exactly when it is present in the list |
| BookSearch.PresentApiItems | controllers/bookController.js:38-81 | dropping the nulls keeps exactly the items of the documents whose work record was fetched, in order |
| BookSearch.Merge | controllers/bookController.js:81 | the fetched Open Library items come first, in order, then the custom items |
| BookSearch.CustomItem | controllers/bookController.js:71-79 | a catalogue row becomes a `custom` item with the row's key, title, author and cover, its first three genres (`[]` when NULL), and its description exactly when that is present and non-empty |
| BookSearch.SearchBooks | controllers/bookController.js:28-88 | 400 for an empty query, 500 when the search request fails; otherwise 200 with the items of the first twelve documents followed by at most five catalogue books whose title or author contains the query, at most seventeen in all; nothing is written |
| BookSearch.MergedItemsNormalised | controllers/bookController.js:44-77 | every merged item has at most three genres, and every Open Library item carries the stripped work key |
| BookSearch.RecommendBook | controllers/bookController.js:90-112 | 400 unless both title and author are non-empty; 201 exactly then, appending one row by the caller with that title and author and changing nothing else |
| BookSearch.DeleteRecommendedBook | controllers/bookController.js:133-150 | 500 for an unreadable id, 404 when no row has it; 200 exactly when one does, removing every row with that id and returning one of them |
| BookSearch.RecommendThenDeleteRestores | controllers/bookController.js:90-150 | recommending a book and deleting it by the returned id both succeed and restore the recommendations |
| CustomBooks.ListCustomBooks | controllers/getCustomBookController.js:3-34 | 500 exactly when the limit or the offset is negative; otherwise at most `limit` books, with the page, the total count and the page count `ceil(total / limit)`; nothing is written |
| CustomBooks.GetCustomBooks | controllers/getCustomBookController.js:5-7 | missing, unparsable or zero parameters become page 1 and nine books, so a bare request lists the first nine books, or all of them when fewer |
| CustomBooks.CustomPageRows | controllers/getCustomBookController.js:15-18 | the page holds the books from position `(page - 1) * limit` on, newest first |
| CustomBooks.CustomPageFlags | controllers/getCustomBookController.js:12-27 | `hasNext` holds iff books follow the page, `hasPrev` iff books precede it; a page is non-empty iff it is within `totalPages` |
| CustomBooks.GetCustomBooksOfNumbers | controllers/getCustomBookController.js:5-6 | sending non-zero numbers as `page` and `limit` lists exactly that page |
| CustomBooks.BookOnItsPage | controllers/getCustomBookController.js:15-18 | a book whose position falls within a page's range is listed on that page |
| CustomBooks.EveryBookListed | controllers/getCustomBookController.js:3-29 | every book of the catalogue is listed on page `k / limit + 1`, where `k` is its position from the newest |
| CustomBooks.GetCustomBookById | controllers/getCustomBookController.js:36-50 | 500 for an unreadable id, 404 exactly when no book has the id, otherwise 200 with a book that has it; nothing is written |
| CustomBooks.ChooseCover | controllers/addCustomBookController.js:9-22 | an uploaded file's URL wins; otherwise a non-empty URL is refused iff it fails the image pattern and used when it passes; with neither the cover is NULL |
| CustomBooks.InsertCustomBook | controllers/addCustomBookController.js:24-27 | the `INSERT ... RETURNING *` succeeds exactly when seven values are bound and the book key is present, and then appends one row with the next id, the form's columns, the chosen cover and the given creator, returning it; otherwise 500 and nothing is stored |
| CustomBooks.AddCustomBookAsWritten | controllers/addCustomBookController.js:24-33 | as written, nothing is ever stored: 400 exactly for a refused cover URL, 500 for every other request |
| CustomBooks.AddCustomBook | controllers/addCustomBookController.js:4-36 | 400 for a refused cover URL, 500 without a book key; 201 exactly otherwise, appending one row with the next id, the form's columns, the chosen cover and the caller as creator |
| CustomBooks.AddCustomBookCounterexample | controllers/addCustomBookController.js:26-27 | a plain form with a key, a title and an author is refused as written and added as intended, with the caller as creator |
| CustomBooks.AddedBookFoundById | controllers/getCustomBookController.js:39-45 | a book just added is found by its new id |
| Profile.GetUserInfo | controllers/userProfilepageControl.js:5-26 | the user's public columns iff the user exists; the follower and following counts are the sizes of the two edge sets, counted even for a missing user |
| Profile.JoinedReviews | controllers/userProfilepageControl.js:31-40 | exactly the user's reviews that join a cached book row, newest first: row `k` is the `k`-th such review from the newest, with that book row's columns, and each such review is listed |
| Profile.UserReviewsWithBooks | controllers/userProfilepageControl.js:29-53 | page `page` of at most nine joined reviews, row `i` being the joined review at position `(page - 1) * 9 + i`; the total counts all the user's reviews, joined or not; the page count is the fewest pages of nine that hold the total |
| Profile.GetUserProfilePage | controllers/userProfilepageControl.js:55-80 | 500 exactly for an unreadable user id or a page below 1; otherwise 200 with the parsed page, the user's info, the total and at most nine reviews; nothing is written |
| Profile.ProfileListsParsedPage | controllers/userProfilepageControl.js:57-61 | the handler lists the page `parseInt(page) \|\| 1` |
| Profile.JoinedAtMostTotal | controllers/userProfilepageControl.js:42-49 | the joined reviews never outnumber the reported total |
| Profile.AllCachedPagesExact | controllers/userProfilepageControl.js:42-51 | when every review of the user has a cached book row, a page is non-empty iff it is within `total_pages` |
| Profile.UncachedReviewCountedNotListed | controllers/userProfilepageControl.js:35-49 | a review whose book has no cached row counts toward the total but is listed on no page |
| Profile.JoinedReviewOnPage | controllers/userProfilepageControl.js:38 | a joined review whose position falls within a page's range is listed on that page |
| Profile.EveryJoinedReviewListed | controllers/userProfilepageControl.js:55-61 | every joined review is listed on page `k / 9 + 1`, where `k` is its position from the newest |
| Profile.FollowCountsGrow | controllers/userProfilepageControl.js:12-24 | a follow adds one to the followee's follower count and one to the follower's following count |
| Profile.UnfollowCountsShrink | controllers/userProfilepageControl.js:12-24 | an unfollow takes one off both counts |
| Auth.AccountOf | controllers/authController.js:68-75 | the user object keeps the id and the email and leaves out the hash |
| Auth.FindByEmail | controllers/authController.js:55 | some row exactly when a user has that email; an absent email matches nobody |
| Auth.RegisterImage | controllers/authController.js:20-36 | an uploaded file's URL wins and a failed upload is reported; otherwise a non-empty URL is taken iff it passes the image pattern; with neither, no image |
| Auth.RegisterAsWritten | controllers/authController.js:10-48 | 400 for a taken email; 201 exactly for a free email, an accepted image and a password; then one row is appended with the next id and the hash, and the whole row is returned |
| Auth.RegisterAsWrittenRevealsHash | controllers/authController.js:39-43 | as written, a successful registration answers with the password hash |
| Auth.Register | controllers/authController.js:10-48 | the same status and database as written, answering with the user object login gives instead of the row |
| Auth.Login | controllers/authController.js:50-81 | an unknown email and a wrong password get the same 400; 500 for a missing password; otherwise 200 with a token signed over the id, email and admin flag, and the user object; nothing is written |
| Auth.RegisterThenLogin | controllers/authController.js:10-81 | a freshly registered account can log in with its password and gets the same user object |
| Auth.Fields | middleware/authMiddleware.js:10 | `split` gives at least one piece and no piece holds the separator |
| Auth.FieldsJoin | middleware/authMiddleware.js:10 | joining the pieces with the separator gives the string back |
| Auth.BearerToken | middleware/authMiddleware.js:10 | the extracted token holds no space |
| Auth.BearerTokenOf | middleware/authMiddleware.js:6-10 | the token is what follows `Bearer `, up to the next space |
| Auth.VerifyToken | middleware/authMiddleware.js:4-19 | 401 without a header starting with `Bearer `; otherwise 403 when the token does not verify, and the decoded claims passed on when it does |
| Auth.LoginTokenVerifies | middleware/authMiddleware.js:4-19 | a token from login, sent back as a bearer token, passes with the user's claims |
| Auth.IsAdmin | middleware/adminMiddleware.js:4-27 | passes exactly for a non-zero id of an existing user whose `is_admin` is true; 403 without an id, 404 for a missing user, 403 for a non-administrator |
| Auth.AdminGate | middleware/adminMiddleware.js:4-27 | `verifyToken` then `isAdmin`: a token refused by the first is answered with its 401 or 403 before any lookup; a passing request carries the verified claims on unchanged; 404 only for a verified token whose id names nobody |
| Auth.AdminGatePasses | middleware/adminMiddleware.js:4-27 | an administrator route is reached exactly with a verifying bearer token whose id names an existing administrator |
| Auth.AdminLoginReachesAdminRoutes | controllers/authController.js:64 | a login token opens the administrator routes iff the row says administrator, and is refused with 403 otherwise |
| Paging.CeilDivLeast | controllers/getCustomBookController.js:12 | `Math.ceil(n / d)` is the fewest pages of `d` rows that hold `n` rows, and 0 exactly for no rows |
| Paging.PageStartsBeforeEnd | controllers/getCustomBookController.js:12-26 | page `p`, counting from 0, starts before the end exactly when it is below the page count |
| Paging.Window | controllers/getCustomBookController.js:16 | `LIMIT l OFFSET o` keeps `min(l, n - o)` rows, or none past the end, each at its offset |
| Paging.PageOf | controllers/getCustomBookController.js:7 | row `k` lies within the range of page `k / limit + 1` |
| Paging.NonEmptyPages | controllers/getCustomBookController.js:12-26 | a page holds rows iff it is at most the page count, and `page < totalPages` iff rows follow it |

## Left out

- WebSocket pushes (`io.to(...).emit` in `controllers/userController.js`) are left out. They are push-or-drop I/O and store nothing.
- The Express wiring, `db/db.js`, `server.js` and every route file except the mark-read handler are not part of this model. Each SQL statement is modelled as an operation on `Db.Store`.
- The Cloudinary upload is not modelled. It is a foreign service, so it becomes an upload parameter.
- A failed upload during `addCustomBook` happens outside its `try` in the source, so it rejects the request unhandled. The model has no such failure: `CustomBooks.ChooseCover` takes the upload as always giving a URL.
- The internals of `bcrypt`, `jsonwebtoken` and token expiry are left out. They are cryptographic library calls, modelled as the functions of `Auth.Crypto`. An expired token is one the `verify` function refuses.
- Open Library URLs are keyed as built in the code. Percent-encoding of the search query is not modelled: `search` is keyed by the query itself.
- Randomness is modelled by an oracle. `Math.random()` shuffles and `ORDER BY random()` take their choices from `Common.Rng`, keyed by a call-site label. The comparator shuffle's bias is not modelled, only the fact that it yields a permutation.
- Floating point is not modelled. `AVG` with `ROUND(..., 1)` and `toFixed(1)` are both modelled as exact tenths, rounded half away from zero. Binary-float rounding differences at exact midpoints are left out.
- `formatDistanceToNow` and every `created_at` timestamp are left out. Insertion order stands for creation order.
- `toLowerCase` and SQL `LOWER` are modelled for ASCII letters only. Unicode case mapping is left out.
- `parseInt` is modelled in base ten. A `0x` prefix and numbers beyond JavaScript's exact integer range are left out.
- A query parameter sent as an array (`?q=a&q=b`) is left out. Each parameter is a single string or absent.
- A database failure (500) is modelled only where the request itself causes it:
  - a value the column type cannot read;
  - a negative `LIMIT`/`OFFSET`;
  - a placeholder count that differs from the bound values;
  - a missing password to hash or compare.
  Connection failures and timeouts are left out.
- Foreign-key and `NOT NULL` constraints of the schema are not part of this model, since the schema is not part of the source. A comment may name a missing review, and a follow edge may name a missing user. The one exception is `custom_books.book_key`, below.
- CustomBooks.AddCustomBook: assumes `custom_books.book_key` is NOT NULL, so a form without a key gets 500 (also `CustomBooks.InsertCustomBook`). The schema is not part of the source; the assumption follows the code, which uses the key as the catalogue row's identity in every lookup and join. With a nullable column such a form would be stored.
- Uniqueness of `users.email` is not assumed. Login and registration read the first matching row, as `rows[0]` does.
- Uniqueness of `custom_books.book_key` is not enforced by the source: `addCustomBook` stores any key it is sent, and `Db.FindCustomByKey` uses the first row with the key. The cache key `reviewed_books.book_key` is unique, since the insert's `ON CONFLICT (book_key)` target at controllers/reviewController.js:92 needs a unique index; `Reviews.CacheInsertKeepsKeysDistinct` shows the model's insert never adds a second row for a key.
- Feed.BookOf: takes the book columns from the first `custom_books` row with the review's key. The `LEFT JOIN` at controllers/feedController.js:21-22 repeats a review once per matching row, so with a duplicated key the source lists the review several times; the model lists it once.
- Community.CommunityBookColumns: the same one-row reading of the `LEFT JOIN` at controllers/communityController.js:19-20, so a review whose `custom_books` key is duplicated appears once, not once per matching row.
- The default of `users.is_admin` is unknown, so a new account gets `None`, which the admin check refuses.
- `LIMIT` without `ORDER BY`, as in the custom-book and user search, is modelled as the first rows in insertion order.
- A non-integer numeric id such as `1.5` passes `isNaN` in `toggleCommentLike` and `deleteComment` and then fails in the database. Ids are modelled as integers or unreadable.
- `favorite_genres` given as JSON that is not an array of strings is left out. The parser oracle returns a list of strings or fails.
- The reviewController handlers outside the core are left out: `getUserBookReview`, its `getReviewsByBook`, `getReviewWithBookDetails` and `getReviewComments`. So are `getAllCustomBooks`, `getAllRecommendedBooks`, `getUserProfile`, `getUserReviews`, `allFollowers`, `allFollowing`, `getCommentsByReview` and `controllers/notificationController.js`. Each is a single SELECT with no logic beyond the query.
- Concurrency is not modelled. Each request runs atomically, one after another.
- BookDetails.GetReviewsByBook: states the most-recent-first order of the rows only through `BookDetails.ReviewsListedNewestFirst`, which needs every review's author to exist; a review whose author is missing is dropped by the join.
- Dashboard.GetDashboardBooks: models the handler with both corrections of "## Findings" applied, so `NOT IN` excludes element-wise (`Suggestions.KeyAllowed`) and the random tier binds its `LIMIT`. As written, the genre tier's `NOT IN ($2)` (controllers/dashboardController.js:261 and :285) excludes nothing, and `fetchRandomBooks` always returns `[]` (controllers/dashboardController.js:179-181).
- Dashboard.NoRepeatOnNextLoad: holds of the corrected handler only. As written, a book shown by one load can be shown again by the next, since the exclusion lets every key through.
- Suggestions.Batch: models the corrected genre and random tiers, as for `Dashboard.GetDashboardBooks`.
- Suggestions.TopUp: draws its fallback from the corrected random tier, which binds its `LIMIT`.
- Suggestions.Matched: filters with the corrected, element-wise exclusion.
- Suggestions.GenreMatched: filters both genre queries with the corrected, element-wise exclusion.
- Suggestions.RandomReviewed: models the reviewed-book query with its `LIMIT` bound and the element-wise exclusion; as written it is refused (`Suggestions.FetchRandomBooksAsWritten`).
- Suggestions.RandomCustom: models the custom-book query with the element-wise exclusion; as written it is never reached, because the refused reviewed-book statement before it sends the whole tier to the `catch`.
- Feed.Recent: has no contract of its own. Its properties are those of `Common.Newest` over `Feed.Joined`.

## Findings

| source | as written | input that shows it | evidently intended | confidence | as-written member | corrected member |
|---|---|---|---|---|---|---|
| controllers/dashboardController.js:122-131 | the reviewed-book query of `fetchRandomBooks` says `LIMIT $2` with excluded keys and `LIMIT $1` without, but binds one value (the key array) or none; PostgreSQL refuses the statement, the `catch` returns `[]`, and the whole random tier is empty | one stored book, nothing excluded, `limit` 1: the statement has one placeholder and no values | bind `limit` as the last value, so the tier returns up to `limit` random books | medium; not executed | Suggestions.RandomTierCounterexample | Suggestions.FetchRandomBooks |
| controllers/addCustomBookController.js:26-27 | the insert names seven placeholders but the array literal has an empty slot before `userId`, so eight values are bound; PostgreSQL refuses the statement and the handler answers 500 | any form with a book key, title and author and no cover | seven values, with `created_by` bound to the caller | medium; not executed | CustomBooks.AddCustomBookAsWritten | CustomBooks.AddCustomBook |
| controllers/dashboardController.js:122 | `book_key NOT IN ($1)` is bound to a JavaScript array, which reaches PostgreSQL as one array literal `{"k",...}`; no book key equals it, so nothing is excluded | excluded keys `["OL1W"]` and a book with key `OL1W`: the book passes the filter | `NOT IN` over the elements (`<> ALL($1)`), so recently shown books are excluded, which `Dashboard.NoRepeatOnNextLoad` proves of the corrected model | medium; not executed | Suggestions.ExclusionCounterexample | Suggestions.KeyAllowed |
| controllers/dashboardController.js:261 | in the genre tier's stored-book query, `rb.book_key NOT IN ($2)` is bound to a JavaScript array, which reaches PostgreSQL as one array literal `{"k",...}`; no book key equals it, so nothing is excluded | excluded keys `["OL1W"]` and a book with key `OL1W`: the book passes the filter | `NOT IN` over the elements (`<> ALL($2)`), so recently shown books are excluded, which `Dashboard.NoRepeatOnNextLoad` proves of the corrected model | medium; not executed | Suggestions.ExclusionCounterexample | Suggestions.KeyAllowed |
| controllers/dashboardController.js:285 | in the genre tier's custom-book query, `cb.book_key NOT IN ($2)` is bound to a JavaScript array, which reaches PostgreSQL as one array literal `{"k",...}`; no book key equals it, so nothing is excluded | excluded keys `["OL1W"]` and a book with key `OL1W`: the book passes the filter | `NOT IN` over the elements (`<> ALL($2)`), so recently shown books are excluded, which `Dashboard.NoRepeatOnNextLoad` proves of the corrected model | medium; not executed | Suggestions.ExclusionCounterexample | Suggestions.KeyAllowed |
| controllers/authController.js:39-43 | `registerUser` answers with `RETURNING *`, which includes the password hash | any successful registration | the same user object as login, without the hash | high; not executed | Auth.RegisterAsWrittenRevealsHash | Auth.Register |

=== FILE: auth.dfy ===
/** Accounts and access (`controllers/authController.js`,
    `middleware/authMiddleware.js`, `middleware/adminMiddleware.js`):
    registration, login, the bearer-token check every protected route runs,
    and the administrator check behind it. Password hashing, its comparison,
    and token signing and verification are library calls, given here as the
    functions of a `Crypto` value; only the decisions around them are
    modelled. */
module Auth {
  import opened Common
  import opened Text
  import opened Db
  import opened Social

  /** The token payload `{ id, email, is_admin }`. A verified token may carry
      any payload, so every field may be missing. */
  datatype Claims = Claims(id: Option<int>, email: Option<string>, isAdmin: Option<bool>)

  /** `bcrypt.hash`, `bcrypt.compare`, `jwt.sign` and `jwt.verify` (`None`
      when verification throws: a bad signature, an expired or empty token). */
  datatype Crypto = Crypto(
    hash: string -> string,
    compare: (string, string) -> bool,
    sign: Claims -> string,
    verify: string -> Option<Claims>)

  /** The user object login answers with: the row without the hash or the
      admin flag. */
  datatype Account = Account(
    id: UserId, username: Option<string>, email: Option<string>, bio: Option<string>,
    profileImg: Option<string>, favoriteGenres: Option<seq<string>>)

  datatype Session = Session(token: string, user: Account)

  function AccountOf(u: User): (a: Account)
    ensures a.id == u.id && a.email == u.email
  {
    Account(u.id, u.username, u.email, u.bio, u.profileImg, u.favoriteGenres)
  }

  /** The claims login signs for a user. */
  function ClaimsOf(u: User): Claims {
    Claims(Some(u.id), u.email, u.isAdmin)
  }

  /** `SELECT * FROM users WHERE email = $1`, first row. An absent email is
      bound as NULL, which equals nothing. */
  function FindByEmail(s: Store, email: Option<string>): (r: Option<User>)
    ensures r.Some? ==> r.value in s.users && email.Some? && r.value.email == email
    ensures r.None? ==> email.None? || forall u :: u in s.users ==> u.email != email
  {
    match email
    case None => None
    case Some(e) => FindFirst(s.users, (u: User) => u.email == Some(e))
  }

  // ---------------------------------------------------------------------------
  // `registerUser`.
  // ---------------------------------------------------------------------------

  /** The multipart registration form; `file` is the path of an uploaded
      image, if one was sent. */
  datatype RegisterForm = RegisterForm(
    username: Option<string>, email: Option<string>, password: Option<string>,
    bio: Option<string>, profileImg: Option<string>,
    favoriteGenres: Option<seq<string>>, file: Option<string>)

  /** The image a new account gets: the uploaded file's URL (`upload` is
      `None` when the upload throws), else a given non-empty URL that passes
      the image check, else none. */
  function RegisterImage(form: RegisterForm, upload: string -> Option<string>): (c: ImageChoice)
    ensures form.file.Some? ==> c == (if upload(form.file.value).Some? then Chosen(upload(form.file.value)) else UploadFailed)
    ensures form.file.None? && form.profileImg.Some? && form.profileImg.value != "" ==>
      c == (if ImageUrlPattern(form.profileImg.value) then Chosen(form.profileImg) else RejectedUrl)
    ensures form.file.None? && (form.profileImg.None? || form.profileImg.value == "") ==> c == Chosen(None)
  {
    match form.file
    case Some(path) =>
      (match upload(path)
       case None => UploadFailed
       case Some(url) => Chosen(Some(url)))
    case None =>
      if form.profileImg.Some? && form.profileImg.value != "" then
        if IsImageUrl(form.profileImg.value) then Chosen(form.profileImg) else RejectedUrl
      else Chosen(None)
  }

  /** The row the insert adds; `is_admin` is left to the column default. */
  function NewUser(s: Store, form: RegisterForm, img: Option<string>, hashed: string): User {
    User(s.nextId, form.username, form.email, hashed, form.bio, img, form.favoriteGenres, None)
  }

  /** `registerUser` as written: 400 when the email is taken or the image URL
      is refused, 500 when the upload throws or no password was sent (the
      hash throws), otherwise 201 with the inserted row as `RETURNING *`
      gives it, hash included. */
  function RegisterAsWritten(s: Store, form: RegisterForm, upload: string -> Option<string>, crypto: Crypto): (r: Reply<User>)
    ensures FindByEmail(s, form.email).Some? ==> r == Fail(s, BAD_REQUEST)
    ensures r.status == CREATED <==>
      FindByEmail(s, form.email).None? && RegisterImage(form, upload).Chosen? && form.password.Some?
    ensures r.status != CREATED ==> r.store == s && r.result.None?
    ensures r.status == CREATED ==>
      && r.result == Some(NewUser(s, form, RegisterImage(form, upload).img, crypto.hash(form.password.value)))
      && r.store == s.(users := s.users + [r.result.value], nextId := s.nextId + 1)
  {
    if FindByEmail(s, form.email).Some? then Fail(s, BAD_REQUEST)
    else
      match RegisterImage(form, upload)
      case RejectedUrl => Fail(s, BAD_REQUEST)
      case UploadFailed => Fail(s, SERVER_ERROR)
      case Chosen(img) =>
        match form.password
        case None => Fail(s, SERVER_ERROR)
        case Some(p) =>
          var row := NewUser(s, form, img, crypto.hash(p));
          Reply(CREATED, Some(row), s.(users := s.users + [row], nextId := s.nextId + 1))
  }

  /** As written, a successful registration sends the password hash back. */
  lemma RegisterAsWrittenRevealsHash(s: Store, form: RegisterForm, upload: string -> Option<string>, crypto: Crypto)
    requires RegisterAsWritten(s, form, upload, crypto).status == CREATED
    ensures RegisterAsWritten(s, form, upload, crypto).result.value.password == crypto.hash(form.password.value)
  {
  }

  /** `registerUser` answering with the same user object as login: the
      decisions and the insert are those of the written handler. */
  function Register(s: Store, form: RegisterForm, upload: string -> Option<string>, crypto: Crypto): (r: Reply<Account>)
    ensures var w := RegisterAsWritten(s, form, upload, crypto);
      && r.status == w.status && r.store == w.store
      && (r.result.Some? <==> w.result.Some?)
      && (r.result.Some? ==> r.result.value == AccountOf(w.result.value))
  {
    var w := RegisterAsWritten(s, form, upload, crypto);
    Reply(w.status, if w.result.Some? then Some(AccountOf(w.result.value)) else None, w.store)
  }

  // ---------------------------------------------------------------------------
  // `loginUser`.
  // ---------------------------------------------------------------------------

  /** `POST /auth/login`: an unknown email and a wrong password get the very
      same 400; a missing password for a known email makes the comparison
      throw (500); otherwise a token signed over the user's id, email and
      admin flag, and the user without the hash. Nothing is written. */
  function Login(s: Store, email: Option<string>, password: Option<string>, crypto: Crypto): (r: Reply<Session>)
    ensures r.store == s
    ensures r.status == BAD_REQUEST <==>
      FindByEmail(s, email).None? || (password.Some? && !crypto.compare(password.value, FindByEmail(s, email).value.password))
    ensures r.status == BAD_REQUEST ==> r == Fail(s, BAD_REQUEST)
    ensures r.status == SERVER_ERROR <==> FindByEmail(s, email).Some? && password.None?
    ensures r.status != BAD_REQUEST && r.status != SERVER_ERROR ==>
      var u := FindByEmail(s, email).value;
      r.status == OK && r.result == Some(Session(crypto.sign(ClaimsOf(u)), AccountOf(u)))
  {
    match FindByEmail(s, email)
    case None => Fail(s, BAD_REQUEST)
    case Some(u) =>
      match password
      case None => Fail(s, SERVER_ERROR)
      case Some(p) =>
        if !crypto.compare(p, u.password) then Fail(s, BAD_REQUEST)
        else Reply(OK, Some(Session(crypto.sign(ClaimsOf(u)), AccountOf(u))), s)
  }

  /** A freshly registered account, with a hash the comparison accepts for
      its password, logs in and gets back the user object registration
      answered with. */
  lemma RegisterThenLogin(s: Store, form: RegisterForm, upload: string -> Option<string>, crypto: Crypto)
    requires form.email.Some? && form.password.Some?
    requires crypto.compare(form.password.value, crypto.hash(form.password.value))
    requires Register(s, form, upload, crypto).status == CREATED
    ensures var r := Register(s, form, upload, crypto);
      var l := Login(r.store, form.email, form.password, crypto);
      l.status == OK && l.result.value.user == r.result.value
  {
    var w := RegisterAsWritten(s, form, upload, crypto);
    var t := w.store;
    var row := w.result.value;
    assert t.users == s.users + [row];
    assert forall u :: u in t.users && u.email == form.email ==> u == row;
    assert FindByEmail(t, form.email) == Some(row);
  }

  // ---------------------------------------------------------------------------
  // `verifyToken`.
  // ---------------------------------------------------------------------------

  /** What a middleware does: answer with an error status, or call `next`
      with the request's user set to the claims. */
  datatype Gate = Deny(status: int) | Pass(claims: Claims)

  const BearerPrefix: string := "Bearer "

  predicate StartsWith(s: string, prefix: string) {
    |prefix| <= |s| && s[..|prefix|] == prefix
  }

  /** `s.split(c)`: the pieces between the occurrences of `c`. */
  function Fields(s: string, c: char): (r: seq<string>)
    ensures |r| >= 1
    ensures forall i :: 0 <= i < |r| ==> c !in r[i]
    decreases |s|
  {
    if |s| == 0 then [""]
    else
      var rest := Fields(s[1..], c);
      if s[0] == c then [""] + rest
      else [[s[0]] + rest[0]] + rest[1..]
  }

  /** Joining the pieces with the separator gives the string back. */
  lemma {:induction false} FieldsJoin(s: string, c: char)
    ensures Join(Fields(s, c), [c]) == s
    decreases |s|
  {
    if |s| > 0 {
      var rest := Fields(s[1..], c);
      FieldsJoin(s[1..], c);
      if s[0] == c {
        assert Fields(s, c) == [""] + rest;
        assert s == [c] + s[1..];
      } else {
        var r := Fields(s, c);
        assert r == [[s[0]] + rest[0]] + rest[1..];
        if |rest| == 1 {
          assert s == [s[0]] + rest[0];
        } else {
          assert r[1..] == rest[1..];
          assert Join(rest, [c]) == rest[0] + [c] + Join(rest[1..], [c]);
          assert s == [s[0]] + s[1..];
        }
      }
    }
  }

  /** A string without the separator is one piece. */
  lemma {:induction false} FieldsOfPiece(t: string, c: char)
    requires c !in t
    ensures Fields(t, c) == [t]
    decreases |t|
  {
    if |t| > 0 {
      assert c !in t[1..] by {
        assert forall i :: 0 <= i < |t[1..]| ==> t[1..][i] == t[i + 1];
      }
      FieldsOfPiece(t[1..], c);
      assert t == [t[0]] + t[1..];
    }
  }

  /** A piece followed by the separator comes off the front whole. */
  lemma {:induction false} FieldsAfterPiece(w: string, c: char, t: string)
    requires c !in w
    ensures Fields(w + [c] + t, c) == [w] + Fields(t, c)
    decreases |w|
  {
    var s := w + [c] + t;
    if |w| == 0 {
      assert s[0] == c && s[1..] == t;
    } else {
      assert c !in w[1..] by {
        assert forall i :: 0 <= i < |w[1..]| ==> w[1..][i] == w[i + 1];
      }
      FieldsAfterPiece(w[1..], c, t);
      assert s[0] == w[0] && s[1..] == w[1..] + [c] + t;
      assert w == [w[0]] + w[1..];
    }
  }

  /** `authHeader.split(' ')[1]`. */
  function BearerToken(header: string): (token: string)
    requires StartsWith(header, BearerPrefix)
    ensures ' ' !in token
  {
    var rest := header[|BearerPrefix|..];
    assert header == "Bearer" + [' '] + rest;
    FieldsAfterPiece("Bearer", ' ', rest);
    Fields(header, ' ')[1]
  }

  /** The token is what follows `"Bearer "` when that holds no space, and in
      general the text after it up to the next space. */
  lemma BearerTokenOf(t: string, more: string)
    requires ' ' !in t
    ensures BearerToken(BearerPrefix + t) == t
    ensures BearerToken(BearerPrefix + t + [' '] + more) == t
  {
    var h := BearerPrefix + t;
    assert h[..|BearerPrefix|] == BearerPrefix;
    assert h == "Bearer" + [' '] + t;
    FieldsAfterPiece("Bearer", ' ', t);
    FieldsOfPiece(t, ' ');
    var h2 := BearerPrefix + t + [' '] + more;
    assert h2[..|BearerPrefix|] == BearerPrefix;
    assert h2 == "Bearer" + [' '] + (t + [' '] + more);
    FieldsAfterPiece("Bearer", ' ', t + [' '] + more);
    FieldsAfterPiece(t, ' ', more);
  }

  /** `verifyToken`: 401 without an `Authorization` header starting with
      `"Bearer "`; 403 when the token does not verify; otherwise `next` with
      the decoded payload. */
  function VerifyToken(header: Option<string>, crypto: Crypto): (g: Gate)
    ensures header.None? || !StartsWith(header.value, BearerPrefix) ==> g == Deny(UNAUTHORIZED)
    ensures header.Some? && StartsWith(header.value, BearerPrefix) ==>
      g == (match crypto.verify(BearerToken(header.value))
            case None => Deny(FORBIDDEN)
            case Some(c) => Pass(c))
  {
    if header.None? || !StartsWith(header.value, BearerPrefix) then Deny(UNAUTHORIZED)
    else
      match crypto.verify(BearerToken(header.value))
      case None => Deny(FORBIDDEN)
      case Some(c) => Pass(c)
  }

  /** The token a login hands out opens the door: sent back as
      `"Bearer " + token`, it verifies to the claims signed for the user,
      given a verifier that accepts what the signer produced. */
  lemma LoginTokenVerifies(s: Store, email: Option<string>, password: Option<string>, crypto: Crypto)
    requires Login(s, email, password, crypto).status == OK
    requires var c := ClaimsOf(FindByEmail(s, email).value);
      ' ' !in crypto.sign(c) && crypto.verify(crypto.sign(c)) == Some(c)
    ensures var token := Login(s, email, password, crypto).result.value.token;
      VerifyToken(Some(BearerPrefix + token), crypto) == Pass(ClaimsOf(FindByEmail(s, email).value))
  {
    var token := Login(s, email, password, crypto).result.value.token;
    BearerTokenOf(token, "");
    assert (BearerPrefix + token)[..|BearerPrefix|] == BearerPrefix;
  }

  // ---------------------------------------------------------------------------
  // `isAdmin`.
  // ---------------------------------------------------------------------------

  /** `isAdmin`, after `verifyToken`: 403 when the claims carry no user id
      (missing or 0, which JavaScript treats as false), 404 when no user has
      the id, 403 when that user's `is_admin` is not true, otherwise `next`. */
  function IsAdmin(s: Store, claims: Claims): (g: Gate)
    ensures g.Pass? <==>
      claims.id.Some? && claims.id.value != 0 && FindUser(s, claims.id.value).Some?
      && FindUser(s, claims.id.value).value.isAdmin == Some(true)
    ensures g.Pass? ==> g.claims == claims
    ensures claims.id.None? || claims.id.value == 0 ==> g == Deny(FORBIDDEN)
    ensures claims.id.Some? && claims.id.value != 0 && FindUser(s, claims.id.value).None? ==> g == Deny(NOT_FOUND)
    ensures claims.id.Some? && claims.id.value != 0 && FindUser(s, claims.id.value).Some? ==>
      (FindUser(s, claims.id.value).value.isAdmin != Some(true) ==> g == Deny(FORBIDDEN))
  {
    match claims.id
    case None => Deny(FORBIDDEN)
    case Some(id) =>
      if id == 0 then Deny(FORBIDDEN)
      else
        match FindUser(s, id)
        case None => Deny(NOT_FOUND)
        case Some(u) => if u.isAdmin == Some(true) then Pass(claims) else Deny(FORBIDDEN)
  }

  /** The two middlewares in a row, as the administrator routes mount them. */
  function AdminGate(s: Store, header: Option<string>, crypto: Crypto): (g: Gate)
    // a token refused by `verifyToken` is answered before any lookup
    ensures VerifyToken(header, crypto).Deny? ==> g == VerifyToken(header, crypto)
    // a passing request carries the verified claims on unchanged
    ensures g.Pass? ==> VerifyToken(header, crypto) == g
    // 404 only for a verified token whose id names nobody
    ensures g == Deny(NOT_FOUND) ==>
      && VerifyToken(header, crypto).Pass?
      && var c := VerifyToken(header, crypto).claims;
      && c.id.Some? && FindUser(s, c.id.value).None?
  {
    match VerifyToken(header, crypto)
    case Deny(status) => Deny(status)
    case Pass(c) => IsAdmin(s, c)
  }

  /** An administrator route is reached exactly with a bearer token that
      verifies to claims naming an existing administrator. */
  lemma AdminGatePasses(s: Store, header: Option<string>, crypto: Crypto)
    ensures AdminGate(s, header, crypto).Pass? <==>
      && header.Some? && StartsWith(header.value, BearerPrefix)
      && var c := crypto.verify(BearerToken(header.value));
      && c.Some? && c.value.id.Some? && c.value.id.value != 0
      && FindUser(s, c.value.id.value).Some? && FindUser(s, c.value.id.value).value.isAdmin == Some(true)
  {
  }

  /** Logging in as a user whose row says administrator, and sending the
      token back, reaches the administrator routes; for any other user it is
      refused with 403. */
  lemma AdminLoginReachesAdminRoutes(s: Store, email: Option<string>, password: Option<string>, crypto: Crypto)
    requires Login(s, email, password, crypto).status == OK
    requires var c := ClaimsOf(FindByEmail(s, email).value);
      ' ' !in crypto.sign(c) && crypto.verify(crypto.sign(c)) == Some(c)
    ensures var u := FindByEmail(s, email).value;
      var g := AdminGate(s, Some(BearerPrefix + Login(s, email, password, crypto).result.value.token), crypto);
      && (g.Pass? <==> u.id != 0 && FindUser(s, u.id).value.isAdmin == Some(true))
      && (!g.Pass? ==> g == Deny(FORBIDDEN))
  {
    LoginTokenVerifies(s, email, password, crypto);
  }
}

=== FILE: bookdetails.dfy ===
/** The book page (`controllers/getBookDetailsController.js`): resolving a
    book key through the review cache, then the custom catalogue, then Open
    Library; the review statistics; and the list of a book's reviews.
    Averages are kept exactly, in tenths: `ROUND(AVG(rating), 1)` of integer
    ratings is the nearest tenth, halves rounded away from zero. */
module BookDetails {
  import opened Common
  import opened Db
  import opened Catalog

  /** `ROUND(sum / n, 1)` expressed in tenths. */
  function RoundTenths(sum: int, n: nat): (t: int)
    requires n > 0
  {
    if sum >= 0 then (20 * sum + n) / (2 * n)
    else -((-20 * sum + n) / (2 * n))
  }

  /** Floor division facts for a non-negative numerator. */
  lemma DivBounds(x: int, d: int)
    requires x >= 0 && d > 0
    ensures d * (x / d) <= x < d * (x / d) + d
  {
    var q, r := x / d, x % d;
    assert x == d * q + r;
  }

  /** The rounded value is the nearest tenth: it is within half a tenth of the
      exact average `sum / n`, and a tie goes away from zero. */
  lemma {:induction false} RoundTenthsNearest(sum: int, n: nat)
    requires n > 0
    ensures var t, m := RoundTenths(sum, n), n as int;
      -m <= 20 * sum - 2 * m * t <= m
      && (sum >= 0 ==> 20 * sum - 2 * m * t < m)
      && (sum < 0 ==> -m < 20 * sum - 2 * m * t)
  {
    if sum >= 0 {
      DivBounds(20 * sum + n, 2 * n);
    } else {
      DivBounds(-20 * sum + n, 2 * n);
    }
  }

  /** The ratings of a book's reviews that are not NULL. */
  function RatingsOf(s: Store, bookId: string): (r: seq<int>)
  {
    var rated := Filter(ReviewsOfBook(s, bookId), (v: Review) => v.rating.Some?);
    Map(rated, (v: Review) => v.rating.GetOr(0))
  }

  /** `ROUND(AVG(rating), 1)` in tenths, `None` (NULL) when no review is rated. */
  function AverageTenths(ratings: seq<int>): (r: Option<int>)
    ensures r.None? <==> |ratings| == 0
    ensures r.Some? ==> NearestTenth(Sum(ratings), |ratings|, r.value)
  {
    if |ratings| == 0 then None
    else
      RoundTenthsNearest(Sum(ratings), |ratings|);
      Some(RoundTenths(Sum(ratings), |ratings|))
  }

  /** `t` tenths is `ROUND(sum / n, 1)`: within half a tenth of the exact
      average, a tie going away from zero. Exactly one `t` satisfies it. */
  ghost predicate NearestTenth(sum: int, n: nat, t: int) {
    var m := n as int;
    && -m <= 20 * sum - 2 * m * t <= m
    && (sum >= 0 ==> 20 * sum - 2 * m * t < m)
    && (sum < 0 ==> -m < 20 * sum - 2 * m * t)
  }

  datatype Stats = Stats(count: nat, averageTenths: int)

  /** `getReviewStats(bookId)`: the number of reviews of the book and their
      average rating, 0 when no review has a rating. */
  function ReviewStats(s: Store, bookId: string): (r: Stats)
    ensures r.count == |ReviewsOfBook(s, bookId)|
    ensures |RatingsOf(s, bookId)| == 0 ==> r.averageTenths == 0
    ensures |RatingsOf(s, bookId)| > 0 ==>
      NearestTenth(Sum(RatingsOf(s, bookId)), |RatingsOf(s, bookId)|, r.averageTenths)
  {
    Stats(|ReviewsOfBook(s, bookId)|, AverageTenths(RatingsOf(s, bookId)).GetOr(0))
  }

  /** The nearest tenth is unique, so the contracts above pin the average down. */
  lemma NearestTenthUnique(sum: int, n: nat, t1: int, t2: int)
    requires n > 0 && NearestTenth(sum, n, t1) && NearestTenth(sum, n, t2)
    ensures t1 == t2
  {
    var m := n as int;
    if t1 != t2 {
      var lo, hi := if t1 < t2 then t1 else t2, if t1 < t2 then t2 else t1;
      AtLeastOnce(m, hi - lo);
      assert false;
    }
  }

  lemma {:induction false} AtLeastOnce(m: int, k: int)
    requires m > 0 && k >= 1
    ensures m * k >= m
  {
    if k > 1 {
      AtLeastOnce(m, k - 1);
      assert m * k == m * (k - 1) + m;
    }
  }

  /** Ratings 4, 4, 4 and 5 average 4.25, which rounds to 4.3. */
  lemma TieRoundsAwayFromZero()
    ensures AverageTenths([4, 4, 4, 5]) == Some(43)
  {
    assert Sum([4, 4, 4, 5]) == 17;
    NearestTenthUnique(17, 4, AverageTenths([4, 4, 4, 5]).value, 43);
  }

  /** A book with no reviews has count 0 and average 0. */
  lemma NoReviewsNoStats(s: Store, bookId: string)
    requires forall v :: v in s.reviews ==> v.bookId != bookId
    ensures ReviewStats(s, bookId) == Stats(0, 0)
  {
    var b := ReviewsOfBook(s, bookId);
    assert |Filter(b, (v: Review) => v.rating.Some?)| == 0;
  }

  /** The page's book fields. */
  datatype BookData = BookData(
    key: string, title: Option<string>, author: Option<string>, cover: Option<string>,
    genre: seq<string>, description: Option<string>)

  datatype BookPage = BookPage(book: BookData, stats: Stats)

  /** The fields of a stored row: genre cut to four (or `[]`), an empty
      description read as `null`. */
  function FromStored(key: string, info: BookInfo): (d: BookData)
    ensures d.key == key && d.title == info.title && d.author == info.author && d.cover == info.cover
    ensures |d.genre| <= 4
    ensures info.genre.None? ==> d.genre == []
    ensures info.genre.Some? ==>
      |d.genre| == (if |info.genre.value| < 4 then |info.genre.value| else 4)
      && d.genre == info.genre.value[..|d.genre|]
    ensures d.description.Some? <==> info.description.Some? && info.description.value != ""
    ensures d.description.Some? ==> d.description == info.description
  {
    BookData(key, info.title, info.author, info.cover,
      if info.genre.Some? then Take(info.genre.value, 4) else [],
      if info.description.Some? && info.description.value != "" then info.description else None)
  }

  /** Where the page's book came from. */
  datatype Origin = FromCache | FromCustom | FromApi

  /** The resolution chain: cache, then custom catalogue, then Open Library. */
  function ResolveBook(s: Store, api: OpenLibrary, bookId: string): (r: Option<(Origin, BookData)>)
    ensures FindCached(s, bookId).Some? ==>
      r == Some((FromCache, FromStored(bookId, FindCached(s, bookId).value.info)))
    ensures FindCached(s, bookId).None? && FindCustomByKey(s, bookId).Some? ==>
      r == Some((FromCustom, FromStored(bookId, FindCustomByKey(s, bookId).value.info)))
    ensures FindCached(s, bookId).None? && FindCustomByKey(s, bookId).None? ==>
      (r.None? <==> FetchWorkDetails(api, bookId).None?)
      && (r.Some? ==>
            var w := FetchWorkDetails(api, bookId).value;
            r.value == (FromApi, BookData(bookId, Some(w.title), Some(w.author), w.cover, w.genre, w.description)))
  {
    match FindCached(s, bookId)
    case Some(b) => Some((FromCache, FromStored(b.key, b.info)))
    case None =>
      match FindCustomByKey(s, bookId)
      case Some(b) => Some((FromCustom, FromStored(bookId, b.info)))
      case None =>
        match FetchWorkDetails(api, bookId)
        case None => None
        case Some(w) => Some((FromApi, BookData(bookId, Some(w.title), Some(w.author), w.cover, w.genre, w.description)))
  }

  /** `GET /books/:bookId`: the first source that knows the key, with the
      review statistics; 404 only when all three miss; 500 for an empty key.
      Nothing is written. */
  function GetBookDetails(s: Store, api: OpenLibrary, bookId: string): (r: Reply<BookPage>)
    ensures r.store == s
    ensures bookId == "" ==> r.status == SERVER_ERROR
    ensures bookId != "" ==>
      && (r.status == NOT_FOUND <==> ResolveBook(s, api, bookId).None?)
      && (r.status != NOT_FOUND ==>
            r.status == OK && r.result.Some?
            && r.result.value.book == ResolveBook(s, api, bookId).value.1
            && r.result.value.book.key == bookId
            && |r.result.value.book.genre| <= 4
            && r.result.value.stats == ReviewStats(s, bookId))
  {
    if bookId == "" then Fail(s, SERVER_ERROR)
    else
      match ResolveBook(s, api, bookId)
      case None => Fail(s, NOT_FOUND)
      case Some((_, book)) => Reply(OK, Some(BookPage(book, ReviewStats(s, bookId))), s)
  }

  /** A later source is consulted only when the earlier ones miss: once the
      cache or the custom catalogue knows the key, Open Library's answers do
      not matter. */
  lemma LocalSourcesShadowApi(s: Store, api1: OpenLibrary, api2: OpenLibrary, bookId: string)
    requires FindCached(s, bookId).Some? || FindCustomByKey(s, bookId).Some?
    ensures GetBookDetails(s, api1, bookId) == GetBookDetails(s, api2, bookId)
  {
  }

  /** 404 is answered exactly when all three sources miss. */
  lemma NotFoundOnlyWhenAllMiss(s: Store, api: OpenLibrary, bookId: string)
    requires bookId != ""
    ensures GetBookDetails(s, api, bookId).status == NOT_FOUND <==>
      FindCached(s, bookId).None? && FindCustomByKey(s, bookId).None? && FetchWorkDetails(api, bookId).None?
  {
  }

  /** One row of the book's review list: the review joined with its author. */
  datatype ReviewRow = ReviewRow(id: int, rating: Option<int>, text: Option<string>, username: Option<string>, profileImg: Option<string>)

  datatype ReviewList = ReviewList(reviews: seq<ReviewRow>, stats: Stats)

  /** The review has an author row (`JOIN users u ON r.user_id = u.id`). */
  function HasAuthor(s: Store): Review -> bool {
    (v: Review) => FindUser(s, v.userId).Some?
  }

  /** The review joined with its author's name and picture. */
  function AuthorRow(s: Store): Review -> ReviewRow {
    (v: Review) =>
      var u := FindUser(s, v.userId);
      ReviewRow(v.id, v.rating, v.text, if u.Some? then u.value.username else None,
        if u.Some? then u.value.profileImg else None)
  }

  /** The row carries the review's id, rating and text. */
  predicate SameReview(row: ReviewRow, v: Review) {
    row.id == v.id && row.rating == v.rating && row.text == v.text
  }

  /** The rows of `vs` whose author exists, joined, in order. */
  function JoinAuthors(s: Store, vs: seq<Review>): (rows: seq<ReviewRow>)
    ensures |rows| <= |vs|
    ensures forall row :: row in rows ==> exists v :: v in vs && SameReview(row, v)
  {
    var kept := Filter(vs, HasAuthor(s));
    var rows := Map(kept, AuthorRow(s));
    assert forall row :: row in rows ==> exists v :: v in vs && SameReview(row, v) by {
      forall row | row in rows ensures exists v :: v in vs && SameReview(row, v) {
        var i :| 0 <= i < |rows| && rows[i] == row;
        assert kept[i] in kept && SameReview(row, kept[i]);
      }
    }
    rows
  }

  /** `GET /books/:bookId/reviews`: the book's reviews whose author exists,
      most recent first, with the count of all its reviews and the average
      (both 0 when there are none). */
  function GetReviewsByBook(s: Store, bookId: string): (r: Reply<ReviewList>)
    ensures r.store == s
    ensures bookId == "" ==> r.status == SERVER_ERROR
    ensures bookId != "" ==>
      && r.status == OK && r.result.Some?
      && r.result.value.stats == ReviewStats(s, bookId)
      && |r.result.value.reviews| <= r.result.value.stats.count
      && (forall row :: row in r.result.value.reviews ==>
            exists v :: v in s.reviews && v.bookId == bookId && v.id == row.id && v.rating == row.rating)
  {
    if bookId == "" then Fail(s, SERVER_ERROR)
    else
      var mine := ReviewsOfBook(s, bookId);
      var rows := JoinAuthors(s, Reverse(mine));
      Reply(OK, Some(ReviewList(rows, ReviewStats(s, bookId))), s)
  }
  /** When every review in `vs` has an author, the join keeps all of them, in order. */
  lemma JoinAuthorsAll(s: Store, vs: seq<Review>)
    requires forall v :: v in vs ==> FindUser(s, v.userId).Some?
    ensures |JoinAuthors(s, vs)| == |vs|
    ensures forall i :: 0 <= i < |vs| ==> SameReview(JoinAuthors(s, vs)[i], vs[i])
  {
    FilterAll(vs, HasAuthor(s));
  }

  /** Reversing the book's reviews keeps every review's author present. */
  lemma ReversedAuthors(s: Store, bookId: string, rev: seq<Review>)
    requires rev == Reverse(ReviewsOfBook(s, bookId))
    requires forall v :: v in s.reviews && v.bookId == bookId ==> FindUser(s, v.userId).Some?
    ensures forall v :: v in rev ==> FindUser(s, v.userId).Some?
  {
    forall v | v in rev ensures FindUser(s, v.userId).Some? {
      assert v in multiset(rev);
    }
  }

  /** When every review of the book has an author, the list holds all of them,
      newest first, and its length is the count the statistics report. */
  lemma ReviewsListedNewestFirst(s: Store, bookId: string)
    requires bookId != ""
    requires forall v :: v in s.reviews && v.bookId == bookId ==> FindUser(s, v.userId).Some?
    ensures var l, mine := GetReviewsByBook(s, bookId).result.value, ReviewsOfBook(s, bookId);
      && |l.reviews| == l.stats.count == |mine|
      && forall i :: 0 <= i < |mine| ==>
           l.reviews[i].id == mine[|mine| - 1 - i].id && l.reviews[i].rating == mine[|mine| - 1 - i].rating
  {
    var mine := ReviewsOfBook(s, bookId);
    var rev := Reverse(mine);
    ReversedAuthors(s, bookId, rev);
    JoinAuthorsAll(s, rev);
    var l := GetReviewsByBook(s, bookId).result.value;
    assert l.reviews == JoinAuthors(s, rev);
    assert l.stats.count == |mine|;
  }
}

=== FILE: booksearch.dfy ===
/** Book search and reader recommendations (`controllers/bookController.js`).
    The search merges Open Library results, normalised one by one, with at
    most five matches from the custom catalogue. */
module BookSearch {
  import opened Common
  import opened Text
  import opened Db
  import opened Catalog

  /** One search result. */
  datatype SearchItem = SearchItem(
    source: Source, key: string, title: Option<string>, author: Option<string>,
    cover: Option<string>, genre: seq<string>, description: Option<string>)

  /** `author_name?.[0] || 'Unknown'`. */
  function FirstAuthor(names: Option<seq<string>>): (r: string)
    ensures r != ""
    ensures names.Some? && |names.value| > 0 && names.value[0] != "" ==> r == names.value[0]
  {
    if names.Some? && |names.value| > 0 && names.value[0] != "" then names.value[0] else "Unknown"
  }

  /** The normalised item for one search document, `None` (null) when its
      work record cannot be fetched. */
  function ApiItem(api: OpenLibrary, d: SearchDoc): (r: Option<SearchItem>)
    ensures r.None? <==> api.works(PathUrl(d.key)).None?
    ensures r.Some? ==>
      var w := api.works(PathUrl(d.key)).value;
      && r.value.source == Api
      && r.value.key == StripWorks(d.key)
      && r.value.title == d.title
      && r.value.author == Some(FirstAuthor(d.authorNames))
      && r.value.cover == CoverFromId(d.coverI)
      && |r.value.genre| <= 3
      && (w.subjects.None? ==> r.value.genre == [])
      && (w.subjects.Some? ==> r.value.genre == Take(w.subjects.value, 3))
      && r.value.description == FlattenDescription(w.description)
  {
    match api.works(PathUrl(d.key))
    case None => None
    case Some(w) =>
      Some(SearchItem(Api, StripWorks(d.key), d.title, Some(FirstAuthor(d.authorNames)),
        CoverFromId(d.coverI), if w.subjects.Some? then Take(w.subjects.value, 3) else [],
        FlattenDescription(w.description)))
  }

  /** `.filter(Boolean)` over a list of optional items. */
  function Present<T(!new)>(xs: seq<Option<T>>): (r: seq<T>)
    ensures |r| <= |xs|
    ensures forall x :: x in r <==> Some(x) in xs
  {
    if |xs| == 0 then []
    else if xs[0].Some? then [xs[0].value] + Present(xs[1..])
    else Present(xs[1..])
  }

  /** The documents whose work record can be fetched. */
  function Fetched(api: OpenLibrary, docs: seq<SearchDoc>): seq<SearchDoc> {
    Filter(docs, (d: SearchDoc) => api.works(PathUrl(d.key)).Some?)
  }

  /** Mapping every document and dropping the nulls keeps exactly the
      documents whose work record was fetched, in order. */
  lemma {:induction false} PresentApiItems(api: OpenLibrary, docs: seq<SearchDoc>)
    ensures var p, f := Present(Map(docs, (d: SearchDoc) => ApiItem(api, d))), Fetched(api, docs);
      |p| == |f| && forall i :: 0 <= i < |f| ==> ApiItem(api, f[i]) == Some(p[i])
  {
    if |docs| > 0 {
      var g := (d: SearchDoc) => ApiItem(api, d);
      assert Map(docs, g)[1..] == Map(docs[1..], g);
      PresentApiItems(api, docs[1..]);
    }
  }

  /** The merged result: the fetched Open Library items, then the custom items. */
  function Merge(api: OpenLibrary, docs: seq<SearchDoc>, custom: seq<CustomBook>): (r: seq<SearchItem>)
    ensures var f := Fetched(api, docs);
      && |r| == |f| + |custom|
      && (forall i :: 0 <= i < |f| ==> ApiItem(api, f[i]) == Some(r[i]))
      && (forall i :: 0 <= i < |custom| ==> r[|f| + i] == CustomItem(custom[i]))
  {
    PresentApiItems(api, docs);
    Present(Map(docs, (d: SearchDoc) => ApiItem(api, d))) + Map(custom, CustomItem)
  }

  /** `LOWER(col) ILIKE pattern` for a lower-case pattern; NULL never matches. */
  predicate ColumnILike(col: Option<string>, pattern: string) {
    col.Some? && Like(Lower(col.value), pattern)
  }

  /** One custom row as a search item: its key, title, author and cover as
      stored, `genre?.slice(0, 3) || []`, and `description || null`. */
  function CustomItem(b: CustomBook): (r: SearchItem)
    ensures r.source == Custom
    ensures r.key == b.key && r.title == b.info.title && r.author == b.info.author
    ensures r.cover == b.info.cover
    ensures |r.genre| <= 3
    ensures b.info.genre.None? ==> r.genre == []
    ensures b.info.genre.Some? ==> r.genre == Take(b.info.genre.value, 3)
    ensures r.description.Some? <==> b.info.description.Some? && b.info.description.value != ""
    ensures r.description.Some? ==> r.description == b.info.description
  {
    SearchItem(Custom, b.key, b.info.title, b.info.author, b.info.cover,
      if b.info.genre.Some? then Take(b.info.genre.value, 3) else [],
      if b.info.description.Some? && b.info.description.value != "" then b.info.description else None)
  }

  /** The custom rows whose lower-cased title or author matches `%q%`. */
  function CustomMatches(s: Store, q: string): seq<CustomBook> {
    var pattern := "%" + Lower(q) + "%";
    Filter(s.custom, (b: CustomBook) => ColumnILike(b.info.title, pattern) || ColumnILike(b.info.author, pattern))
  }

  /** `GET /books/search?q=`: 400 for an empty query; 500 when the search
      request fails; otherwise the normalised Open Library items (of the first
      twelve documents, those whose work record could be fetched) followed by
      at most five custom matches. `search` is keyed by the query itself; the
      URL's percent-encoding is not modelled. Nothing is written. */
  function SearchBooks(s: Store, api: OpenLibrary, q: Option<string>): (r: Reply<seq<SearchItem>>)
    ensures r.store == s
    ensures q.None? || q.value == "" ==> r.status == BAD_REQUEST
    ensures q.Some? && q.value != "" && api.search(q.value).None? ==> r.status == SERVER_ERROR
    ensures q.Some? && q.value != "" && api.search(q.value).Some? ==>
      var docs := Take(api.search(q.value).value.docs, 12);
      var custom := Take(CustomMatches(s, q.value), 5);
      && r.status == OK
      && r.result == Some(Merge(api, docs, custom))
      && |r.result.value| <= 17
  {
    if q.None? || q.value == "" then Fail(s, BAD_REQUEST)
    else
      match api.search(q.value)
      case None => Fail(s, SERVER_ERROR)
      case Some(res) =>
        var docs := Take(res.docs, 12);
        var custom := Take(CustomMatches(s, q.value), 5);
        Reply(OK, Some(Merge(api, docs, custom)), s)
  }

  /** Every merged item is normalised: Open Library items carry a stripped
      key and at most three genres, custom items at most three genres. */
  lemma MergedItemsNormalised(api: OpenLibrary, docs: seq<SearchDoc>, custom: seq<CustomBook>)
    ensures var r, f := Merge(api, docs, custom), Fetched(api, docs);
      && (forall x :: x in r ==> |x.genre| <= 3)
      && (forall i :: 0 <= i < |f| ==> r[i].source == Api && r[i].key == StripWorks(f[i].key))
  {
    var r, f := Merge(api, docs, custom), Fetched(api, docs);
    assert |r| == |f| + |custom|;
    forall i | 0 <= i < |r| ensures |r[i].genre| <= 3 && (i < |f| ==> r[i].source == Api && r[i].key == StripWorks(f[i].key)) {
      if i < |f| {
        assert ApiItem(api, f[i]) == Some(r[i]);
      } else {
        assert r[|f| + (i - |f|)] == CustomItem(custom[i - |f|]);
      }
    }
  }

  /** `POST /books/recommend`: 400 unless both title and author are given
      (and non-empty); otherwise one row is added, attributed to the caller. */
  function RecommendBook(s: Store, user: UserId, title: Option<string>, author: Option<string>): (r: Reply<Recommendation>)
    ensures title.None? || title.value == "" || author.None? || author.value == "" ==>
      r.status == BAD_REQUEST && r.store == s
    ensures r.status == CREATED <==> title.Some? && title.value != "" && author.Some? && author.value != ""
    ensures r.status == CREATED ==>
      && r.result.Some?
      && r.store.recommended == s.recommended + [r.result.value]
      && r.result.value.title == title.value && r.result.value.author == author.value
      && r.result.value.recommendedBy == user
      && r.store == s.(recommended := r.store.recommended, nextId := r.store.nextId)
  {
    if title.None? || title.value == "" || author.None? || author.value == "" then Fail(s, BAD_REQUEST)
    else
      var row := Recommendation(s.nextId, title.value, author.value, user);
      Reply(CREATED, Some(row), s.(recommended := s.recommended + [row], nextId := s.nextId + 1))
  }

  /** `DELETE /books/recommend/:id`: removes the rows with that id; 404 when
      there were none; 500 for an id the database cannot read. */
  function DeleteRecommendedBook(s: Store, id: Option<int>): (r: Reply<Recommendation>)
    ensures id.None? ==> r.status == SERVER_ERROR && r.store == s
    ensures id.Some? && (forall b :: b in s.recommended ==> b.id != id.value) ==>
      r.status == NOT_FOUND && r.store == s
    ensures r.status == OK <==> id.Some? && exists b :: b in s.recommended && b.id == id.value
    ensures r.status == OK ==>
      && r.result.Some? && r.result.value in s.recommended && r.result.value.id == id.value
      && r.store == s.(recommended := r.store.recommended)
      && (forall b :: b in r.store.recommended <==> b in s.recommended && b.id != id.value)
  {
    match id
    case None => Fail(s, SERVER_ERROR)
    case Some(n) =>
      match FindFirst(s.recommended, (b: Recommendation) => b.id == n)
      case None => Fail(s, NOT_FOUND)
      case Some(row) => Reply(OK, Some(row), s.(recommended := Filter(s.recommended, NotRecommendation(n))))
  }

  /** The recommendations a `DELETE ... WHERE id = n` keeps. */
  function NotRecommendation(n: int): Recommendation -> bool {
    (b: Recommendation) => b.id != n
  }

  /** Recommending a book and then deleting the new row by its id gives back
      the recommendations as they were, when ids are below the id counter. */
  lemma RecommendThenDeleteRestores(s: Store, user: UserId, title: string, author: string)
    requires title != "" && author != ""
    requires forall b :: b in s.recommended ==> b.id < s.nextId
    ensures var p := RecommendBook(s, user, Some(title), Some(author));
      var d := DeleteRecommendedBook(p.store, Some(p.result.value.id));
      p.status == CREATED && d.status == OK && d.store.recommended == s.recommended
  {
    var p := RecommendBook(s, user, Some(title), Some(author));
    var b := p.result.value;
    assert b in p.store.recommended;
    FilterConcat(s.recommended, [b], NotRecommendation(b.id));
    FilterAll(s.recommended, NotRecommendation(b.id));
  }
}

=== FILE: catalog.dfy ===
/** The Open Library gateway and the normalisation of its work records
    (`fetchApiBookDetails` in `controllers/reviewController.js`, repeated
    verbatim in `controllers/getBookDetailsController.js`). The gateway is a
    set of oracle functions, one per kind of resource, each answering the GET
    of a URL built exactly as the code builds it; `None` is a request that
    failed (axios threw). */
module Catalog {
  import opened Common
  import opened Text
  import opened Db

  /** `data.description`: absent, a plain string, or an object whose `value` may be missing. */
  datatype Description = NoDescription | TextDescription(text: string) | ValueDescription(value: Option<string>)

  /** The fields of `/works/{id}.json` the code reads: `title`, `subjects`,
      `description`, `authors[0].author.key` and `covers`. */
  datatype WorkRecord = WorkRecord(
    title: Option<string>,
    subjects: Option<seq<string>>,
    description: Description,
    firstAuthorKey: Option<string>,
    covers: seq<int>)

  /** `/authors/{key}.json`: only `name` is read. */
  datatype AuthorRecord = AuthorRecord(name: Option<string>)

  /** One entry of `/subjects/{genre}.json`'s `works`: `key`, `title`,
      `authors[0].name` and `cover_id`. */
  datatype SubjectWork = SubjectWork(key: string, title: Option<string>, firstAuthorName: Option<string>, coverId: Option<int>)

  datatype SubjectRecord = SubjectRecord(works: Option<seq<SubjectWork>>)

  /** One entry of `/search.json`'s `docs`: `key`, `title`, `author_name` and `cover_i`. */
  datatype SearchDoc = SearchDoc(key: string, title: Option<string>, authorNames: Option<seq<string>>, coverI: Option<int>)

  datatype SearchRecord = SearchRecord(docs: seq<SearchDoc>)

  datatype OpenLibrary = OpenLibrary(
    works: string -> Option<WorkRecord>,
    authors: string -> Option<AuthorRecord>,
    subjects: string -> Option<SubjectRecord>,
    search: string -> Option<SearchRecord>)

  const Host: string := "https://openlibrary.org"
  const UnknownAuthor: string := "Unknown Author"
  const NoDescriptionText: string := "No description available"

  /** `https://openlibrary.org/works/${bookId}.json`. */
  function WorkUrl(bookId: string): string {
    Host + "/works/" + bookId + ".json"
  }

  /** `https://openlibrary.org${path}.json`, for a path that starts with a slash. */
  function PathUrl(path: string): string {
    Host + path + ".json"
  }

  /** `https://covers.openlibrary.org/b/id/${id}-M.jpg`. */
  function CoverUrl(id: int): (url: string)
    ensures IsImageUrl(url)
  {
    var prefix := "https://covers.openlibrary.org/b/id/" + IntToString(id);
    assert prefix + "-M.jpg" == "https://covers.openlibrary.org/b/id/" + IntToString(id) + "-M.jpg";
    CoverUrlIsImage(prefix);
    prefix + "-M.jpg"
  }

  /** `id ? CoverUrl(id) : null` for a numeric id (0 is falsy). */
  function CoverFromId(id: Option<int>): (r: Option<string>)
    ensures r.Some? <==> id.Some? && id.value != 0
    ensures r.Some? ==> r.value == CoverUrl(id.value) && IsImageUrl(r.value)
  {
    if id.Some? && id.value != 0 then Some(CoverUrl(id.value)) else None
  }

  /** `typeof d === 'string' ? d : d?.value || null`. */
  function FlattenDescription(d: Description): (r: Option<string>)
    ensures d.TextDescription? ==> r == Some(d.text)
    ensures d.ValueDescription? && d.value.Some? && d.value.value != "" ==> r == d.value
    ensures d.NoDescription? || (d.ValueDescription? && (d.value.None? || d.value.value == "")) ==> r.None?
  {
    match d
    case TextDescription(t) => Some(t)
    case ValueDescription(v) => if v.Some? && v.value != "" then v else None
    case NoDescription => None
  }

  /** The normalised record `{ title, author, cover_img, genre, description }`. */
  datatype WorkDetails = WorkDetails(
    title: string, author: string, cover: Option<string>,
    genre: seq<string>, description: Option<string>)

  function ToInfo(d: WorkDetails): BookInfo {
    BookInfo(Some(d.title), Some(d.author), d.cover, Some(d.genre), d.description)
  }

  /** The author lookup step: `None` when the author request failed, which
      aborts the whole fetch. */
  function AuthorName(api: OpenLibrary, key: Option<string>): (r: Option<string>)
    ensures key.None? || key.value == "" ==> r == Some(UnknownAuthor)
    ensures key.Some? && key.value != "" ==>
      (r.None? <==> api.authors(PathUrl(key.value)).None?)
    // a fetched author gives its name, or "Unknown Author" when it has none
    ensures key.Some? && key.value != "" && api.authors(PathUrl(key.value)).Some? ==>
      var a := api.authors(PathUrl(key.value)).value;
      r == Some(if a.name.Some? && a.name.value != "" then a.name.value else UnknownAuthor)
    ensures r.Some? ==> r.value != ""
  {
    if key.Some? && key.value != "" then
      match api.authors(PathUrl(key.value))
      case None => None
      case Some(a) => Some(NameOr(a.name, UnknownAuthor))
    else Some(UnknownAuthor)
  }

  /** `fetchApiBookDetails(bookId)`: the normalised work, or `None` ("null")
      when the work request or the author request failed. */
  function FetchWorkDetails(api: OpenLibrary, bookId: string): (r: Option<WorkDetails>)
    ensures api.works(WorkUrl(bookId)).None? ==> r.None?
    ensures api.works(WorkUrl(bookId)).Some? ==>
      var w := api.works(WorkUrl(bookId)).value;
      && (r.None? <==> AuthorName(api, w.firstAuthorKey).None?)
      && (r.Some? ==>
        // genre is the first at most four subjects, [] when there are none
        && |r.value.genre| <= 4
        && (w.subjects.None? ==> r.value.genre == [])
        && (w.subjects.Some? ==> |r.value.genre| == (if |w.subjects.value| < 4 then |w.subjects.value| else 4)
                                 && r.value.genre == w.subjects.value[..|r.value.genre|])
        // title and author never come back empty
        && r.value.title != "" && r.value.author != ""
        && (w.title.Some? && w.title.value != "" ==> r.value.title == w.title.value)
        && ((w.title.None? || w.title.value == "") ==> r.value.title == "Untitled")
        && r.value.author == AuthorName(api, w.firstAuthorKey).value
        && ((w.firstAuthorKey.None? || w.firstAuthorKey.value == "") ==> r.value.author == UnknownAuthor)
        // the cover is built from the first cover id, and is an image URL
        && (r.value.cover.Some? <==> |w.covers| > 0 && w.covers[0] != 0)
        && (r.value.cover.Some? ==> r.value.cover.value == CoverUrl(w.covers[0]) && IsImageUrl(r.value.cover.value))
        && r.value.description == FlattenDescription(w.description))
  {
    match api.works(WorkUrl(bookId))
    case None => None
    case Some(w) =>
      match AuthorName(api, w.firstAuthorKey)
      case None => None
      case Some(author) =>
        var genre := if w.subjects.Some? then Take(w.subjects.value, 4) else [];
        var cover := CoverFromId(if |w.covers| > 0 then Some(w.covers[0]) else None);
        Some(WorkDetails(NameOr(w.title, "Untitled"), author, cover, genre, FlattenDescription(w.description)))
  }

  /** `fetchBookDetailsFromOpenLibrary(bookId).description` (dashboard): the
      plain-string description, else a non-empty `.value`, else the
      placeholder; a failed request also gives the placeholder. */
  function FeaturedDescription(api: OpenLibrary, bookId: string): (r: string)
    ensures api.works(WorkUrl(bookId)).None? ==> r == NoDescriptionText
    ensures api.works(WorkUrl(bookId)).Some? ==>
      var d := api.works(WorkUrl(bookId)).value.description;
      r == FlattenDescription(d).GetOr(NoDescriptionText)
  {
    match api.works(WorkUrl(bookId))
    case None => NoDescriptionText
    case Some(w) =>
      match w.description
      case TextDescription(t) => t
      case ValueDescription(v) => if v.Some? && v.value != "" then v.value else NoDescriptionText
      case NoDescription => NoDescriptionText
  }
}

=== FILE: comments.dfy ===
/** Comments on reviews and likes on comments (`controllers/commentController.js`).
    A comment id arrives as a route parameter; `None` stands for a value the
    code or the database cannot read as an integer. */
module Comments {
  import opened Common
  import opened Db
  import opened Notify

  /** The users who like comment `c`. */
  function Likers(s: Store, c: int): set<UserId> {
    set p | p in s.commentLikes && p.1 == c :: p.0
  }

  /** `SELECT COUNT(*) FROM comment_likes WHERE comment_id = $1`. */
  function LikesCount(s: Store, c: int): nat {
    |Likers(s, c)|
  }

  /** Adding a like by a user who did not like the comment raises its count by one. */
  lemma LikesCountAdd(s: Store, t: Store, u: UserId, c: int)
    requires (u, c) !in s.commentLikes
    requires t.commentLikes == s.commentLikes + {(u, c)}
    ensures LikesCount(t, c) == LikesCount(s, c) + 1
  {
    assert Likers(t, c) == Likers(s, c) + {u};
    assert u !in Likers(s, c);
  }

  /** Removing an existing like lowers the count by one. */
  lemma LikesCountRemove(s: Store, t: Store, u: UserId, c: int)
    requires (u, c) in s.commentLikes
    requires t.commentLikes == s.commentLikes - {(u, c)}
    ensures LikesCount(t, c) + 1 == LikesCount(s, c)
  {
    assert Likers(s, c) == Likers(t, c) + {u};
    assert u !in Likers(t, c);
  }

  /** The tables a comment handler leaves alone (besides notifications). */
  ghost predicate SameOutsideComments(s: Store, t: Store) {
    && s.users == t.users && s.reviews == t.reviews && s.cached == t.cached
    && s.custom == t.custom && s.reviewLikes == t.reviewLikes
    && s.reviewUnlikes == t.reviewUnlikes && s.followers == t.followers
    && s.recommended == t.recommended
  }

  /** `POST /comments/:reviewId`. An empty or absent text is refused with 400;
      an unreadable review id makes the INSERT fail (500). */
  function PostComment(s: Store, user: UserId, reviewId: Option<int>, text: Option<string>): (r: Reply<Comment>)
    ensures text.None? || text.value == "" ==> r.status == BAD_REQUEST && r.store == s
    ensures r.status != CREATED ==> r.store == s
    ensures r.status == CREATED <==> text.Some? && text.value != "" && reviewId.Some?
    ensures r.status == CREATED ==>
      && r.result.Some?
      && r.store.comments == s.comments + [r.result.value]
      && r.result.value == Comment(s.nextId, reviewId.value, user, text.value)
      && SameOutsideComments(s, r.store) && r.store.commentLikes == s.commentLikes
      && r.store.notifications == s.notifications
  {
    if text.None? || text.value == "" then Fail(s, BAD_REQUEST)
    else if reviewId.None? then Fail(s, SERVER_ERROR)
    else
      var c := Comment(s.nextId, reviewId.value, user, text.value);
      Reply(CREATED, Some(c), s.(comments := s.comments + [c], nextId := s.nextId + 1))
  }

  /** The notification a comment like sends to the comment's author. */
  function CommentLikeNotice(s: Store, user: UserId, author: UserId, commentId: int): NotificationRequest {
    NotificationRequest(user, author, "like_comment",
      NameOr(UsernameOf(s, user), "Someone") + " liked your comment",
      Some("comment"), Some(commentId))
  }

  /** What a like of comment `c`, written by `author`, does to the
      notification log: nothing when the liker is the author or the insert is
      not stored; otherwise one unread "like_comment" notice from the liker to
      the author, naming the liker and pointing at the comment, is appended. */
  ghost predicate LikeNoticed(s: Store, t: Store, user: UserId, author: UserId, c: int, persisted: bool) {
    if user == author || !persisted then t.notifications == s.notifications
    else
      && |t.notifications| == |s.notifications| + 1
      && t.notifications[..|s.notifications|] == s.notifications
      && var m := t.notifications[|s.notifications|];
      && m.sender == user && m.receiver == author && m.kind == "like_comment"
      && m.message == NameOr(UsernameOf(s, user), "Someone") + " liked your comment"
      && m.targetType == Some("comment") && m.targetId == Some(c) && !m.isRead
  }

  /** Sends the like notification unless the liker wrote the comment. */
  function NotifyAuthor(s: Store, user: UserId, author: UserId, commentId: int, persisted: bool): (t: Store)
    ensures SameExceptNotifications(s, t)
    ensures user == author ==> t == s
    ensures |t.notifications| >= |s.notifications| && t.notifications[..|s.notifications|] == s.notifications
    ensures user != author && persisted ==>
      |t.notifications| == |s.notifications| + 1 && t.notifications[|s.notifications|].receiver == author
      && t.notifications[|s.notifications|].kind == "like_comment"
    ensures LikeNoticed(s, t, user, author, commentId, persisted)
  {
    if user != author then SendNotification(s, CommentLikeNotice(s, user, author, commentId), persisted) else s
  }

  /** `POST /comments/:commentId/like`: 404 for a missing comment; otherwise the
      like is added if it was not there (liking twice changes nothing) and the
      reply carries the comment's like count afterwards. */
  function LikeComment(s: Store, user: UserId, commentId: Option<int>, persisted: bool): (r: Reply<nat>)
    ensures commentId.None? ==> r.status == SERVER_ERROR && r.store == s
    ensures commentId.Some? && FindComment(s, commentId.value).None? ==> r.status == NOT_FOUND && r.store == s
    ensures commentId.Some? && FindComment(s, commentId.value).Some? ==>
      var c := commentId.value;
      && r.status == OK
      && r.store.commentLikes == s.commentLikes + {(user, c)}
      && r.result == Some(LikesCount(r.store, c))
      && SameOutsideComments(s, r.store) && r.store.comments == s.comments
      // the author is told, unless they liked their own comment
      && LikeNoticed(s, r.store, user, FindComment(s, c).value.userId, c, persisted)
  {
    match commentId
    case None => Fail(s, SERVER_ERROR)
    case Some(c) =>
      match FindComment(s, c)
      case None => Fail(s, NOT_FOUND)
      case Some(cm) =>
        var s1 := s.(commentLikes := s.commentLikes + {(user, c)});
        var count := LikesCount(s1, c);
        var s2 := NotifyAuthor(s1, user, cm.userId, c, persisted);
        Reply(OK, Some(count), s2)
  }

  /** Liking a comment twice leaves the likes as liking it once did. */
  lemma LikeCommentIdempotent(s: Store, user: UserId, c: int, persisted: bool)
    requires FindComment(s, c).Some?
    ensures
      var once := LikeComment(s, user, Some(c), persisted);
      var twice := LikeComment(once.store, user, Some(c), persisted);
      twice.store.commentLikes == once.store.commentLikes && twice.result == once.result
  {
    var once := LikeComment(s, user, Some(c), persisted);
    assert FindComment(once.store, c).Some? by {
      assert FindComment(s, c).value in once.store.comments;
    }
  }

  /** `DELETE /comments/:commentId/like`: removes the caller's like, if any;
      200 with the count afterwards, whether or not the comment exists. */
  function UnlikeComment(s: Store, user: UserId, commentId: Option<int>): (r: Reply<nat>)
    ensures commentId.None? ==> r.status == SERVER_ERROR && r.store == s
    ensures commentId.Some? ==>
      && r.status == OK
      && r.store == s.(commentLikes := s.commentLikes - {(user, commentId.value)})
      && r.result == Some(LikesCount(r.store, commentId.value))
      && user !in Likers(r.store, commentId.value)
  {
    match commentId
    case None => Fail(s, SERVER_ERROR)
    case Some(c) =>
      var s1 := s.(commentLikes := s.commentLikes - {(user, c)});
      Reply(OK, Some(LikesCount(s1, c)), s1)
  }

  /** The body of a successful toggle. */
  datatype Toggle = Toggle(action: string, likesCount: nat, isLiked: bool)

  /** `POST /comments/:commentId/toggle-like`: 400 for a missing or
      non-numeric id, 404 for a missing comment; otherwise an existing like is
      removed ("unliked") or a new one added ("liked", notifying the author
      unless they are the caller). `isLiked` is the state afterwards. */
  function ToggleCommentLike(s: Store, user: UserId, commentId: Option<int>, persisted: bool): (r: Reply<Toggle>)
    ensures commentId.None? ==> r.status == BAD_REQUEST && r.store == s
    ensures commentId.Some? && FindComment(s, commentId.value).None? ==> r.status == NOT_FOUND && r.store == s
    ensures commentId.Some? && FindComment(s, commentId.value).Some? ==>
      var c := commentId.value;
      var was := (user, c) in s.commentLikes;
      && r.status == OK && r.result.Some?
      && SameOutsideComments(s, r.store) && r.store.comments == s.comments
      // membership flips
      && ((user, c) in r.store.commentLikes <==> !was)
      && (forall p :: p != (user, c) ==> (p in r.store.commentLikes <==> p in s.commentLikes))
      && r.result.value.isLiked == !was
      && r.result.value.action == (if was then "unliked" else "liked")
      // the count is the count after the change, one more or one less than before
      && r.result.value.likesCount == LikesCount(r.store, c)
      && r.result.value.likesCount == (if was then LikesCount(s, c) - 1 else LikesCount(s, c) + 1)
      // an unlike tells nobody; a like tells the author unless they are the caller
      && (was ==> r.store.notifications == s.notifications)
      && (!was ==> LikeNoticed(s, r.store, user, FindComment(s, c).value.userId, c, persisted))
  {
    match commentId
    case None => Fail(s, BAD_REQUEST)
    case Some(c) =>
      match FindComment(s, c)
      case None => Fail(s, NOT_FOUND)
      case Some(cm) =>
        if (user, c) in s.commentLikes then
          var s1 := s.(commentLikes := s.commentLikes - {(user, c)});
          LikesCountRemove(s, s1, user, c);
          Reply(OK, Some(Toggle("unliked", LikesCount(s1, c), false)), s1)
        else
          var s1 := s.(commentLikes := s.commentLikes + {(user, c)});
          LikesCountAdd(s, s1, user, c);
          var s2 := NotifyAuthor(s1, user, cm.userId, c, persisted);
          Reply(OK, Some(Toggle("liked", LikesCount(s2, c), true)), s2)
  }

  /** A like followed by an unlike from a user who did not like the comment
      leaves the likes as they were and reports the original count. */
  lemma LikeThenUnlikeRestores(s: Store, user: UserId, c: int, persisted: bool)
    requires FindComment(s, c).Some? && (user, c) !in s.commentLikes
    ensures var u := UnlikeComment(LikeComment(s, user, Some(c), persisted).store, user, Some(c));
      u.status == OK && u.store.commentLikes == s.commentLikes && u.result == Some(LikesCount(s, c))
  {
    var t := LikeComment(s, user, Some(c), persisted).store;
    var u := UnlikeComment(t, user, Some(c));
    assert u.store.commentLikes == s.commentLikes;
    assert Likers(u.store, c) == Likers(s, c);
  }

  /** Toggling twice restores the likes and the count. */
  lemma ToggleTwiceRestores(s: Store, user: UserId, c: int, persisted: bool)
    requires FindComment(s, c).Some?
    ensures
      var once := ToggleCommentLike(s, user, Some(c), persisted);
      var twice := ToggleCommentLike(once.store, user, Some(c), persisted);
      twice.store.commentLikes == s.commentLikes && twice.result.value.likesCount == LikesCount(s, c)
  {
    var once := ToggleCommentLike(s, user, Some(c), persisted);
    assert FindComment(once.store, c).Some? by {
      assert FindComment(s, c).value in once.store.comments;
    }
    var twice := ToggleCommentLike(once.store, user, Some(c), persisted);
    assert twice.store.commentLikes == s.commentLikes;
  }

  /** `DELETE /comments/:commentId`: 400 for a missing or non-numeric id; 404
      unless the caller owns a comment with that id; otherwise the comment is
      removed. */
  function DeleteComment(s: Store, user: UserId, commentId: Option<int>): (r: Reply<()>)
    ensures commentId.None? ==> r.status == BAD_REQUEST && r.store == s
    ensures commentId.Some? && !(exists cm :: cm in s.comments && cm.id == commentId.value && cm.userId == user) ==>
      r.status == NOT_FOUND && r.store == s
    ensures r.status == OK <==>
      commentId.Some? && exists cm :: cm in s.comments && cm.id == commentId.value && cm.userId == user
    ensures r.status == OK ==>
      && r.store == s.(comments := r.store.comments)
      && (forall cm :: cm in r.store.comments <==> cm in s.comments && cm.id != commentId.value)
  {
    match commentId
    case None => Fail(s, BAD_REQUEST)
    case Some(c) =>
      if FindFirst(s.comments, (cm: Comment) => cm.id == c && cm.userId == user).None? then Fail(s, NOT_FOUND)
      else Reply(OK, Some(()), s.(comments := Filter(s.comments, OtherThan(c))))
  }

  /** The comments a `DELETE ... WHERE id = c` keeps. */
  function OtherThan(c: int): Comment -> bool {
    (cm: Comment) => cm.id != c
  }

  /** Posting a comment and then deleting it as its author gives back the
      comments as they were, when comment ids are below the id counter. */
  lemma PostThenDeleteRestores(s: Store, user: UserId, reviewId: int, text: string)
    requires text != ""
    requires forall cm :: cm in s.comments ==> cm.id < s.nextId
    ensures var p := PostComment(s, user, Some(reviewId), Some(text));
      var d := DeleteComment(p.store, user, Some(p.result.value.id));
      p.status == CREATED && d.status == OK && d.store.comments == s.comments
  {
    var p := PostComment(s, user, Some(reviewId), Some(text));
    var c := p.result.value;
    assert c in p.store.comments && c.id == c.id && c.userId == user;
    FilterConcat(s.comments, [c], OtherThan(c.id));
    FilterAll(s.comments, OtherThan(c.id));
  }
}

=== FILE: common.dfy ===
/** Shared building blocks: the optional value that stands for SQL NULL and
    JavaScript `undefined`, a handful of sequence operations with the contracts
    the handlers rely on, and the permutation that stands for every
    `Math.random`-driven shuffle and `ORDER BY random()` in the code. */
module Common {

  /** A possibly absent value: SQL NULL, a missing request field, a failed lookup. */
  datatype Option<+T> = None | Some(value: T) {
    /** Returns the value, or `default` when absent (the `x || d` idiom for non-falsy `x`). */
    function GetOr(default: T): T {
      match this
      case Some(v) => v
      case None => default
    }
  }

  /** `s.slice(0, n)`: the first `n` elements, or all of them when there are fewer. */
  function Take<T>(s: seq<T>, n: int): (r: seq<T>)
    ensures |r| == if n <= 0 then 0 else if n < |s| then n else |s|
    ensures r == s[..|r|]
  {
    if n <= 0 then [] else if n < |s| then s[..n] else s
  }

  /** `s` begins with `head`. */
  ghost predicate BeginsWith<T>(s: seq<T>, head: seq<T>) {
    |head| <= |s| && forall i :: 0 <= i < |head| ==> s[i] == head[i]
  }

  /** `s` ends with `tail`. */
  ghost predicate EndsWith<T>(s: seq<T>, tail: seq<T>) {
    |tail| <= |s| && forall i :: 0 <= i < |tail| ==> s[|s| - |tail| + i] == tail[i]
  }

  /** Every element of a tail is an element of the sequence. */
  lemma EndsWithMembers<T>(s: seq<T>, tail: seq<T>)
    requires EndsWith(s, tail)
    ensures forall i :: 0 <= i < |tail| ==> tail[i] in s
  {
    forall i | 0 <= i < |tail| ensures tail[i] in s {
      assert s[|s| - |tail| + i] == tail[i];
    }
  }

  lemma EndsWithConcat<T>(a: seq<T>, b: seq<T>)
    ensures EndsWith(a + b, b)
  {
    forall i | 0 <= i < |b| ensures (a + b)[|a + b| - |b| + i] == b[i] {
    }
  }

  /** Of two tails of one sequence, the shorter is a tail of the longer. */
  lemma EndsWithShorter<T>(s: seq<T>, a: seq<T>, b: seq<T>)
    requires EndsWith(s, a) && EndsWith(s, b) && |b| <= |a|
    ensures EndsWith(a, b)
  {
    forall i | 0 <= i < |b| ensures a[|a| - |b| + i] == b[i] {
      assert s[|s| - |a| + (|a| - |b| + i)] == a[|a| - |b| + i];
      assert s[|s| - |b| + i] == b[i];
    }
  }

  /** `s.slice(-n)` for a positive `n`: the last `n` elements, or all of them. */
  function TakeLast<T>(s: seq<T>, n: nat): (r: seq<T>)
    requires n > 0
    ensures |r| == if |s| < n then |s| else n
    ensures EndsWith(s, r)
  {
    if |s| <= n then s else s[|s| - n..]
  }

  /** Keeping the last `n` elements keeps a tail of at most `n` elements. */
  lemma TakeLastKeepsSuffix<T>(s: seq<T>, n: nat, tail: seq<T>)
    requires 0 < n && |tail| <= n && EndsWith(s, tail)
    ensures EndsWith(TakeLast(s, n), tail)
  {
    EndsWithShorter(s, TakeLast(s, n), tail);
  }

  /** The rows of `s`, most recent first, when `s` is kept in insertion order. */
  function Reverse<T>(s: seq<T>): (r: seq<T>)
    ensures |r| == |s|
    ensures forall i :: 0 <= i < |s| ==> r[i] == s[|s| - 1 - i]
    ensures multiset(r) == multiset(s)
  {
    if |s| == 0 then []
    else
      assert s == s[..|s| - 1] + [s[|s| - 1]];
      [s[|s| - 1]] + Reverse(s[..|s| - 1])
  }

  /** `s.filter(p)`: the elements satisfying `p`, in their original order. */
  function Filter<T(!new)>(s: seq<T>, p: T -> bool): (r: seq<T>)
    ensures |r| <= |s|
    ensures forall x :: x in r <==> x in s && p(x)
    ensures multiset(r) <= multiset(s)
  {
    if |s| == 0 then []
    else
      assert s == [s[0]] + s[1..];
      if p(s[0]) then [s[0]] + Filter(s[1..], p)
      else Filter(s[1..], p)
  }

  /** `s.map(f)`. */
  function Map<T, U>(s: seq<T>, f: T -> U): (r: seq<U>)
    ensures |r| == |s|
    ensures forall i :: 0 <= i < |s| ==> r[i] == f(s[i])
  {
    if |s| == 0 then [] else [f(s[0])] + Map(s[1..], f)
  }

  /** The last `n` elements, last first (`ORDER BY ... DESC LIMIT n` over rows
      kept in insertion order). */
  function Newest<T>(s: seq<T>, n: int): (r: seq<T>)
    ensures |r| == if n <= 0 then 0 else if |s| < n then |s| else n
    ensures forall i :: 0 <= i < |r| ==> r[i] == s[|s| - 1 - i]
  {
    var r := Take(Reverse(s), n);
    assert forall i :: 0 <= i < |r| ==> r[i] == Reverse(s)[i];
    r
  }

  /** Position `i` of two mapped sequences placed end to end. */
  lemma MapConcatAt<A, B, C>(a: seq<A>, f: A -> C, b: seq<B>, g: B -> C, i: int)
    requires 0 <= i < |a| + |b|
    ensures i < |a| ==> (Map(a, f) + Map(b, g))[i] == f(a[i])
    ensures i >= |a| ==> (Map(a, f) + Map(b, g))[i] == g(b[i - |a|])
  {
  }

  /** Position `k` of the reversed, mapped sequence is the image of the
      element `k` places from the end. */
  lemma MapReverseAt<T, U>(s: seq<T>, f: T -> U, k: int)
    requires 0 <= k < |s|
    ensures s[|s| - 1 - k] in s && Map(Reverse(s), f)[k] == f(s[|s| - 1 - k])
  {
  }

  /** Mapping keeps every element's image. */
  lemma MapMember<T, U>(s: seq<T>, f: T -> U, x: T)
    requires x in s
    ensures f(x) in Map(s, f)
  {
    var j :| 0 <= j < |s| && s[j] == x;
    assert Map(s, f)[j] == f(x);
  }

  /** The first element satisfying `p`, if any (`rows[0]` of a `WHERE` query). */
  function FindFirst<T(!new)>(s: seq<T>, p: T -> bool): (r: Option<T>)
    ensures r.Some? <==> exists x :: x in s && p(x)
    ensures r.Some? ==> r.value in s && p(r.value)
  {
    if |s| == 0 then None
    else if p(s[0]) then Some(s[0])
    else FindFirst(s[1..], p)
  }

  /** Number of occurrences of `x` in `s`. */
  function Occurrences<T(==)>(s: seq<T>, x: T): (n: nat)
    ensures n == multiset(s)[x]
  {
    if |s| == 0 then 0
    else
      assert s == [s[0]] + s[1..];
      (if s[0] == x then 1 else 0) + Occurrences(s[1..], x)
  }

  /** `s` without the element at index `i`. */
  function RemoveAt<T>(s: seq<T>, i: nat): (r: seq<T>)
    requires i < |s|
    ensures |r| == |s| - 1
    ensures multiset(r) + multiset{s[i]} == multiset(s)
  {
    assert s == s[..i] + [s[i]] + s[i + 1..];
    s[..i] + s[i + 1..]
  }

  /** A shuffle driven by an arbitrary source of choices: at every step the
      next choice (taken modulo the number of elements left, 0 once the choices
      run out) picks which remaining element comes next. Every sequence of
      choices yields a permutation, and every permutation is reachable, which
      is all the code's `sort(() => 0.5 - Math.random())` promises. */
  function Shuffle<T>(s: seq<T>, picks: seq<nat>): (r: seq<T>)
    ensures |r| == |s|
    ensures multiset(r) == multiset(s)
    decreases |s|
  {
    if |s| == 0 then []
    else
      var i := (if |picks| > 0 then picks[0] else 0) % |s|;
      [s[i]] + Shuffle(RemoveAt(s, i), if |picks| > 0 then picks[1..] else [])
  }

  /** The source of randomness: the choices used at the call site named by `site`. */
  datatype Rng = Rng(draw: string -> seq<nat>)

  /** `Shuffle` with the choices the generator provides for `site`. */
  function ShuffleWith<T(!new)>(rng: Rng, site: string, s: seq<T>): (r: seq<T>)
    ensures |r| == |s|
    ensures multiset(r) == multiset(s)
    ensures forall x :: x in r <==> x in s
  {
    var r := Shuffle(s, rng.draw(site));
    assert forall x :: x in r <==> x in multiset(r);
    r
  }

  /** `n` of the elements of `s` satisfying `p` (all of them when fewer
      match), in random order, no row more often than it occurs: SQL's
      `WHERE p ORDER BY random() LIMIT n`, or a filter, a random sort and a
      slice. */
  function Sample<T(!new)>(rng: Rng, site: string, s: seq<T>, p: T -> bool, n: int): (r: seq<T>)
    ensures |r| <= (if n < 0 then 0 else n)
    ensures |r| == (if n <= 0 then 0 else if |Filter(s, p)| < n then |Filter(s, p)| else n)
    ensures SubBag(r, Filter(s, p))
    ensures forall i :: 0 <= i < |r| ==> r[i] in s && p(r[i])
  {
    var shuffled := ShuffleWith(rng, site, Filter(s, p));
    TakeSub(shuffled, n);
    Take(shuffled, n)
  }

  /** How many of `m` rows `LIMIT n` keeps: none for `n <= 0`, else `min(n, m)`. */
  function LimitCount(n: int, m: nat): (k: nat)
    ensures k <= m && (n > 0 ==> k <= n)
    ensures n > 0 && m >= n ==> k == n
  {
    if n <= 0 then 0 else if m < n then m else n
  }

  /** A sample holds `LimitCount(n, m)` rows, `m` being the matching rows. */
  lemma SampleCount<T(!new)>(rng: Rng, site: string, s: seq<T>, p: T -> bool, n: int)
    ensures |Sample(rng, site, s, p, n)| == LimitCount(n, |Filter(s, p)|)
  {
  }

  /** No element occurs in `a` more often than in `b`. */
  ghost predicate SubBag<T>(a: seq<T>, b: seq<T>) {
    multiset(a) <= multiset(b)
  }

  /** A prefix holds no element more often than the whole sequence. */
  lemma TakeSub<T>(s: seq<T>, n: int)
    ensures multiset(Take(s, n)) <= multiset(s)
    ensures forall x :: x in Take(s, n) ==> x in s
  {
    var r := Take(s, n);
    assert s == r + s[|r|..];
  }

  /** Cutting `a + b` to `n` keeps `a`, cut to `n`, in front. */
  lemma TakeKeepsPrefix<T>(a: seq<T>, b: seq<T>, n: int)
    ensures BeginsWith(Take(a + b, n), Take(a, n))
  {
    var r, h := Take(a + b, n), Take(a, n);
    assert forall i :: 0 <= i < |h| ==> r[i] == (a + b)[i] == a[i] == h[i];
  }

  /** No two elements of `s` share a key (a primary key over a list of rows). */
  predicate DistinctBy<T, K(==)>(s: seq<T>, key: T -> K) {
    forall i, j :: 0 <= i < j < |s| ==> key(s[i]) != key(s[j])
  }

  /** Filtering keeps keys distinct. */
  lemma {:induction false} FilterDistinct<T(!new), K>(s: seq<T>, p: T -> bool, key: T -> K)
    requires DistinctBy(s, key)
    ensures DistinctBy(Filter(s, p), key)
  {
    if |s| > 0 {
      var rest := Filter(s[1..], p);
      FilterDistinct(s[1..], p, key);
      if p(s[0]) {
        var r := [s[0]] + rest;
        forall i, j | 0 <= i < j < |r| ensures key(r[i]) != key(r[j]) {
          if i == 0 {
            assert r[j] in s[1..];
            var k :| 0 <= k < |s[1..]| && s[1..][k] == r[j];
            assert s[k + 1] == r[j];
          } else {
            assert r[i] == rest[i - 1] && r[j] == rest[j - 1];
          }
        }
      }
    }
  }

  /** Two different elements of a sequence with distinct keys have different keys. */
  lemma DistinctElements<T, K>(s: seq<T>, key: T -> K, x: T, y: T)
    requires DistinctBy(s, key) && x in s && y in s && x != y
    ensures key(x) != key(y)
  {
    var i :| 0 <= i < |s| && s[i] == x;
    var j :| 0 <= j < |s| && s[j] == y;
    if i > j {
      assert key(s[j]) != key(s[i]);
    }
  }

  /** Reversing keeps keys distinct. */
  lemma ReverseDistinct<T, K>(s: seq<T>, key: T -> K)
    requires DistinctBy(s, key)
    ensures DistinctBy(Reverse(s), key)
  {
    var r := Reverse(s);
    forall i, j | 0 <= i < j < |r| ensures key(r[i]) != key(r[j]) {
      assert r[i] == s[|s| - 1 - i] && r[j] == s[|s| - 1 - j];
    }
  }

  /** Two sequences with distinct keys and no key in common concatenate to
      one with distinct keys. */
  lemma ConcatDistinct<T, K>(a: seq<T>, b: seq<T>, key: T -> K)
    requires DistinctBy(a, key) && DistinctBy(b, key)
    requires forall i, j :: 0 <= i < |a| && 0 <= j < |b| ==> key(a[i]) != key(b[j])
    ensures DistinctBy(a + b, key)
  {
    var r := a + b;
    forall i, j | 0 <= i < j < |r| ensures key(r[i]) != key(r[j]) {
      if j < |a| {
        assert r[i] == a[i] && r[j] == a[j];
      } else if i >= |a| {
        assert r[i] == b[i - |a|] && r[j] == b[j - |a|];
      } else {
        assert r[i] == a[i] && r[j] == b[j - |a|];
      }
    }
  }

  /** Removing an element keeps keys distinct, and the removed element's key
      is not among those left. */
  lemma RemoveAtDistinct<T, K>(s: seq<T>, i: nat, key: T -> K)
    requires i < |s| && DistinctBy(s, key)
    ensures DistinctBy(RemoveAt(s, i), key)
    ensures forall x :: x in RemoveAt(s, i) ==> key(x) != key(s[i])
  {
    var r := RemoveAt(s, i);
    assert forall k :: 0 <= k < |r| ==> r[k] == (if k < i then s[k] else s[k + 1]);
  }

  /** A permutation has the same elements. */
  lemma PermutationMembers<T>(a: seq<T>, b: seq<T>)
    requires multiset(a) == multiset(b)
    ensures forall k :: 0 <= k < |a| ==> a[k] in b
  {
    forall k | 0 <= k < |a| ensures a[k] in b {
      assert a[k] in multiset(a);
    }
  }

  /** Shuffling keeps keys distinct: a permutation of rows with distinct keys
      has distinct keys. */
  lemma {:induction false} ShuffleDistinct<T, K>(s: seq<T>, picks: seq<nat>, key: T -> K)
    requires DistinctBy(s, key)
    ensures DistinctBy(Shuffle(s, picks), key)
    decreases |s|
  {
    if |s| > 0 {
      var i := (if |picks| > 0 then picks[0] else 0) % |s|;
      var rest := RemoveAt(s, i);
      var more := if |picks| > 0 then picks[1..] else [];
      RemoveAtDistinct(s, i, key);
      ShuffleDistinct(rest, more, key);
      var t := Shuffle(rest, more);
      PermutationMembers(t, rest);
      ConcatDistinct([s[i]], t, key);
      assert [s[i]] + t == Shuffle(s, picks);
    }
  }

  /** Sum of a sequence of integers. */
  function Sum(s: seq<int>): int
  {
    if |s| == 0 then 0 else s[0] + Sum(s[1..])
  }

  lemma {:induction false} FilterSplit<T(!new)>(s: seq<T>, p: T -> bool)
    ensures |Filter(s, p)| + |Filter(s, x => !p(x))| == |s|
  {
    if |s| > 0 {
      FilterSplit(s[1..], p);
    }
  }

  lemma {:induction false} FilterConcat<T(!new)>(a: seq<T>, b: seq<T>, p: T -> bool)
    ensures Filter(a + b, p) == Filter(a, p) + Filter(b, p)
  {
    if |a| > 0 {
      assert (a + b)[0] == a[0];
      assert (a + b)[1..] == a[1..] + b;
      FilterConcat(a[1..], b, p);
    } else {
      assert a + b == b;
    }
  }

  /** A predicate every element satisfies keeps the whole sequence. */
  lemma {:induction false} FilterAll<T(!new)>(s: seq<T>, p: T -> bool)
    requires forall x :: x in s ==> p(x)
    ensures Filter(s, p) == s
  {
    if |s| > 0 {
      assert forall x :: x in s[1..] ==> x in s;
      FilterAll(s[1..], p);
      assert s == [s[0]] + s[1..];
    }
  }

  /** Two predicates that are each other's negation on `s` split it. */
  lemma {:induction false} FilterComplement<T(!new)>(s: seq<T>, p: T -> bool, q: T -> bool)
    requires forall x :: x in s ==> (q(x) <==> !p(x))
    ensures |Filter(s, p)| + |Filter(s, q)| == |s|
  {
    if |s| > 0 {
      assert forall x :: x in s[1..] ==> x in s;
      FilterComplement(s[1..], p, q);
    }
  }

  /** Two predicates that agree on every element of `s` select the same elements. */
  lemma {:induction false} FilterCongruent<T(!new)>(s: seq<T>, p: T -> bool, q: T -> bool)
    requires forall x :: x in s ==> (p(x) <==> q(x))
    ensures Filter(s, p) == Filter(s, q)
  {
    if |s| > 0 {
      FilterCongruent(s[1..], p, q);
    }
  }

  /** A stronger predicate selects no more elements. */
  lemma {:induction false} FilterStronger<T(!new)>(s: seq<T>, p: T -> bool, q: T -> bool)
    requires forall x :: x in s && p(x) ==> q(x)
    ensures |Filter(s, p)| <= |Filter(s, q)|
  {
    if |s| > 0 {
      assert forall x :: x in s[1..] ==> x in s;
      FilterStronger(s[1..], p, q);
    }
  }
}

=== FILE: community.dfy ===
/** The public community feed (`controllers/communityController.js`): the
    twelve most recent reviews, joined with their authors and books, each
    flattened to a fixed shape. */
module Community {
  import opened Common
  import opened Text
  import opened Db
  import opened Feed

  const CommunityWindow: nat := 12

  /** One item of the response. */
  datatype CommunityItem = CommunityItem(
    reviewId: int, rating: int, reviewText: Option<string>,
    userId: UserId, username: Option<string>, profileImg: Option<string>,
    bookTitle: Option<string>, bookCover: Option<string>, genres: string)

  /** `genres ? genres.slice(0, 3).join(', ') : ''`. */
  function RenderGenres(genre: Option<seq<string>>): (r: string)
    ensures genre.None? ==> r == ""
    ensures genre.Some? && |genre.value| == 1 ==> r == genre.value[0]
  {
    if genre.Some? then Join(Take(genre.value, 3), ", ") else ""
  }

  /** The flattened item: the rating as a number (0 for NULL), the genre list
      rendered as text. */
  function Format(row: JoinedRow): (item: CommunityItem)
    ensures item.reviewId == row.review.id && item.userId == row.review.userId
    ensures item.rating == row.review.rating.GetOr(0)
    ensures item.genres == RenderGenres(row.book.genre)
  {
    CommunityItem(row.review.id, row.review.rating.GetOr(0), row.review.text,
      row.review.userId, row.username, row.profileImg,
      row.book.title, row.book.cover, RenderGenres(row.book.genre))
  }

  /** `GET /community`: always 200 and nothing written; at most twelve items,
      the most recent review first, each the flattening of its joined row. */
  function GetCommunityFeed(s: Store): (r: Reply<seq<CommunityItem>>)
    ensures r.status == OK && r.store == s && r.result.Some?
    ensures |r.result.value| == |Recent(s, CommunityWindow)| <= CommunityWindow
    ensures forall i :: 0 <= i < |r.result.value| ==> r.result.value[i] == Format(Recent(s, CommunityWindow)[i])
  {
    Reply(OK, Some(Map(Recent(s, CommunityWindow), Format)), s)
  }

  /** The item at position `i` is the review `i` places from the end of the
      authored reviews, with its rating as a number. */
  lemma CommunityItemAt(s: Store, i: nat)
    requires i < |GetCommunityFeed(s).result.value|
    ensures var item, joined := GetCommunityFeed(s).result.value[i], Joined(s);
      i < |joined| &&
      var v := joined[|joined| - 1 - i].review;
      && v in s.reviews && FindUser(s, v.userId).Some?
      && item.reviewId == v.id
      && item.rating == (if v.rating.Some? then v.rating.value else 0)
  {
    var rows := Recent(s, CommunityWindow);
    assert GetCommunityFeed(s).result.value[i] == Format(rows[i]);
  }

  /** The items are the newest reviews whose author exists, newest first, as
      many as there are up to twelve. */
  lemma CommunityMostRecentFirst(s: Store)
    ensures var items, joined := GetCommunityFeed(s).result.value, Joined(s);
      |items| == (if |joined| < CommunityWindow then |joined| else CommunityWindow)
      && forall i :: 0 <= i < |items| ==> items[i].reviewId == joined[|joined| - 1 - i].review.id
  {
    var items := GetCommunityFeed(s).result.value;
    forall i | 0 <= i < |items| ensures items[i].reviewId == Joined(s)[|Joined(s)| - 1 - i].review.id {
      CommunityItemAt(s, i);
    }
  }

  /** An item's book columns come from `reviewed_books` for an `'api'` review
      and from `custom_books` for a `'custom'` one. */
  lemma CommunityBookColumns(s: Store)
    ensures var items, rows := GetCommunityFeed(s).result.value, Recent(s, CommunityWindow);
      forall i :: 0 <= i < |items| ==>
        var v := rows[i].review;
        && (v.source == Api && FindCached(s, v.bookId).Some? ==>
              items[i].bookTitle == FindCached(s, v.bookId).value.info.title
              && items[i].bookCover == FindCached(s, v.bookId).value.info.cover
              && items[i].genres == RenderGenres(FindCached(s, v.bookId).value.info.genre))
        && (v.source == Custom && FindCustomByKey(s, v.bookId).Some? ==>
              items[i].bookTitle == FindCustomByKey(s, v.bookId).value.info.title
              && items[i].bookCover == FindCustomByKey(s, v.bookId).value.info.cover
              && items[i].genres == RenderGenres(FindCustomByKey(s, v.bookId).value.info.genre))
  {
  }

  /** The rendered genres are the first three names (or fewer, when the list
      is shorter), separated by a comma and a space. */
  lemma {:induction false} JoinTake3(xs: seq<string>)
    ensures Join(Take(xs, 3), ", ") ==
      if |xs| == 0 then "" else if |xs| == 1 then xs[0]
      else if |xs| == 2 then xs[0] + ", " + xs[1]
      else xs[0] + ", " + xs[1] + ", " + xs[2]
  {
    var t := Take(xs, 3);
    if |xs| >= 3 {
      assert t == [xs[0], xs[1], xs[2]];
      assert t[1..][1..] == [xs[2]];
    } else if |xs| == 2 {
      assert t == [xs[0], xs[1]];
      assert t[1..] == [xs[1]];
    }
  }
}

=== FILE: custombooks.dfy ===
/** The curated catalogue (`controllers/getCustomBookController.js` and
    `controllers/addCustomBookController.js`): the paginated listing, the
    lookup by id, and the administrator's insert with its cover check. */
module CustomBooks {
  import opened Common
  import opened Text
  import opened Db
  import opened Paging

  const DefaultPageSize: int := 9

  datatype PageInfo = PageInfo(currentPage: int, totalPages: nat, totalCount: nat, hasNext: bool, hasPrev: bool)

  datatype CustomPage = CustomPage(books: seq<CustomBook>, pagination: PageInfo)

  /** One page of the catalogue for an already parsed `page` and `limit`:
      PostgreSQL refuses a negative `LIMIT` or `OFFSET`, hence 500 for a
      negative limit or, with a positive limit, a page below 1. */
  function ListCustomBooks(s: Store, page: int, limit: int): (r: Reply<CustomPage>)
    requires limit != 0
    ensures r.store == s
    ensures r.status == SERVER_ERROR <==> limit < 0 || page < 1
    ensures r.status != SERVER_ERROR ==>
      && r.status == OK && r.result.Some? && limit > 0
      && |r.result.value.books| <= limit
      && r.result.value.pagination.currentPage == page
      && r.result.value.pagination.totalCount == |s.custom|
      && r.result.value.pagination.totalPages == CeilDiv(|s.custom|, limit)
    // the page lies within the catalogue, from position `(page - 1) * limit`
    ensures r.status == OK ==>
      0 <= Offset(page, limit) && (|r.result.value.books| > 0 ==> Offset(page, limit) + |r.result.value.books| <= |s.custom|)
  {
    if limit < 0 || page < 1 then Fail(s, SERVER_ERROR)
    else
      var books := Window(Reverse(s.custom), Offset(page, limit), limit);
      var total := CeilDiv(|s.custom|, limit);
      Reply(OK, Some(CustomPage(books, PageInfo(page, total, |s.custom|, page < total, page > 1))), s)
  }

  /** `GET /custom-books?page=&limit=`: `page` defaults to 1 and `limit` to 9
      (when missing, not a number, or 0), then the page is listed. */
  function GetCustomBooks(s: Store, pageQ: Option<string>, limitQ: Option<string>): (r: Reply<CustomPage>)
    ensures r == ListCustomBooks(s, QueryInt(pageQ, 1), QueryInt(limitQ, DefaultPageSize))
    ensures pageQ.None? && limitQ.None? ==>
      && r.status == OK && r.result.value.pagination.currentPage == 1
      && |r.result.value.books| == (if |s.custom| < DefaultPageSize then |s.custom| else DefaultPageSize)
  {
    ListCustomBooks(s, QueryInt(pageQ, 1), QueryInt(limitQ, DefaultPageSize))
  }

  /** The page holds the books at positions `(page - 1) * limit` onwards,
      counted from the newest. */
  lemma CustomPageRows(s: Store, page: int, limit: int)
    requires limit != 0 && ListCustomBooks(s, page, limit).status == OK
    ensures var p := ListCustomBooks(s, page, limit).result.value;
      forall i :: 0 <= i < |p.books| ==> p.books[i] == s.custom[|s.custom| - 1 - (Offset(page, limit) + i)]
  {
    var newest := Reverse(s.custom);
    var p := ListCustomBooks(s, page, limit).result.value;
    var w := Window(newest, Offset(page, limit), limit);
    assert p.books == w;
    forall i | 0 <= i < |w| ensures w[i] == s.custom[|s.custom| - 1 - (Offset(page, limit) + i)] {
      assert w[i] == newest[Offset(page, limit) + i];
    }
  }

  /** `hasNext` says exactly that books follow the page, `hasPrev` that books
      precede it; the page shows books exactly when it is within
      `totalPages`. */
  lemma CustomPageFlags(s: Store, page: int, limit: int)
    requires limit != 0 && ListCustomBooks(s, page, limit).status == OK
    ensures var p := ListCustomBooks(s, page, limit).result.value;
      && (p.pagination.hasNext <==> Offset(page + 1, limit) < |s.custom|)
      && (p.pagination.hasPrev <==> Offset(page, limit) > 0)
      && (|p.books| > 0 <==> page <= p.pagination.totalPages)
  {
    var newest := Reverse(s.custom);
    NonEmptyPages(newest, limit, page);
    assert Offset(page, limit) > 0 <==> page > 1 by {
      if page > 1 {
        MulMono(1, page - 1, limit);
      }
    }
  }

  /** Sending the numbers `page` and `limit` lists that page. */
  lemma GetCustomBooksOfNumbers(s: Store, page: int, limit: int)
    requires page != 0 && limit != 0
    ensures GetCustomBooks(s, Some(IntToString(page)), Some(IntToString(limit))) == ListCustomBooks(s, page, limit)
  {
    QueryIntRoundTrip(page, 1);
    QueryIntRoundTrip(limit, DefaultPageSize);
  }

  /** Book `k`, counted from the newest, is on every page whose range holds
      position `k`. */
  lemma BookOnItsPage(s: Store, limit: int, page: int, k: nat)
    requires 0 < limit && page >= 1 && k < |s.custom|
    requires Offset(page, limit) <= k < Offset(page, limit) + limit
    ensures var r := ListCustomBooks(s, page, limit);
      r.status == OK && s.custom[|s.custom| - 1 - k] in r.result.value.books
  {
    var newest := Reverse(s.custom);
    RowOnPage(newest, limit, page, k);
    var w := Window(newest, Offset(page, limit), limit);
    assert ListCustomBooks(s, page, limit).result.value.books == w;
    assert w[k - Offset(page, limit)] in w;
  }

  /** Every book of the catalogue is listed on page `k / limit + 1`, where `k`
      is its position counted from the newest, when those numbers are sent. */
  lemma EveryBookListed(s: Store, limit: int, k: nat)
    requires 0 < limit && k < |s.custom|
    ensures var r := GetCustomBooks(s, Some(IntToString(k / limit + 1)), Some(IntToString(limit)));
      r.status == OK && s.custom[|s.custom| - 1 - k] in r.result.value.books
  {
    var page := k / limit + 1;
    PageOf(k, limit);
    GetCustomBooksOfNumbers(s, page, limit);
    BookOnItsPage(s, limit, page, k);
  }

  /** `GET /custom-books/:id`: 500 when the id is not an integer, 404 when no
      row has it, otherwise that row. Nothing is written. */
  function GetCustomBookById(s: Store, id: Option<int>): (r: Reply<CustomBook>)
    ensures r.store == s
    ensures id.None? ==> r.status == SERVER_ERROR
    ensures id.Some? ==>
      && (r.status == NOT_FOUND <==> forall b :: b in s.custom ==> b.id != id.value)
      && (r.status != NOT_FOUND ==> r.status == OK && r.result.Some? && r.result.value in s.custom && r.result.value.id == id.value)
  {
    match id
    case None => Fail(s, SERVER_ERROR)
    case Some(n) =>
      match FindFirst(s.custom, (b: CustomBook) => b.id == n)
      case None => Fail(s, NOT_FOUND)
      case Some(b) => Reply(OK, Some(b), s)
  }

  // ---------------------------------------------------------------------------
  // `addCustomBook`.
  // ---------------------------------------------------------------------------

  /** The fields of the form, and the path of an uploaded cover if one was sent. */
  datatype CustomBookForm = CustomBookForm(
    key: Option<string>, title: Option<string>, author: Option<string>,
    genre: Option<seq<string>>, description: Option<string>,
    coverImg: Option<string>, file: Option<string>)

  datatype CoverChoice = BadCoverUrl | Cover(img: Option<string>)

  /** The cover the row gets: the uploaded file's URL when a file was sent,
      else the given URL when it passes the image check (400 when it does
      not), else none. `upload` is the image host. */
  function ChooseCover(form: CustomBookForm, upload: string -> string): (c: CoverChoice)
    ensures form.file.Some? ==> c == Cover(Some(upload(form.file.value)))
    ensures form.file.None? && form.coverImg.Some? && form.coverImg.value != "" ==>
      (c == BadCoverUrl <==> !ImageUrlPattern(form.coverImg.value))
      && (c != BadCoverUrl ==> c == Cover(form.coverImg))
    ensures form.file.None? && (form.coverImg.None? || form.coverImg.value == "") ==> c == Cover(None)
  {
    match form.file
    case Some(path) => Cover(Some(upload(path)))
    case None =>
      if form.coverImg.Some? && form.coverImg.value != "" then
        if IsImageUrl(form.coverImg.value) then Cover(form.coverImg) else BadCoverUrl
      else Cover(None)
  }

  /** The statement's seven placeholders `$1`..`$7`. */
  const InsertPlaceholders: nat := 7

  /** The argument list as written has an empty slot before `userId`: eight
      values, the seventh `undefined` and `userId` eighth. */
  const InsertValuesAsWritten: nat := 8

  /** The insert, sent with `values` bound values: refused (500) unless
      they match the seven placeholders, or when the book key is missing (the
      column is NOT NULL); otherwise the row is appended. */
  function InsertCustomBook(s: Store, form: CustomBookForm, img: Option<string>, createdBy: Option<UserId>, values: nat): (r: Reply<CustomBook>)
    ensures r.status == CREATED <==> values == InsertPlaceholders && form.key.Some?
    ensures r.status != CREATED ==> r.status == SERVER_ERROR && r.store == s && r.result.None?
    ensures r.status == CREATED ==>
      && r.result.Some? && r.store.custom == s.custom + [r.result.value]
      && r.store == s.(custom := r.store.custom, nextId := s.nextId + 1)
      && var b := r.result.value;
      && b.id == s.nextId && b.key == form.key.value && b.createdBy == createdBy
      && b.info.title == form.title && b.info.author == form.author && b.info.cover == img
      && b.info.genre == form.genre && b.info.description == form.description
  {
    if !BindAccepts(InsertPlaceholders, values) || form.key.None? then Fail(s, SERVER_ERROR)
    else
      var row := CustomBook(s.nextId, form.key.value,
        BookInfo(form.title, form.author, img, form.genre, form.description), createdBy);
      Reply(CREATED, Some(row), s.(custom := s.custom + [row], nextId := s.nextId + 1))
  }

  /** `addCustomBook` as written: a bad cover URL gets 400; otherwise the
      insert is sent with eight values for seven placeholders, which the
      database refuses, so the handler answers 500 and nothing is added. */
  function AddCustomBookAsWritten(s: Store, user: UserId, form: CustomBookForm, upload: string -> string): (r: Reply<CustomBook>)
    ensures r.store == s && r.result.None?
    ensures r.status == BAD_REQUEST <==> ChooseCover(form, upload).BadCoverUrl?
    ensures r.status != BAD_REQUEST ==> r.status == SERVER_ERROR
  {
    match ChooseCover(form, upload)
    case BadCoverUrl => Fail(s, BAD_REQUEST)
    case Cover(img) => InsertCustomBook(s, form, img, None, InsertValuesAsWritten)
  }

  /** `addCustomBook` with the intended seven values, `created_by` bound to
      the caller: 400 for a bad cover URL; 500 when the form has no book key
      (the column is NOT NULL); otherwise 201 and the new row, attributed to
      the caller, is appended to the catalogue. */
  function AddCustomBook(s: Store, user: UserId, form: CustomBookForm, upload: string -> string): (r: Reply<CustomBook>)
    ensures ChooseCover(form, upload) == BadCoverUrl ==> r.status == BAD_REQUEST && r.store == s
    ensures ChooseCover(form, upload) != BadCoverUrl && form.key.None? ==> r.status == SERVER_ERROR && r.store == s
    ensures r.status == CREATED <==> ChooseCover(form, upload) != BadCoverUrl && form.key.Some?
    ensures r.status == CREATED ==>
      && r.result.Some?
      && r.store == s.(custom := s.custom + [r.result.value], nextId := s.nextId + 1)
      && r.result.value.id == s.nextId
      && r.result.value.key == form.key.value
      && r.result.value.createdBy == Some(user)
      && r.result.value.info == BookInfo(form.title, form.author, ChooseCover(form, upload).img, form.genre, form.description)
  {
    match ChooseCover(form, upload)
    case BadCoverUrl => Fail(s, BAD_REQUEST)
    case Cover(img) => InsertCustomBook(s, form, img, Some(user), InsertPlaceholders)
  }

  /** A concrete request the written handler refuses and the intended one
      accepts: a key and no cover. */
  lemma AddCustomBookCounterexample(s: Store, user: UserId, upload: string -> string)
    ensures var form := CustomBookForm(Some("k"), Some("T"), Some("A"), None, None, None, None);
      && AddCustomBookAsWritten(s, user, form, upload).status == SERVER_ERROR
      && AddCustomBook(s, user, form, upload).status == CREATED
      && AddCustomBook(s, user, form, upload).result.value.createdBy == Some(user)
  {
  }

  /** With ids below the counter, as the serial column keeps them, a book just
      added is what the lookup by its id returns. */
  lemma AddedBookFoundById(s: Store, user: UserId, form: CustomBookForm, upload: string -> string)
    requires forall b :: b in s.custom ==> b.id < s.nextId
    requires AddCustomBook(s, user, form, upload).status == CREATED
    ensures var r := AddCustomBook(s, user, form, upload);
      GetCustomBookById(r.store, Some(s.nextId)) == Reply(OK, r.result, r.store)
  {
    var r := AddCustomBook(s, user, form, upload);
    var t := r.store;
    assert t.custom == s.custom + [r.result.value];
    assert forall b :: b in t.custom && b.id == s.nextId ==> b == r.result.value;
  }
}

=== FILE: dashboard.dfy ===
/** The reader's dashboard (`controllers/dashboardController.js`): a batch of
    at most five book suggestions, drawn first from stored books matching the
    reader's favourite genres, then from Open Library subjects, then from the
    random tier; books shown recently are excluded through the recommendation
    history. Also the reader's review metrics. */
module Dashboard {
  import opened Common
  import opened Text
  import opened Db
  import opened Catalog
  import opened BookDetails
  import opened History
  import opened Suggestions

  /** The response body. */
  datatype DashboardBooks = DashboardBooks(featured: Option<DashBook>, recommended: seq<DashBook>, usedFallback: bool)

  /** Every book of the response, featured first. */
  function Shown(d: DashboardBooks): seq<DashBook> {
    (if d.featured.Some? then [d.featured.value] else []) + d.recommended
  }

  /** The featured book, when it comes from Open Library, gets the
      description of its work record (or the placeholder); the rest of the
      batch is untouched. */
  function RefetchFeatured(api: OpenLibrary, batch: seq<DashBook>): (r: seq<DashBook>)
    ensures |r| == |batch|
    ensures forall i :: 0 <= i < |r| ==> r[i].key == batch[i].key
    ensures |r| > 0 && batch[0].source == Some(Api) ==>
      r[0] == batch[0].(description := FeaturedDescription(api, batch[0].key))
    ensures |r| > 0 && batch[0].source != Some(Api) ==> r[0] == batch[0]
    ensures |r| > 0 ==> r[1..] == batch[1..]
  {
    if |batch| > 0 && batch[0].source == Some(Api) then
      [batch[0].(description := FeaturedDescription(api, batch[0].key))] + batch[1..]
    else batch
  }

  /** Refetching the featured description keeps every key out of `excluded`. */
  lemma RefetchKeepsExclusion(api: OpenLibrary, batch: seq<DashBook>, excluded: seq<string>)
    requires forall i :: 0 <= i < |batch| ==> KeyAllowed(batch[i].key, excluded)
    ensures var books := RefetchFeatured(api, batch);
      forall i :: 0 <= i < |books| ==> books[i].key !in excluded
  {
    var books := RefetchFeatured(api, batch);
    forall i | 0 <= i < |books| ensures books[i].key !in excluded {
      assert books[i].key == batch[i].key && KeyAllowed(batch[i].key, excluded);
    }
  }

  /** The response for a batch: the first book featured, the others listed. */
  function Split(books: seq<DashBook>, usedFallback: bool): (d: DashboardBooks)
    ensures Shown(d) == books
    ensures d.usedFallback == usedFallback
    ensures |books| > 0 ==> d.featured == Some(books[0])
  {
    var d := DashboardBooks(if |books| > 0 then Some(books[0]) else None,
      if |books| > 1 then books[1..] else [], usedFallback);
    assert Shown(d) == books;
    d
  }

  /** `getDashboardBooks` for `user` at time `now`: always 200 and nothing
      written; at most five books, none among the last ten shown to the
      reader; the shown keys are added to the history. */
  function GetDashboardBooks(s: Store, h: Histories, user: UserId, api: OpenLibrary, rng: Rng, now: int): (r: (Reply<DashboardBooks>, Histories))
    ensures r.0.status == OK && r.0.store == s && r.0.result.Some?
    ensures |Shown(r.0.result.value)| <= Limit
    ensures forall i :: 0 <= i < |Shown(r.0.result.value)| ==> Shown(r.0.result.value)[i].key !in GetExcludedKeys(h, user)
    ensures r.1 == UpdateHistory(h, user, BookKeys(Shown(r.0.result.value)), now)
  {
    var excluded := GetExcludedKeys(h, user);
    var (batch, usedFallback) := Batch(s, api, rng, FavoriteGenres(s, user), excluded);
    var books := RefetchFeatured(api, batch);
    RefetchKeepsExclusion(api, batch, excluded);
    var d := Split(books, usedFallback);
    (Reply(OK, Some(d), s), UpdateHistory(h, user, BookKeys(books), now))
  }

  /** The featured book is the batch's first, with its description refetched
      when it comes from Open Library; a reader without favourite genres
      always gets the fallback flag. */
  lemma DashboardShape(s: Store, h: Histories, user: UserId, api: OpenLibrary, rng: Rng, now: int)
    ensures var d := GetDashboardBooks(s, h, user, api, rng, now).0.result.value;
      var batch := Batch(s, api, rng, FavoriteGenres(s, user), GetExcludedKeys(h, user));
      && (|batch.0| == 0 <==> d.featured.None?)
      && (d.featured.None? ==> d.recommended == [])
      && (d.featured.Some? ==> d.featured.value.key == batch.0[0].key)
      && (d.featured.Some? && d.featured.value.source == Some(Api) ==>
            d.featured.value.description == FeaturedDescription(api, d.featured.value.key))
      && d.usedFallback == batch.1
  {
    var batch := Batch(s, api, rng, FavoriteGenres(s, user), GetExcludedKeys(h, user));
    var books := RefetchFeatured(api, batch.0);
    var d := GetDashboardBooks(s, h, user, api, rng, now).0.result.value;
    assert d == Split(books, batch.1);
  }

  /** `used_fallback` is set exactly when fewer than four stored books
      matched the favourite genres or the random tier was consulted, and a
      response without it shows five books. */
  lemma DashboardFallbackFlag(s: Store, h: Histories, user: UserId, api: OpenLibrary, rng: Rng, now: int)
    ensures var d := GetDashboardBooks(s, h, user, api, rng, now).0.result.value;
      var fav, excluded := FavoriteGenres(s, user), GetExcludedKeys(h, user);
      var m := Matched(s, rng, fav, excluded);
      && (d.usedFallback <==> (|fav| > 0 && |m| < MinNewBooks) || RandomTierUsed(api, rng, fav, excluded, m))
      && (!d.usedFallback ==> |Shown(d)| == Limit)
  {
    var fav, excluded := FavoriteGenres(s, user), GetExcludedKeys(h, user);
    var batch := Batch(s, api, rng, fav, excluded);
    var d := GetDashboardBooks(s, h, user, api, rng, now).0.result.value;
    assert d == Split(RefetchFeatured(api, batch.0), batch.1);
    BatchReportsFallback(s, api, rng, fav, excluded);
  }

  /** Every book a load shows is in the reader's exclusion window afterwards. */
  lemma ShownBooksExcludedNext(s: Store, h: Histories, user: UserId, api: OpenLibrary, rng: Rng, now: int)
    ensures var r := GetDashboardBooks(s, h, user, api, rng, now);
      forall i :: 0 <= i < |Shown(r.0.result.value)| ==> Shown(r.0.result.value)[i].key in GetExcludedKeys(r.1, user)
  {
    var r := GetDashboardBooks(s, h, user, api, rng, now);
    var shown := Shown(r.0.result.value);
    ShownKeysExcludedNext(h, user, BookKeys(shown), now);
  }

  /** Two dashboard loads in a row never repeat a book, whatever the time
      between them and whatever the database and the catalogue hold then. */
  lemma NoRepeatOnNextLoad(s: Store, s2: Store, h: Histories, user: UserId,
                           api: OpenLibrary, api2: OpenLibrary, rng: Rng, rng2: Rng, now: int, now2: int)
    ensures var first := GetDashboardBooks(s, h, user, api, rng, now);
      var second := GetDashboardBooks(s2, first.1, user, api2, rng2, now2);
      forall i, j :: 0 <= i < |Shown(first.0.result.value)| && 0 <= j < |Shown(second.0.result.value)| ==>
        Shown(first.0.result.value)[i].key != Shown(second.0.result.value)[j].key
  {
    ShownBooksExcludedNext(s, h, user, api, rng, now);
  }

  // ---------------------------------------------------------------------------
  // `getDashboardMetrics`.
  // ---------------------------------------------------------------------------

  datatype Metrics = Metrics(totalReviews: nat, avgRating: string)

  /** `toFixed(1)` of a value held in tenths. */
  function FormatTenths(t: int): (r: string)
    ensures |r| >= 3
  {
    var m := if t < 0 then -t else t;
    (if t < 0 then "-" else "") + NatToString(m / 10) + "." + [Digit(m % 10)]
  }

  /** The rendering can be read back: the digits before the point and the one
      after it give the value again. */
  lemma FormatTenthsRoundTrip(t: nat)
    ensures var r := FormatTenths(t);
      && r[|r| - 2] == '.'
      && (forall i :: 0 <= i < |r| - 2 ==> '0' <= r[i] <= '9')
      && '0' <= r[|r| - 1] <= '9'
      && DigitsValue(r[..|r| - 2]) * 10 + (r[|r| - 1] as int - '0' as int) == t
  {
    var r := FormatTenths(t);
    assert r[..|r| - 2] == NatToString(t / 10);
    NatToStringRoundTrip(t / 10);
  }

  /** The reader's ratings as `AVG(NULLIF(rating, 0))` sees them: 0 counts as no rating. */
  function NonZeroRatings(s: Store, user: UserId): (r: seq<int>)
    ensures forall x :: x in r ==> x != 0
  {
    var mine := Filter(s.reviews, (v: Review) => v.userId == user && v.rating.Some? && v.rating.value != 0);
    var r := Map(mine, (v: Review) => v.rating.GetOr(0));
    forall x | x in r ensures x != 0 {
      var i :| 0 <= i < |r| && r[i] == x;
      assert mine[i] in mine;
    }
    r
  }

  /** `GET /dashboard/metrics`: the number of the reader's reviews and their
      average rating to one decimal, ignoring zero ratings, '0.0' when there is
      none. Nothing is written. */
  function GetDashboardMetrics(s: Store, user: UserId): (r: Reply<Metrics>)
    ensures r.status == OK && r.store == s && r.result.Some?
    ensures r.result.value.totalReviews == |Filter(s.reviews, (v: Review) => v.userId == user)|
    ensures |NonZeroRatings(s, user)| == 0 ==> r.result.value.avgRating == "0.0"
    ensures |NonZeroRatings(s, user)| > 0 ==>
      var rs := NonZeroRatings(s, user);
      r.result.value.avgRating == FormatTenths(RoundTenths(Sum(rs), |rs|))
  {
    var rs := NonZeroRatings(s, user);
    var avg := if |rs| == 0 then "0.0" else FormatTenths(RoundTenths(Sum(rs), |rs|));
    Reply(OK, Some(Metrics(|Filter(s.reviews, (v: Review) => v.userId == user)|, avg)), s)
  }
}

=== FILE: db.dfy ===
/** The PostgreSQL database as an immutable value: one field per table the
    handlers touch, each table a sequence in insertion order (so "ORDER BY
    created_at DESC" is the reverse), the join tables of reactions and follows
    as sets of pairs, and one counter standing for the serial id columns.
    Every handler is a function from a `Store` and a request to a `Reply`
    carrying the HTTP status, the response payload and the next `Store`. */
module Db {
  import opened Common

  type UserId = int

  // HTTP status codes the handlers answer with.
  const OK: int := 200
  const CREATED: int := 201
  const NO_CONTENT: int := 204
  const BAD_REQUEST: int := 400
  const UNAUTHORIZED: int := 401
  const FORBIDDEN: int := 403
  const NOT_FOUND: int := 404
  const CONFLICT: int := 409
  const SERVER_ERROR: int := 500

  /** Where a book's identity comes from: the `source` column values `'api'`
      and `'custom'`, and the label `'reviewed'` the random fallback stamps on
      cached rows. */
  datatype Source = Api | Custom | Reviewed

  /** The descriptive columns shared by `reviewed_books`, `custom_books` and the
      normalised Open Library record. */
  datatype BookInfo = BookInfo(
    title: Option<string>,
    author: Option<string>,
    cover: Option<string>,
    genre: Option<seq<string>>,
    description: Option<string>)

  /** A `reviewed_books` row: the snapshot taken when a book is first reviewed. */
  datatype CachedBook = CachedBook(key: string, info: BookInfo, source: Source)

  /** A `custom_books` row, curated by an administrator. The book key is the
      row's identity and is taken to be present (NOT NULL); the table has no
      `source` column. */
  datatype CustomBook = CustomBook(id: int, key: string, info: BookInfo, createdBy: Option<UserId>)

  /** A `reviews` row. `book_source` is `'api'` or `'custom'`. */
  datatype Review = Review(
    id: int, userId: UserId, bookId: string, source: Source,
    rating: Option<int>, text: Option<string>)

  /** A `comments` row. */
  datatype Comment = Comment(id: int, reviewId: int, userId: UserId, text: string)

  /** A `notifications` row. */
  datatype Notification = Notification(
    id: int, sender: UserId, receiver: UserId, kind: string, message: string,
    targetType: Option<string>, targetId: Option<int>, isRead: bool)

  /** A `users` row; `password` holds the hash. */
  datatype User = User(
    id: UserId, username: Option<string>, email: Option<string>, password: string,
    bio: Option<string>, profileImg: Option<string>,
    favoriteGenres: Option<seq<string>>, isAdmin: Option<bool>)

  /** A `recommended_books` row: a user's suggestion for the catalogue. */
  datatype Recommendation = Recommendation(id: int, title: string, author: string, recommendedBy: UserId)

  datatype Store = Store(
    users: seq<User>,
    reviews: seq<Review>,
    cached: seq<CachedBook>,
    custom: seq<CustomBook>,
    reviewLikes: set<(UserId, int)>,
    reviewUnlikes: set<(UserId, int)>,
    comments: seq<Comment>,
    commentLikes: set<(UserId, int)>,
    followers: set<(UserId, UserId)>,
    notifications: seq<Notification>,
    recommended: seq<Recommendation>,
    nextId: nat)

  /** What a handler sends back: status, payload (absent on an error status)
      and the database afterwards. */
  datatype Reply<T> = Reply(status: int, result: Option<T>, store: Store)

  /** An error reply: nothing written. */
  function Fail<T>(s: Store, status: int): (r: Reply<T>)
    ensures r.status == status && r.result.None? && r.store == s
  {
    Reply(status, None, s)
  }

  // ---------------------------------------------------------------------------
  // Row lookups (`SELECT ... WHERE ...` returning `rows[0]`).
  // ---------------------------------------------------------------------------

  function FindUser(s: Store, id: UserId): (r: Option<User>)
    ensures r.Some? ==> r.value in s.users && r.value.id == id
    ensures r.None? ==> forall u :: u in s.users ==> u.id != id
  {
    FindFirst(s.users, (u: User) => u.id == id)
  }

  /** `username` of a user, `undefined` when the user or the name is missing. */
  function UsernameOf(s: Store, id: UserId): Option<string>
  {
    match FindUser(s, id)
    case Some(u) => u.username
    case None => None
  }

  /** `s || fallback` for an optional string (a name, a title, a
      description): an absent or empty string gives the fallback. */
  function NameOr(name: Option<string>, fallback: string): (r: string)
    ensures name.Some? && name.value != "" ==> r == name.value
    ensures name.None? || name.value == "" ==> r == fallback
  {
    if name.Some? && name.value != "" then name.value else fallback
  }

  function FindReview(s: Store, id: int): (r: Option<Review>)
    ensures r.Some? ==> r.value in s.reviews && r.value.id == id
    ensures r.None? ==> forall v :: v in s.reviews ==> v.id != id
  {
    FindFirst(s.reviews, (v: Review) => v.id == id)
  }

  function FindCached(s: Store, key: string): (r: Option<CachedBook>)
    ensures r.Some? ==> r.value in s.cached && r.value.key == key
    ensures r.None? ==> forall b :: b in s.cached ==> b.key != key
  {
    FindFirst(s.cached, (b: CachedBook) => b.key == key)
  }

  function FindCustomByKey(s: Store, key: string): (r: Option<CustomBook>)
    ensures r.Some? ==> r.value in s.custom && r.value.key == key
    ensures r.None? ==> forall b :: b in s.custom ==> b.key != key
  {
    FindFirst(s.custom, (b: CustomBook) => b.key == key)
  }

  function FindComment(s: Store, id: int): (r: Option<Comment>)
    ensures r.Some? ==> r.value in s.comments && r.value.id == id
    ensures r.None? ==> forall c :: c in s.comments ==> c.id != id
  {
    FindFirst(s.comments, (c: Comment) => c.id == id)
  }

  /** `rows[0]?.favorite_genres || []`. */
  function FavoriteGenres(s: Store, user: UserId): (g: seq<string>)
    ensures FindUser(s, user).None? ==> g == []
    ensures FindUser(s, user).Some? && FindUser(s, user).value.favoriteGenres.Some? ==>
      g == FindUser(s, user).value.favoriteGenres.value
  {
    match FindUser(s, user)
    case None => []
    case Some(u) => u.favoriteGenres.GetOr([])
  }

  /** A genre column shares an element with `wanted` (`genre && $1` in SQL,
      `genre?.some(g => wanted.includes(g))` in JavaScript); a NULL genre never
      matches. */
  predicate Overlaps(genre: Option<seq<string>>, wanted: seq<string>) {
    genre.Some? && exists g :: g in genre.value && g in wanted
  }

  /** `SELECT ... FROM reviews WHERE book_id = $1`. */
  function ReviewsOfBook(s: Store, key: string): (r: seq<Review>)
    ensures forall v :: v in r <==> v in s.reviews && v.bookId == key
  {
    Filter(s.reviews, (v: Review) => v.bookId == key)
  }

  /** A review exists for the pair (user, book). */
  predicate HasReviewBy(s: Store, user: UserId, key: string) {
    exists v :: v in s.reviews && v.userId == user && v.bookId == key
  }

  /** The one-review-per-(user, book) invariant. */
  ghost predicate OneReviewPerUserBook(s: Store) {
    forall i, j :: 0 <= i < |s.reviews| && 0 <= j < |s.reviews| && i != j ==>
      !(s.reviews[i].userId == s.reviews[j].userId && s.reviews[i].bookId == s.reviews[j].bookId)
  }

  /** Distinct review ids, all below the next id the counter hands out. */
  ghost predicate ReviewIdsFresh(s: Store) {
    && (forall i :: 0 <= i < |s.reviews| ==> s.reviews[i].id < s.nextId)
    && (forall i, j :: 0 <= i < j < |s.reviews| ==> s.reviews[i].id != s.reviews[j].id)
  }

  /** The same database except for the notification log (and the id counter). */
  ghost predicate SameExceptNotifications(s: Store, t: Store) {
    && s.users == t.users && s.reviews == t.reviews && s.cached == t.cached
    && s.custom == t.custom && s.reviewLikes == t.reviewLikes
    && s.reviewUnlikes == t.reviewUnlikes && s.comments == t.comments
    && s.commentLikes == t.commentLikes && s.followers == t.followers
    && s.recommended == t.recommended
  }

  // ---------------------------------------------------------------------------
  // Parameter binding.
  // ---------------------------------------------------------------------------

  /** PostgreSQL accepts a statement only when it receives exactly as many
      bound values as the highest `$n` placeholder it mentions; otherwise the
      driver's call rejects and the handler's `catch` takes over. */
  predicate BindAccepts(placeholders: nat, values: nat) {
    placeholders == values
  }
}

=== FILE: feed.dfy ===
/** The personalised community feed (`controllers/feedController.js`): the
    thirty most recent reviews, joined with their authors and their books;
    those whose book shares a genre with the reader's favourites come first,
    and when fewer than seven match, randomly chosen other reviews top the feed
    up to seven. The join is shared with the fixed-format feed of
    `controllers/communityController.js`. */
module Feed {
  import opened Common
  import opened Db

  /** A review joined with its author and with the book columns
      `COALESCE(rb.x, cb.x)`. */
  datatype JoinedRow = JoinedRow(review: Review, username: Option<string>, profileImg: Option<string>, book: BookInfo)

  /** The book columns of a review that joins no book row: all NULL. */
  const NoBook: BookInfo := BookInfo(None, None, None, None, None)

  /** The book columns a review is shown with: the `reviewed_books` row joins
      only an `'api'` review, the `custom_books` row only a `'custom'` one, and
      with neither every column is NULL. */
  function BookOf(s: Store, v: Review): (info: BookInfo)
    ensures v.source == Api && FindCached(s, v.bookId).Some? ==> info == FindCached(s, v.bookId).value.info
    ensures v.source == Custom && FindCustomByKey(s, v.bookId).Some? ==> info == FindCustomByKey(s, v.bookId).value.info
    ensures v.source == Reviewed ==> info == NoBook
  {
    if v.source == Api && FindCached(s, v.bookId).Some? then FindCached(s, v.bookId).value.info
    else if v.source == Custom && FindCustomByKey(s, v.bookId).Some? then FindCustomByKey(s, v.bookId).value.info
    else NoBook
  }

  /** The review's author exists (`JOIN users u ON r.user_id = u.id`). */
  predicate HasAuthor(s: Store, v: Review) {
    FindUser(s, v.userId).Some?
  }

  /** The joined row of a review whose author exists. */
  function JoinRow(s: Store, v: Review): (r: JoinedRow)
    ensures r.review == v && r.book == BookOf(s, v)
  {
    match FindUser(s, v.userId)
    case Some(u) => JoinedRow(v, u.username, u.profileImg, BookOf(s, v))
    case None => JoinedRow(v, None, None, BookOf(s, v))
  }

  /** Every review whose author exists, joined, oldest first. */
  function Joined(s: Store): (rows: seq<JoinedRow>)
    ensures forall i :: 0 <= i < |rows| ==> rows[i].review in s.reviews && HasAuthor(s, rows[i].review)
  {
    var authored := Filter(s.reviews, (v: Review) => HasAuthor(s, v));
    var rows := Map(authored, (v: Review) => JoinRow(s, v));
    assert forall i :: 0 <= i < |rows| ==> rows[i].review == authored[i] && authored[i] in authored;
    rows
  }

  /** `ORDER BY r.created_at DESC LIMIT n` over the join. */
  function Recent(s: Store, n: nat): seq<JoinedRow> {
    Newest(Joined(s), n)
  }

  function ReviewIdOf(v: Review): int {
    v.id
  }

  function RowId(r: JoinedRow): int {
    r.review.id
  }

  /** With review ids distinct, as the primary key makes them, the joined
      rows have distinct ids. */
  lemma JoinedDistinct(s: Store)
    requires ReviewIdsFresh(s)
    ensures DistinctBy(Joined(s), RowId)
  {
    var authored := Filter(s.reviews, (v: Review) => HasAuthor(s, v));
    assert DistinctBy(s.reviews, ReviewIdOf);
    FilterDistinct(s.reviews, (v: Review) => HasAuthor(s, v), ReviewIdOf);
    var joined := Joined(s);
    forall i, j | 0 <= i < j < |joined| ensures RowId(joined[i]) != RowId(joined[j]) {
      assert joined[i].review == authored[i] && joined[j].review == authored[j];
    }
  }

  /** ... and so have the fetched rows. */
  lemma RecentDistinct(s: Store, n: nat)
    requires ReviewIdsFresh(s)
    ensures DistinctBy(Recent(s, n), RowId)
  {
    JoinedDistinct(s);
    ReverseDistinct(Joined(s), RowId);
  }

  // ---------------------------------------------------------------------------
  // Composition.
  // ---------------------------------------------------------------------------

  const FeedWindow: nat := 30
  const FeedSize: nat := 7

  /** `review.genre?.some((g) => genres.includes(g))`. */
  function MatchesGenres(genres: seq<string>): JoinedRow -> bool {
    (x: JoinedRow) => Overlaps(x.book.genre, genres)
  }

  /** `!feed.some((f) => f.id === r.id)`. */
  function IdNotIn(feed: seq<JoinedRow>): JoinedRow -> bool {
    (x: JoinedRow) => forall f :: f in feed ==> f.review.id != x.review.id
  }

  /** The fetched rows whose book shares a genre with the reader's favourites. */
  function Matching(rows: seq<JoinedRow>, genres: seq<string>): (m: seq<JoinedRow>)
    ensures forall x :: x in m <==> x in rows && Overlaps(x.book.genre, genres)
  {
    Filter(rows, MatchesGenres(genres))
  }

  /** The rows whose id is not already in the feed. */
  function Unused(rows: seq<JoinedRow>, feed: seq<JoinedRow>): (u: seq<JoinedRow>)
    ensures forall x :: x in u <==> x in rows && forall f :: f in feed ==> f.review.id != x.review.id
  {
    Filter(rows, IdNotIn(feed))
  }

  /** The top-up: shuffled rows whose id is not among `matched`, as many as
      bring the feed to seven. */
  function Extras(rng: Rng, rows: seq<JoinedRow>, matched: seq<JoinedRow>): (e: seq<JoinedRow>)
    requires |matched| < FeedSize
    ensures |e| == (if |Unused(rows, matched)| < FeedSize - |matched| then |Unused(rows, matched)| else FeedSize - |matched|)
    ensures forall i :: 0 <= i < |e| ==> e[i] in Unused(rows, matched)
  {
    var e := Take(ShuffleWith(rng, "feed/extras", Unused(rows, matched)), FeedSize - |matched|);
    assert forall i :: 0 <= i < |e| ==> e[i] in ShuffleWith(rng, "feed/extras", Unused(rows, matched));
    e
  }

  /** The feed: every matching row, in order, then (when fewer than seven
      match) shuffled rows whose id is not yet in the feed, up to seven. */
  function Compose(rng: Rng, rows: seq<JoinedRow>, genres: seq<string>): (feed: seq<JoinedRow>)
    ensures forall i :: 0 <= i < |feed| ==> feed[i] in rows
  {
    var matched := Matching(rows, genres);
    if |matched| < FeedSize then matched + Extras(rng, rows, matched) else matched
  }

  /** The response body. */
  datatype FeedResponse = FeedResponse(total: nat, feed: seq<JoinedRow>)

  /** `GET /feed` for `user`: always 200 and nothing written; the feed is
      composed from the thirty most recent reviews and `total` is its length. */
  function GetCommunityFeed(s: Store, rng: Rng, user: UserId): (r: Reply<FeedResponse>)
    ensures r.status == OK && r.store == s && r.result.Some?
    ensures r.result.value.total == |r.result.value.feed|
    ensures forall i :: 0 <= i < |r.result.value.feed| ==> r.result.value.feed[i] in Recent(s, FeedWindow)
  {
    var feed := Compose(rng, Recent(s, FeedWindow), FavoriteGenres(s, user));
    Reply(OK, Some(FeedResponse(|feed|, feed)), s)
  }

  /** The feed starts with every matching row, in the fetched order; with
      seven or more matches it is exactly those. */
  lemma FeedStartsWithMatches(rng: Rng, rows: seq<JoinedRow>, genres: seq<string>)
    ensures var feed, m := Compose(rng, rows, genres), Matching(rows, genres);
      |feed| >= |m| && feed[..|m|] == m
      && (|m| >= FeedSize ==> feed == m)
  {
    var feed, m := Compose(rng, rows, genres), Matching(rows, genres);
    if |m| < FeedSize {
      assert feed[..|m|] == m;
    }
  }

  /** A row with a NULL genre list never counts as a match. */
  lemma NullGenreNeverMatches(rows: seq<JoinedRow>, genres: seq<string>)
    ensures forall i :: 0 <= i < |Matching(rows, genres)| ==> Matching(rows, genres)[i].book.genre.Some?
  {
    var m := Matching(rows, genres);
    forall i | 0 <= i < |m| ensures m[i].book.genre.Some? {
      assert m[i] in m;
    }
  }

  /** The rows after the matches are fetched rows that do not match and whose
      id is not among the matches. */
  lemma ExtrasAreUnmatched(rng: Rng, rows: seq<JoinedRow>, genres: seq<string>)
    ensures var feed, m := Compose(rng, rows, genres), Matching(rows, genres);
      forall i :: |m| <= i < |feed| ==>
        && feed[i] in rows
        && !Overlaps(feed[i].book.genre, genres)
        && (forall j :: 0 <= j < |m| ==> m[j].review.id != feed[i].review.id)
  {
    var feed, m := Compose(rng, rows, genres), Matching(rows, genres);
    if |m| < FeedSize {
      var extras := Extras(rng, rows, m);
      forall i | |m| <= i < |feed|
        ensures !Overlaps(feed[i].book.genre, genres)
        ensures forall j :: 0 <= j < |m| ==> m[j].review.id != feed[i].review.id
      {
        var x := feed[i];
        assert x == extras[i - |m|] && x in Unused(rows, m);
        assert forall j :: 0 <= j < |m| ==> m[j] in m;
        assert Overlaps(x.book.genre, genres) ==> x in m;
      }
    }
  }

  /** The top-up repeats no id, neither among its own rows nor from the
      matches. */
  lemma ExtrasDistinct(rng: Rng, rows: seq<JoinedRow>, matched: seq<JoinedRow>)
    requires DistinctBy(rows, RowId) && |matched| < FeedSize
    ensures DistinctBy(Extras(rng, rows, matched), RowId)
    ensures forall i, j :: 0 <= i < |matched| && 0 <= j < |Extras(rng, rows, matched)| ==>
      RowId(matched[i]) != RowId(Extras(rng, rows, matched)[j])
  {
    var u := Unused(rows, matched);
    var e := Extras(rng, rows, matched);
    FilterDistinct(rows, IdNotIn(matched), RowId);
    ShuffleDistinct(u, rng.draw("feed/extras"), RowId);
    var sh := ShuffleWith(rng, "feed/extras", u);
    assert e == sh[..|e|];
    forall i, j | 0 <= i < |matched| && 0 <= j < |e| ensures RowId(matched[i]) != RowId(e[j]) {
      assert matched[i] in matched && e[j] in u;
    }
  }

  /** When the fetched rows have distinct ids, so does the feed: no review is
      shown twice. */
  lemma FeedNoRepeat(rng: Rng, rows: seq<JoinedRow>, genres: seq<string>)
    requires DistinctBy(rows, RowId)
    ensures DistinctBy(Compose(rng, rows, genres), RowId)
  {
    var m := Matching(rows, genres);
    FilterDistinct(rows, MatchesGenres(genres), RowId);
    if |m| < FeedSize {
      ExtrasDistinct(rng, rows, m);
      ConcatDistinct(m, Extras(rng, rows, m), RowId);
    }
  }

  /** With distinct ids, the rows not yet in the feed are exactly the rows
      that do not match. */
  lemma UnusedAreUnmatched(rows: seq<JoinedRow>, genres: seq<string>)
    requires DistinctBy(rows, RowId)
    ensures |Unused(rows, Matching(rows, genres))| == |rows| - |Matching(rows, genres)|
  {
    var m := Matching(rows, genres);
    forall x | x in rows ensures IdNotIn(m)(x) <==> !MatchesGenres(genres)(x) {
      if !Overlaps(x.book.genre, genres) {
        forall f | f in m ensures f.review.id != x.review.id {
          DistinctElements(rows, RowId, x, f);
        }
      }
    }
    FilterComplement(rows, MatchesGenres(genres), IdNotIn(m));
  }

  /** With fewer than seven matches, the feed holds seven rows, or every
      fetched row when fewer than seven were fetched. */
  lemma FeedLength(rng: Rng, rows: seq<JoinedRow>, genres: seq<string>)
    requires DistinctBy(rows, RowId)
    requires |Matching(rows, genres)| < FeedSize
    ensures |Compose(rng, rows, genres)| == if |rows| < FeedSize then |rows| else FeedSize
  {
    UnusedAreUnmatched(rows, genres);
  }

  /** Over a database whose review ids are distinct, the served feed never
      shows a review twice, and holds at least `min(7, fetched)` rows. */
  lemma ServedFeedShape(s: Store, rng: Rng, user: UserId)
    requires ReviewIdsFresh(s)
    ensures var feed, rows := GetCommunityFeed(s, rng, user).result.value.feed, Recent(s, FeedWindow);
      DistinctBy(feed, RowId)
      && |feed| >= (if |rows| < FeedSize then |rows| else FeedSize)
  {
    var rows, genres := Recent(s, FeedWindow), FavoriteGenres(s, user);
    RecentDistinct(s, FeedWindow);
    FeedNoRepeat(rng, rows, genres);
    FeedStartsWithMatches(rng, rows, genres);
    if |Matching(rows, genres)| < FeedSize {
      FeedLength(rng, rows, genres);
    }
  }
}

=== FILE: history.dfy ===
/** The in-process recommendation history (`recommendationSystem` in
    `controllers/dashboardController.js`): per user, the keys shown most
    recently (at most twenty, oldest first), a count of how often each key was
    shown, and when the last batch was shown. A batch arriving more than an
    hour after the previous one starts the history afresh. Times are
    milliseconds since the epoch; the clock is a parameter. */
module History {
  import opened Common

  const HourMs: int := 3600000
  const MaxShown: nat := 20
  const ExcludedWindow: nat := 10

  datatype History = History(shownBooks: seq<string>, shownCount: map<string, nat>, lastShown: int)

  /** The process-wide table, keyed by user id. */
  type Histories = map<int, History>

  /** A fresh history: nothing shown, last shown at the epoch. */
  const Empty: History := History([], map[], 0)

  /** `getHistory(userId)`. */
  function GetHistory(h: Histories, user: int): (r: History)
    ensures user in h ==> r == h[user]
    ensures user !in h ==> r == Empty
  {
    if user in h then h[user] else Empty
  }

  /** `shownCount.get(key) || 0`. */
  function CountOf(m: map<string, nat>, k: string): nat {
    if k in m then m[k] else 0
  }

  /** Bumps the count of every key of the batch, one per occurrence. */
  function CountKeys(m: map<string, nat>, keys: seq<string>): (r: map<string, nat>)
    ensures forall k :: CountOf(r, k) == CountOf(m, k) + multiset(keys)[k]
    ensures forall k :: k in r <==> k in m || k in keys
    decreases |keys|
  {
    if |keys| == 0 then m
    else
      assert keys == [keys[0]] + keys[1..];
      CountKeys(m[keys[0] := CountOf(m, keys[0]) + 1], keys[1..])
  }

  /** The history a batch is added to: the old one, or an empty one when
      more than an hour has passed. */
  function Base(prev: History, now: int): (b: History)
    ensures now - prev.lastShown > HourMs ==> b.shownBooks == [] && b.shownCount == map[]
    ensures now - prev.lastShown <= HourMs ==> b == prev
  {
    if now - prev.lastShown > HourMs then prev.(shownBooks := [], shownCount := map[]) else prev
  }

  /** `updateHistory(userId, bookKeys)` at time `now`. */
  function UpdateHistory(h: Histories, user: int, keys: seq<string>, now: int): (r: Histories)
    ensures user in r && r.Keys == h.Keys + {user}
    ensures forall u :: u in h && u != user ==> r[u] == h[u]
    ensures var base, t := Base(GetHistory(h, user), now), r[user];
      && t.lastShown == now
      // at most twenty keys, the newest last
      && |t.shownBooks| <= MaxShown
      && |t.shownBooks| == (if |base.shownBooks + keys| < MaxShown then |base.shownBooks + keys| else MaxShown)
      && EndsWith(base.shownBooks + keys, t.shownBooks)
  {
    var base := Base(GetHistory(h, user), now);
    var t := History(TakeLast(base.shownBooks + keys, MaxShown), CountKeys(base.shownCount, keys), now);
    h[user := t]
  }

  /** Every shown key is counted once per occurrence, and the counts are not
      trimmed along with the list: a key that drops off the twenty keeps its
      count. */
  lemma UpdateHistoryCounts(h: Histories, user: int, keys: seq<string>, now: int)
    ensures var base, t := Base(GetHistory(h, user), now), UpdateHistory(h, user, keys, now)[user];
      forall k :: CountOf(t.shownCount, k) == CountOf(base.shownCount, k) + multiset(keys)[k]
  {
    var base := Base(GetHistory(h, user), now);
    assert UpdateHistory(h, user, keys, now)[user].shownCount == CountKeys(base.shownCount, keys);
  }

  /** `getExcludedKeys(userId)`: the last (at most) ten keys shown. */
  function GetExcludedKeys(h: Histories, user: int): (r: seq<string>)
    ensures |r| <= ExcludedWindow
    ensures user !in h ==> r == []
    ensures var shown := GetHistory(h, user).shownBooks;
      |r| == (if |shown| < ExcludedWindow then |shown| else ExcludedWindow)
      && EndsWith(shown, r)
  {
    TakeLast(GetHistory(h, user).shownBooks, ExcludedWindow)
  }

  /** A batch of at most twenty keys ends the shown list, so the next
      exclusion window is the batch's last ten keys (or the whole batch and
      what preceded it). */
  lemma BatchEndsHistory(h: Histories, user: int, keys: seq<string>, now: int)
    requires |keys| <= MaxShown
    ensures EndsWith(UpdateHistory(h, user, keys, now)[user].shownBooks, keys)
  {
    var base := Base(GetHistory(h, user), now);
    var all := base.shownBooks + keys;
    var shown := UpdateHistory(h, user, keys, now)[user].shownBooks;
    EndsWithConcat(base.shownBooks, keys);
    EndsWithShorter(all, shown, keys);
  }

  /** After more than an hour of silence only the new batch remains, and the
      counts start again from it. */
  lemma ResetAfterAnHour(h: Histories, user: int, keys: seq<string>, now: int)
    requires user in h && now - h[user].lastShown > HourMs
    requires |keys| <= MaxShown
    ensures UpdateHistory(h, user, keys, now)[user].shownBooks == keys
    ensures forall k :: CountOf(UpdateHistory(h, user, keys, now)[user].shownCount, k) == multiset(keys)[k]
  {
    assert [] + keys == keys;
    UpdateHistoryCounts(h, user, keys, now);
  }

  /** After a batch of at most ten keys is recorded, every one of them is in
      the reader's next exclusion window. */
  lemma ShownKeysExcludedNext(h: Histories, user: int, keys: seq<string>, now: int)
    requires |keys| <= ExcludedWindow
    ensures forall i :: 0 <= i < |keys| ==> keys[i] in GetExcludedKeys(UpdateHistory(h, user, keys, now), user)
  {
    BatchEndsExclusion(h, user, keys, now);
    EndsWithMembers(GetExcludedKeys(UpdateHistory(h, user, keys, now), user), keys);
  }

  /** A batch of at most ten keys ends the next exclusion window. */
  lemma BatchEndsExclusion(h: Histories, user: int, keys: seq<string>, now: int)
    requires |keys| <= ExcludedWindow
    ensures EndsWith(GetExcludedKeys(UpdateHistory(h, user, keys, now), user), keys)
  {
    BatchEndsHistory(h, user, keys, now);
    ExclusionKeepsTail(UpdateHistory(h, user, keys, now), user, keys);
  }

  /** When a user's shown list ends with at most ten keys, so does their
      exclusion window. */
  lemma ExclusionKeepsTail(h: Histories, user: int, keys: seq<string>)
    requires user in h && |keys| <= ExcludedWindow && EndsWith(h[user].shownBooks, keys)
    ensures EndsWith(GetExcludedKeys(h, user), keys)
  {
    EndsWithShorter(h[user].shownBooks, GetExcludedKeys(h, user), keys);
  }
}

=== FILE: notify.dfy ===
/** The notification dispatcher (`utils/sendNotification.js`) and the
    mark-read route (`routes/notificationRoutes.js`). */
module Notify {
  import opened Common
  import opened Db

  /** What a caller asks the dispatcher to record. `targetType` and `targetId`
      are optional and are stored as NULL when absent. */
  datatype NotificationRequest = NotificationRequest(
    sender: UserId, receiver: UserId, kind: string, message: string,
    targetType: Option<string>, targetId: Option<int>)

  /** `sendNotification`: inserts one unread notification row. `persisted` is
      whether the INSERT succeeded; a failure is logged and swallowed, so the
      caller never sees it and the database is left as it was. */
  function SendNotification(s: Store, n: NotificationRequest, persisted: bool): (t: Store)
    ensures SameExceptNotifications(s, t)
    ensures !persisted ==> t == s
    ensures persisted ==> |t.notifications| == |s.notifications| + 1
    ensures persisted ==> t.notifications[..|s.notifications|] == s.notifications
    ensures persisted ==>
      var m := t.notifications[|s.notifications|];
      && m.sender == n.sender && m.receiver == n.receiver && m.kind == n.kind
      && m.message == n.message && m.targetType == n.targetType
      && m.targetId == n.targetId && !m.isRead
  {
    if persisted then
      var row := Notification(s.nextId, n.sender, n.receiver, n.kind, n.message, n.targetType, n.targetId, false);
      s.(notifications := s.notifications + [row], nextId := s.nextId + 1)
    else s
  }

  /** A row the caller may mark: the requested id, addressed to the caller. */
  predicate MarkTarget(m: Notification, caller: UserId, id: int) {
    m.id == id && m.receiver == caller
  }

  function MarkRow(m: Notification, caller: UserId, id: int): Notification {
    if MarkTarget(m, caller, id) then m.(isRead := true) else m
  }

  /** `PATCH /notifications/:id/mark-read`. `id` is the route parameter as the
      database reads it; `None` is a value it cannot cast to an integer, which
      makes the UPDATE fail and the route answer 500. Otherwise the answer is
      200 whether or not a row matched. */
  function MarkRead(s: Store, caller: UserId, id: Option<int>): (r: Reply<()>)
    ensures id.None? ==> r.status == SERVER_ERROR && r.store == s
    ensures id.Some? ==> r.status == OK
    ensures SameExceptNotifications(s, r.store) && r.store.nextId == s.nextId
    ensures |r.store.notifications| == |s.notifications|
    // only the `is_read` column changes
    ensures forall i :: 0 <= i < |s.notifications| ==>
      r.store.notifications[i].(isRead := s.notifications[i].isRead) == s.notifications[i]
    // never reset to unread
    ensures forall i :: 0 <= i < |s.notifications| ==>
      s.notifications[i].isRead ==> r.store.notifications[i].isRead
    // the caller's row with that id is read afterwards
    ensures id.Some? ==> forall i :: 0 <= i < |s.notifications| && MarkTarget(s.notifications[i], caller, id.value) ==>
      r.store.notifications[i].isRead
    // every other row, including other users' rows with that id, is untouched
    ensures forall i :: 0 <= i < |s.notifications| && (id.None? || !MarkTarget(s.notifications[i], caller, id.value)) ==>
      r.store.notifications[i] == s.notifications[i]
  {
    match id
    case None => Fail(s, SERVER_ERROR)
    case Some(n) =>
      Reply(OK, Some(()), s.(notifications := Map(s.notifications, (m: Notification) => MarkRow(m, caller, n))))
  }

  /** A sent notification is unread until its receiver marks it: marking it
      as the receiver makes it read, and anyone else's mark leaves it as sent. */
  lemma SentUnreadUntilMarked(s: Store, n: NotificationRequest, other: UserId)
    requires other != n.receiver
    ensures var t := SendNotification(s, n, true);
      var k := |s.notifications|;
      && !t.notifications[k].isRead
      && MarkRead(t, n.receiver, Some(t.notifications[k].id)).store.notifications[k].isRead
      && MarkRead(t, other, Some(t.notifications[k].id)).store.notifications[k] == t.notifications[k]
  {
    var t := SendNotification(s, n, true);
    var k := |s.notifications|;
    assert MarkTarget(t.notifications[k], n.receiver, t.notifications[k].id);
  }

  /** Marking the same notification twice is the same as marking it once. */
  lemma MarkReadIdempotent(s: Store, caller: UserId, id: int)
    ensures MarkRead(MarkRead(s, caller, Some(id)).store, caller, Some(id)).store == MarkRead(s, caller, Some(id)).store
  {
    var t := MarkRead(s, caller, Some(id)).store;
    var u := MarkRead(t, caller, Some(id)).store;
    assert |u.notifications| == |t.notifications|;
    forall i | 0 <= i < |t.notifications|
      ensures u.notifications[i] == t.notifications[i]
    {
      var m := s.notifications[i];
      if MarkTarget(m, caller, id) {
        assert t.notifications[i] == m.(isRead := true);
      }
    }
  }
}

=== FILE: paging.dfy ===
/** Page arithmetic shared by the paginated listings
    (`controllers/getCustomBookController.js`,
    `controllers/userProfilepageControl.js`): `LIMIT l OFFSET (page - 1) * l`
    over rows in a fixed order, and the page count `Math.ceil(total / l)`. */
module Paging {

  /** `Math.ceil(n / d)` for a positive divisor. */
  function CeilDiv(n: nat, d: nat): nat
    requires d > 0
  {
    (n + d - 1) / d
  }

  lemma MulMono(a: int, b: int, d: int)
    requires a <= b && d >= 0
    ensures a * d <= b * d
  {
  }

  /** `CeilDiv(n, d)` is the fewest pages of `d` rows that hold `n` rows. */
  lemma CeilDivLeast(n: nat, d: nat)
    requires d > 0
    ensures d * CeilDiv(n, d) >= n
    ensures CeilDiv(n, d) > 0 ==> d * (CeilDiv(n, d) - 1) < n
    ensures n == 0 <==> CeilDiv(n, d) == 0
  {
    var c: int := CeilDiv(n, d);
    var q, r := (n + d - 1) / d, (n + d - 1) % d;
    assert n + d - 1 == d * q + r && 0 <= r < d;
    assert d * (c - 1) == d * c - d;
  }

  /** A page `p` (counting from 0) starts before the end of `n` rows exactly
      when it is below the page count. */
  lemma PageStartsBeforeEnd(p: nat, d: nat, n: nat)
    requires d > 0
    ensures p < CeilDiv(n, d) <==> p * d < n
  {
    var c := CeilDiv(n, d);
    CeilDivLeast(n, d);
    if p < c {
      MulMono(p, c - 1, d);
      assert (c - 1) * d == d * (c - 1);
    } else {
      MulMono(c, p, d);
      assert c * d == d * c;
    }
  }

  /** `LIMIT limit OFFSET offset` over `s`. */
  function Window<T>(s: seq<T>, offset: nat, limit: nat): (r: seq<T>)
    ensures |r| == (if offset >= |s| then 0 else if |s| - offset < limit then |s| - offset else limit)
    ensures forall i :: 0 <= i < |r| ==> r[i] == s[offset + i]
  {
    if offset >= |s| then []
    else if |s| - offset < limit then s[offset..]
    else s[offset..offset + limit]
  }

  /** `(page - 1) * limit`. */
  function Offset(page: int, limit: int): int {
    (page - 1) * limit
  }

  /** Row `k` falls within page `k / limit + 1`. */
  lemma PageOf(k: nat, limit: nat)
    requires limit > 0
    ensures var page := k / limit + 1;
      page >= 1 && Offset(page, limit) <= k < Offset(page, limit) + limit
  {
    var page := k / limit + 1;
    assert Offset(page, limit) == (k / limit) * limit;
    assert k == (k / limit) * limit + k % limit;
  }

  /** A row within a page's range is on that page, at its distance from the
      page's offset. */
  lemma RowOnPage<T>(s: seq<T>, limit: nat, page: int, k: nat)
    requires limit > 0 && page >= 1 && k < |s|
    requires Offset(page, limit) <= k < Offset(page, limit) + limit
    ensures var w := Window(s, Offset(page, limit), limit);
      k - Offset(page, limit) < |w| && w[k - Offset(page, limit)] == s[k]
  {
  }

  /** A page (counting from 1) holds rows exactly when it is at most the page
      count, so `page < totalPages` says another page of rows follows. */
  lemma NonEmptyPages<T>(s: seq<T>, limit: nat, page: int)
    requires limit > 0 && page >= 1
    ensures |Window(s, Offset(page, limit), limit)| > 0 <==> page <= CeilDiv(|s|, limit)
    ensures page < CeilDiv(|s|, limit) <==> Offset(page + 1, limit) < |s|
  {
    PageStartsBeforeEnd(page - 1, limit, |s|);
    PageStartsBeforeEnd(page, limit, |s|);
    assert Offset(page, limit) == (page - 1) * limit;
    assert Offset(page + 1, limit) == page * limit;
  }
}

=== FILE: profile.dfy ===
/** A user's public profile page (`controllers/userProfilepageControl.js`):
    the user's public columns with follower and following counts, and one page
    of nine of the user's reviews joined with their cached book rows, newest
    first. The route's user id is `None` when PostgreSQL cannot read it as an
    integer, which makes the first query fail. */
module Profile {
  import opened Common
  import opened Text
  import opened Db
  import opened Paging
  import opened Social

  const ProfilePageSize: int := 9

  /** The columns `SELECT id, username, profile_img, bio, favorite_genres`
      reads: never the email or the password hash. */
  datatype PublicProfile = PublicProfile(
    id: UserId, username: Option<string>, profileImg: Option<string>,
    bio: Option<string>, favoriteGenres: Option<seq<string>>)

  /** `{...user, followers, following}`; spreading a missing user adds no
      columns, so `user` is `None` then. */
  datatype UserInfo = UserInfo(user: Option<PublicProfile>, followers: nat, following: nat)

  /** One listed review with the columns of its `reviewed_books` row. */
  datatype ProfileReview = ProfileReview(
    reviewId: int, rating: Option<int>, text: Option<string>, bookId: string, book: BookInfo)

  datatype ProfilePage = ProfilePage(
    info: UserInfo, totalReviews: nat, reviews: seq<ProfileReview>, currentPage: int, totalPages: nat)

  /** The users following `user` (`following_id = user`). */
  function FollowersOf(s: Store, user: UserId): set<UserId> {
    set e | e in s.followers && e.1 == user :: e.0
  }

  /** The users `user` follows (`follower_id = user`). */
  function FollowingOf(s: Store, user: UserId): set<UserId> {
    set e | e in s.followers && e.0 == user :: e.1
  }

  function Public(u: User): PublicProfile {
    PublicProfile(u.id, u.username, u.profileImg, u.bio, u.favoriteGenres)
  }

  /** `getUserInfo`: the user's public columns when the user exists, and the
      two edge counts, which are counted whether or not the user exists. */
  function GetUserInfo(s: Store, user: UserId): (r: UserInfo)
    ensures r.user.Some? <==> FindUser(s, user).Some?
    ensures r.user.Some? ==> r.user.value.id == user && r.user.value == Public(FindUser(s, user).value)
    ensures r.followers == |FollowersOf(s, user)| && r.following == |FollowingOf(s, user)|
  {
    var u := match FindUser(s, user) case Some(u) => Some(Public(u)) case None => None;
    UserInfo(u, |FollowersOf(s, user)|, |FollowingOf(s, user)|)
  }

  /** The user's reviews (`WHERE user_id = $1`). */
  function ByUser(user: UserId): Review -> bool {
    (v: Review) => v.userId == user
  }

  /** The user's reviews that join a `reviewed_books` row
      (`JOIN reviewed_books rb ON r.book_id = rb.book_key`), whatever the
      review's source. */
  function JoinsCache(s: Store, user: UserId): Review -> bool {
    (v: Review) => v.userId == user && FindCached(s, v.bookId).Some?
  }

  /** A review together with the columns of its cached book row (the join
      keeps only reviews that have one). */
  function ProfileRow(s: Store, v: Review): ProfileReview {
    var info := match FindCached(s, v.bookId)
      case Some(b) => b.info
      case None => BookInfo(None, None, None, None, None);
    ProfileReview(v.id, v.rating, v.text, v.bookId, info)
  }

  /** `row` is the review `k` places from the newest of `joined`: one of
      `user`'s reviews with a cached book row. */
  predicate ListedAt(s: Store, user: UserId, joined: seq<Review>, row: ProfileReview, k: int) {
    && 0 <= k < |joined|
    && var v := joined[|joined| - 1 - k];
    && v in s.reviews && v.userId == user && FindCached(s, v.bookId).Some?
    && row == ProfileRow(s, v)
  }

  /** Every joined review of `user`, newest first: row `k` is the review `k`
      places from the newest of those that join, and every review of the
      user with a cached book row is listed. */
  function JoinedReviews(s: Store, user: UserId): (rows: seq<ProfileReview>)
    ensures |rows| == |Filter(s.reviews, JoinsCache(s, user))|
    ensures forall k :: 0 <= k < |rows| ==> ListedAt(s, user, Filter(s.reviews, JoinsCache(s, user)), rows[k], k)
    ensures forall v :: v in s.reviews && v.userId == user && FindCached(s, v.bookId).Some? ==> ProfileRow(s, v) in rows
  {
    var joined := Filter(s.reviews, JoinsCache(s, user));
    var rows := Map(Reverse(joined), RowOf(s));
    assert forall k :: 0 <= k < |rows| ==> ListedAt(s, user, joined, rows[k], k) by {
      forall k | 0 <= k < |rows| ensures ListedAt(s, user, joined, rows[k], k) {
        JoinedAt(s, user, k);
      }
    }
    assert forall v :: v in s.reviews && v.userId == user && FindCached(s, v.bookId).Some? ==> ProfileRow(s, v) in rows by {
      forall v | v in s.reviews && v.userId == user && FindCached(s, v.bookId).Some? ensures ProfileRow(s, v) in rows {
        assert v in multiset(Reverse(joined));
        MapMember(Reverse(joined), RowOf(s), v);
      }
    }
    rows
  }

  function RowOf(s: Store): Review -> ProfileReview {
    (v: Review) => ProfileRow(s, v)
  }

  /** The review `k` places from the newest joined one is the user's own and
      has a cached book row. */
  lemma JoinedAt(s: Store, user: UserId, k: int)
    requires 0 <= k < |Filter(s.reviews, JoinsCache(s, user))|
    ensures var joined := Filter(s.reviews, JoinsCache(s, user));
      ListedAt(s, user, joined, Map(Reverse(joined), RowOf(s))[k], k)
  {
    var joined := Filter(s.reviews, JoinsCache(s, user));
    MapReverseAt(joined, RowOf(s), k);
  }

  /** `getUserReviewsWithBooks` for a page that is at least 1: at most nine
      joined reviews, row `i` being the joined review `(page - 1) * 9 + i`
      places from the newest; the total counts every review of the user,
      joined or not, and the page count is the fewest pages of nine that hold
      the total. */
  function UserReviewsWithBooks(s: Store, user: UserId, page: int): (r: (seq<ProfileReview>, nat, nat))
    requires page >= 1
    ensures |r.0| <= ProfilePageSize
    ensures var j := |Filter(s.reviews, JoinsCache(s, user))|;
      |r.0| == (if Offset(page, ProfilePageSize) >= j then 0
                else if j - Offset(page, ProfilePageSize) < ProfilePageSize then j - Offset(page, ProfilePageSize)
                else ProfilePageSize)
    ensures forall i :: 0 <= i < |r.0| ==>
      ListedAt(s, user, Filter(s.reviews, JoinsCache(s, user)), r.0[i], Offset(page, ProfilePageSize) + i)
    ensures r.1 == |Filter(s.reviews, ByUser(user))|
    ensures ProfilePageSize * r.2 >= r.1
    ensures r.2 > 0 ==> ProfilePageSize * (r.2 - 1) < r.1
  {
    var total := |Filter(s.reviews, ByUser(user))|;
    var listed := Window(JoinedReviews(s, user), Offset(page, ProfilePageSize), ProfilePageSize);
    assert forall i :: 0 <= i < |listed| ==>
      ListedAt(s, user, Filter(s.reviews, JoinsCache(s, user)), listed[i], Offset(page, ProfilePageSize) + i) by {
      forall i | 0 <= i < |listed| {
        ListedOnPage(s, user, page, i);
      }
    }
    CeilDivLeast(total, ProfilePageSize);
    (listed, total, CeilDiv(total, ProfilePageSize))
  }

  /** Row `i` of page `page` is the joined review `(page - 1) * 9 + i` places
      from the newest. */
  lemma ListedOnPage(s: Store, user: UserId, page: int, i: int)
    requires page >= 1 && 0 <= i < |Window(JoinedReviews(s, user), Offset(page, ProfilePageSize), ProfilePageSize)|
    ensures ListedAt(s, user, Filter(s.reviews, JoinsCache(s, user)),
      Window(JoinedReviews(s, user), Offset(page, ProfilePageSize), ProfilePageSize)[i], Offset(page, ProfilePageSize) + i)
  {
    var rows := JoinedReviews(s, user);
    assert Window(rows, Offset(page, ProfilePageSize), ProfilePageSize)[i] == rows[Offset(page, ProfilePageSize) + i];
  }

  /** `GET /users/:userId/profile?page=`: `page` is `parseInt(page) || 1`.
      500 when the user id is not an integer or the page is negative (the
      negative `OFFSET` is refused); otherwise 200, even for an unknown user.
      Nothing is written. */
  function GetUserProfilePage(s: Store, userId: Option<int>, pageQ: Option<string>): (r: Reply<ProfilePage>)
    ensures r.store == s
    ensures r.status == SERVER_ERROR <==> userId.None? || QueryInt(pageQ, 1) < 1
    ensures r.status != SERVER_ERROR ==>
      && r.status == OK && r.result.Some?
      && var p := r.result.value;
      && p.currentPage == QueryInt(pageQ, 1)
      && p.info == GetUserInfo(s, userId.value)
      && p.totalReviews == |Filter(s.reviews, ByUser(userId.value))|
      && p.totalPages == CeilDiv(p.totalReviews, ProfilePageSize)
      && |p.reviews| <= ProfilePageSize
  {
    match userId
    case None => Fail(s, SERVER_ERROR)
    case Some(user) =>
      var page := QueryInt(pageQ, 1);
      if page < 1 then Fail(s, SERVER_ERROR)
      else
        var (rows, total, pages) := UserReviewsWithBooks(s, user, page);
        Reply(OK, Some(ProfilePage(GetUserInfo(s, user), total, rows, page, pages)), s)
  }

  /** The handler's page is the listing of `getUserReviewsWithBooks` for the
      parsed page number. */
  lemma ProfileListsParsedPage(s: Store, user: UserId, pageQ: Option<string>)
    requires GetUserProfilePage(s, Some(user), pageQ).status == OK
    ensures var p := GetUserProfilePage(s, Some(user), pageQ).result.value;
      p.currentPage >= 1 && p.reviews == UserReviewsWithBooks(s, user, p.currentPage).0
  {
  }

  /** The listed reviews never outnumber the count the page reports: the
      count includes reviews whose book has no cached row. */
  lemma JoinedAtMostTotal(s: Store, user: UserId)
    ensures |JoinedReviews(s, user)| <= |Filter(s.reviews, ByUser(user))|
  {
    FilterStronger(s.reviews, JoinsCache(s, user), ByUser(user));
  }

  /** When every review of the user has a cached book row, the pages hold
      exactly the user's reviews and `totalPages` counts the non-empty pages. */
  lemma AllCachedPagesExact(s: Store, user: UserId, page: int)
    requires page >= 1
    requires forall v :: v in s.reviews && v.userId == user ==> FindCached(s, v.bookId).Some?
    ensures var r := UserReviewsWithBooks(s, user, page);
      |r.0| > 0 <==> page <= r.2
  {
    FilterCongruent(s.reviews, JoinsCache(s, user), ByUser(user));
    NonEmptyPages(JoinedReviews(s, user), ProfilePageSize, page);
  }

  /** A review whose book has no cached row still counts toward the total and
      the page count, but no page lists it. */
  lemma UncachedReviewCountedNotListed(u: User)
    ensures var v := Review(1, u.id, "b", Api, Some(5), None);
      var s := Store([u], [v], [], [], {}, {}, [], {}, {}, [], [], 2);
      var r := GetUserProfilePage(s, Some(u.id), None).result.value;
      r.totalReviews == 1 && r.totalPages == 1 && r.reviews == []
  {
    var v := Review(1, u.id, "b", Api, Some(5), None);
    var s := Store([u], [v], [], [], {}, {}, [], {}, {}, [], [], 2);
    assert Filter(s.reviews, ByUser(u.id)) == [v];
    assert Filter(s.reviews, JoinsCache(s, u.id)) == [];
  }

  /** A joined review at position `k`, counted from the newest, is on every
      page whose range holds `k`. */
  lemma JoinedReviewOnPage(s: Store, user: UserId, page: int, k: nat)
    requires page >= 1 && k < |JoinedReviews(s, user)|
    requires Offset(page, ProfilePageSize) <= k < Offset(page, ProfilePageSize) + ProfilePageSize
    ensures JoinedReviews(s, user)[k] in UserReviewsWithBooks(s, user, page).0
  {
    var rows := JoinedReviews(s, user);
    RowOnPage(rows, ProfilePageSize, page, k);
    var w := Window(rows, Offset(page, ProfilePageSize), ProfilePageSize);
    assert w[k - Offset(page, ProfilePageSize)] in w;
  }

  /** Every joined review of the user is listed on page `k / 9 + 1`, where
      `k` is its position counted from the newest, when that page is asked
      for. */
  lemma EveryJoinedReviewListed(s: Store, user: UserId, k: nat)
    requires k < |JoinedReviews(s, user)|
    ensures var r := GetUserProfilePage(s, Some(user), Some(IntToString(k / ProfilePageSize + 1)));
      r.status == OK && JoinedReviews(s, user)[k] in r.result.value.reviews
  {
    var page := k / ProfilePageSize + 1;
    QueryIntRoundTrip(page, 1);
    PageOf(k, ProfilePageSize);
    JoinedReviewOnPage(s, user, page, k);
  }

  /** A follow adds one to the followee's follower count and one to the
      follower's following count. */
  lemma FollowCountsGrow(s: Store, a: UserId, b: UserId, sent1: bool, sent2: bool)
    requires Follow(s, a, Some(b), sent1, sent2).status == OK
    ensures var t := Follow(s, a, Some(b), sent1, sent2).store;
      && GetUserInfo(t, b).followers == GetUserInfo(s, b).followers + 1
      && GetUserInfo(t, a).following == GetUserInfo(s, a).following + 1
  {
    var t := Follow(s, a, Some(b), sent1, sent2).store;
    assert t.followers == s.followers + {(a, b)};
    assert FollowersOf(t, b) == FollowersOf(s, b) + {a};
    assert a !in FollowersOf(s, b);
    assert FollowingOf(t, a) == FollowingOf(s, a) + {b};
    assert b !in FollowingOf(s, a);
  }

  /** An unfollow takes one off both counts. */
  lemma UnfollowCountsShrink(s: Store, a: UserId, b: UserId, sent: bool)
    requires Unfollow(s, a, Some(b), sent).status == OK
    ensures var t := Unfollow(s, a, Some(b), sent).store;
      && GetUserInfo(t, b).followers + 1 == GetUserInfo(s, b).followers
      && GetUserInfo(t, a).following + 1 == GetUserInfo(s, a).following
  {
    var t := Unfollow(s, a, Some(b), sent).store;
    assert t.followers == s.followers - {(a, b)};
    assert FollowersOf(s, b) == FollowersOf(t, b) + {a};
    assert a !in FollowersOf(t, b);
    assert FollowingOf(s, a) == FollowingOf(t, a) + {b};
    assert b !in FollowingOf(t, a);
  }
}

=== FILE: reviews.dfy ===
/** Review lifecycle and review reactions (`controllers/reviewController.js`):
    creating a review resolves the book (custom catalogue first, else Open
    Library) and snapshots it into the write-once `reviewed_books` cache;
    only the author may update or delete; deleting the last review of a book
    drops its cache row; a like and an unlike by the same user on the same
    review exclude each other. */
module Reviews {
  import opened Common
  import opened Db
  import opened Catalog
  import opened Notify

  /** JavaScript truthiness of a numeric body field: present and not 0. */
  predicate TruthyInt(x: Option<int>) {
    x.Some? && x.value != 0
  }

  /** JavaScript truthiness of a string body field: present and not empty. */
  predicate TruthyStr(x: Option<string>) {
    x.Some? && x.value != ""
  }

  /** The tables a review handler never writes. */
  ghost predicate SameOutsideReviews(s: Store, t: Store) {
    && s.users == t.users && s.custom == t.custom && s.comments == t.comments
    && s.commentLikes == t.commentLikes && s.followers == t.followers
    && s.notifications == t.notifications && s.recommended == t.recommended
    && s.reviewLikes == t.reviewLikes && s.reviewUnlikes == t.reviewUnlikes
  }

  /** How `createReview` identifies the book: the custom row's columns with
      source `custom`, else the Open Library record with source `api`, else
      nothing. The cache is never consulted here. */
  function ResolveForReview(s: Store, api: OpenLibrary, bookId: string): (r: Option<(Source, BookInfo)>)
    ensures FindCustomByKey(s, bookId).Some? ==> r == Some((Custom, FindCustomByKey(s, bookId).value.info))
    ensures FindCustomByKey(s, bookId).None? ==>
      (r.None? <==> FetchWorkDetails(api, bookId).None?)
      && (r.Some? ==> r.value == (Api, ToInfo(FetchWorkDetails(api, bookId).value)))
  {
    match FindCustomByKey(s, bookId)
    case Some(b) => Some((Custom, b.info))
    case None =>
      match FetchWorkDetails(api, bookId)
      case Some(d) => Some((Api, ToInfo(d)))
      case None => None
  }

  /** `INSERT INTO reviewed_books ... ON CONFLICT (book_key) DO NOTHING`. */
  function CacheInsert(s: Store, key: string, info: BookInfo, source: Source): (t: Store)
    ensures t == s.(cached := t.cached)
    ensures |t.cached| >= |s.cached| && t.cached[..|s.cached|] == s.cached
    ensures FindCached(s, key).Some? ==> t.cached == s.cached
    ensures FindCached(s, key).None? ==> t.cached == s.cached + [CachedBook(key, info, source)]
  {
    if FindCached(s, key).Some? then s
    else s.(cached := s.cached + [CachedBook(key, info, source)])
  }

  /** The cache's conflict target, `reviewed_books.book_key`. */
  function CacheKey(b: CachedBook): string { b.key }

  /** The conflict target keeps the cache keyed: an insert never adds a
      second row for a key already cached. */
  lemma CacheInsertKeepsKeysDistinct(s: Store, key: string, info: BookInfo, source: Source)
    requires DistinctBy(s.cached, CacheKey)
    ensures DistinctBy(CacheInsert(s, key, info, source).cached, CacheKey)
  {
    var t := CacheInsert(s, key, info, source);
    if FindCached(s, key).None? {
      forall i, j | 0 <= i < j < |t.cached| ensures CacheKey(t.cached[i]) != CacheKey(t.cached[j]) {
        if j == |s.cached| {
          assert t.cached[i] == s.cached[i] && s.cached[i] in s.cached;
        } else {
          assert t.cached[i] == s.cached[i] && t.cached[j] == s.cached[j];
        }
      }
    }
  }

  /** `POST /reviews/:bookId`. */
  function CreateReview(s: Store, user: UserId, bookId: string, rating: Option<int>, text: Option<string>, api: OpenLibrary): (r: Reply<Review>)
    // missing or falsy rating or text: 400, nothing written
    ensures !TruthyInt(rating) || !TruthyStr(text) ==> r.status == BAD_REQUEST && r.store == s
    // a second review of the same book by the same user: 409, nothing written
    ensures TruthyInt(rating) && TruthyStr(text) && HasReviewBy(s, user, bookId) ==>
      r.status == CONFLICT && r.store == s
    // neither a custom row nor an Open Library record: 404, nothing written
    ensures (TruthyInt(rating) && TruthyStr(text) && !HasReviewBy(s, user, bookId)
             && ResolveForReview(s, api, bookId).None?) ==> r.status == NOT_FOUND && r.store == s
    ensures r.status in {BAD_REQUEST, CONFLICT, NOT_FOUND, CREATED}
    ensures r.status != CREATED ==> r.store == s
    ensures r.status == CREATED <==>
      TruthyInt(rating) && TruthyStr(text) && !HasReviewBy(s, user, bookId) && ResolveForReview(s, api, bookId).Some?
    ensures r.status == CREATED ==> r.result.Some?
    ensures r.status == CREATED ==>
      var v := r.result.value;
      && SameOutsideReviews(s, r.store)
      && r.store.reviews == s.reviews + [v]
      && v.userId == user && v.bookId == bookId && v.rating == rating && v.text == text
      && (v.source == Custom <==> FindCustomByKey(s, bookId).Some?)
      && v.id == s.nextId && r.store.nextId > v.id
      // the cache is write-once: existing rows are kept as they were
      && |r.store.cached| >= |s.cached| && r.store.cached[..|s.cached|] == s.cached
      && (FindCached(s, bookId).Some? ==> r.store.cached == s.cached)
      && (FindCached(s, bookId).None? ==>
            r.store.cached == s.cached + [CachedBook(bookId, ResolveForReview(s, api, bookId).value.1, v.source)])
  {
    if !TruthyInt(rating) || !TruthyStr(text) then Fail(s, BAD_REQUEST)
    else if HasReviewBy(s, user, bookId) then Fail(s, CONFLICT)
    else
      match ResolveForReview(s, api, bookId)
      case None => Fail(s, NOT_FOUND)
      case Some((source, info)) =>
        var s1 := CacheInsert(s, bookId, info, source);
        var v := Review(s1.nextId, user, bookId, source, rating, text);
        Reply(CREATED, Some(v), s1.(reviews := s1.reviews + [v], nextId := s1.nextId + 1))
  }

  /** Creating a review keeps at most one review per (user, book). */
  lemma CreateReviewKeepsOneReviewPerUserBook(s: Store, user: UserId, bookId: string, rating: Option<int>, text: Option<string>, api: OpenLibrary)
    requires OneReviewPerUserBook(s)
    ensures OneReviewPerUserBook(CreateReview(s, user, bookId, rating, text, api).store)
  {
    var r := CreateReview(s, user, bookId, rating, text, api);
    if r.status == CREATED {
      var t := r.store.reviews;
      forall i, j | 0 <= i < |t| && 0 <= j < |t| && i != j
        ensures !(t[i].userId == t[j].userId && t[i].bookId == t[j].bookId)
      {
        if i == |s.reviews| {
          assert s.reviews[j] in s.reviews;
        } else if j == |s.reviews| {
          assert s.reviews[i] in s.reviews;
        }
      }
    }
  }

  /** Creating a review keeps review ids distinct and below the counter. */
  lemma CreateReviewKeepsIdsFresh(s: Store, user: UserId, bookId: string, rating: Option<int>, text: Option<string>, api: OpenLibrary)
    requires ReviewIdsFresh(s)
    ensures ReviewIdsFresh(CreateReview(s, user, bookId, rating, text, api).store)
  {
  }

  /** Applies the new rating and text to the row with the given id. */
  function UpdateRow(v: Review, id: int, rating: Option<int>, text: Option<string>): Review {
    if v.id == id then v.(rating := rating, text := text) else v
  }

  /** `PUT /reviews/:id`. `id` is the route parameter as the database reads
      it; `None` is a value it cannot cast to an integer, which makes the
      SELECT fail and the route answer 500. The body fields are written as
      given, even when absent (they become NULL). */
  function UpdateReview(s: Store, user: UserId, id: Option<int>, rating: Option<int>, text: Option<string>): (r: Reply<Review>)
    ensures id.None? ==> r.status == SERVER_ERROR && r.store == s
    ensures id.Some? && FindReview(s, id.value).None? ==> r.status == NOT_FOUND && r.store == s
    ensures id.Some? && FindReview(s, id.value).Some? && FindReview(s, id.value).value.userId != user ==>
      r.status == FORBIDDEN && r.store == s
    ensures r.status == OK <==> id.Some? && FindReview(s, id.value).Some? && FindReview(s, id.value).value.userId == user
    ensures r.status == OK ==>
      var reviewId := id.value;
      && SameOutsideReviews(s, r.store) && r.store.cached == s.cached && r.store.nextId == s.nextId
      && |r.store.reviews| == |s.reviews|
      && (forall i :: 0 <= i < |s.reviews| && s.reviews[i].id != reviewId ==> r.store.reviews[i] == s.reviews[i])
      && (forall i :: 0 <= i < |s.reviews| && s.reviews[i].id == reviewId ==>
            r.store.reviews[i] == s.reviews[i].(rating := rating, text := text))
      && r.result.Some? && r.result.value.id == reviewId && r.result.value.userId == user
      && r.result.value.rating == rating && r.result.value.text == text
  {
    match id
    case None => Fail(s, SERVER_ERROR)
    case Some(reviewId) =>
      match FindReview(s, reviewId)
      case None => Fail(s, NOT_FOUND)
      case Some(v) =>
        if v.userId != user then Fail(s, FORBIDDEN)
        else
          var rows := Map(s.reviews, (w: Review) => UpdateRow(w, reviewId, rating, text));
          Reply(OK, Some(v.(rating := rating, text := text)), s.(reviews := rows))
  }

  /** Updating never changes who wrote a review or which book it is about. */
  lemma UpdateReviewKeepsOneReviewPerUserBook(s: Store, user: UserId, id: Option<int>, rating: Option<int>, text: Option<string>)
    requires OneReviewPerUserBook(s)
    ensures OneReviewPerUserBook(UpdateReview(s, user, id, rating, text).store)
  {
  }

  /** A cache row for `key` with the given source. */
  predicate HasCacheRow(s: Store, key: string, source: Source) {
    exists b :: b in s.cached && b.key == key && b.source == source
  }

  /** `DELETE /reviews/:id`: 500 for an id the database cannot read. After the
      review is gone, when no review of the same book id remains, the cache
      row with that key and source goes too. */
  function DeleteReview(s: Store, user: UserId, id: Option<int>): (r: Reply<()>)
    ensures id.None? ==> r.status == SERVER_ERROR && r.store == s
    ensures id.Some? && FindReview(s, id.value).None? ==> r.status == NOT_FOUND && r.store == s
    ensures id.Some? && FindReview(s, id.value).Some? && FindReview(s, id.value).value.userId != user ==>
      r.status == FORBIDDEN && r.store == s
    ensures r.status == OK <==> id.Some? && FindReview(s, id.value).Some? && FindReview(s, id.value).value.userId == user
    ensures r.status == OK ==>
      var v := FindReview(s, id.value).value;
      && SameOutsideReviews(s, r.store) && r.store.nextId == s.nextId
      && (forall w :: w in r.store.reviews <==> w in s.reviews && w.id != id.value)
      // the cache row for (book, source) survives iff a review of the book remains
      && (HasCacheRow(r.store, v.bookId, v.source) <==>
            HasCacheRow(s, v.bookId, v.source) && exists w :: w in r.store.reviews && w.bookId == v.bookId)
      // every other cache row is untouched
      && (forall b :: b in s.cached && !(b.key == v.bookId && b.source == v.source) ==> b in r.store.cached)
      && (forall b :: b in r.store.cached ==> b in s.cached)
  {
    match id
    case None => Fail(s, SERVER_ERROR)
    case Some(reviewId) =>
      match FindReview(s, reviewId)
      case None => Fail(s, NOT_FOUND)
      case Some(v) =>
        if v.userId != user then Fail(s, FORBIDDEN)
        else
          var rest := Filter(s.reviews, (w: Review) => w.id != reviewId);
          var remaining := Filter(rest, (w: Review) => w.bookId == v.bookId);
          var cached :=
            if |remaining| == 0 then Filter(s.cached, (b: CachedBook) => !(b.key == v.bookId && b.source == v.source))
            else s.cached;
          assert |remaining| == 0 <==> !exists w :: w in rest && w.bookId == v.bookId by {
            if |remaining| > 0 { assert remaining[0] in remaining; }
          }
          Reply(OK, Some(()), s.(reviews := rest, cached := cached))
  }
  /** Deleting keeps the one-review-per-(user, book) invariant. */
  lemma {:induction false} FilterKeepsOneReviewPerUserBook(s: Store, p: Review -> bool)
    requires OneReviewPerUserBook(s)
    ensures OneReviewPerUserBook(s.(reviews := Filter(s.reviews, p)))
    decreases |s.reviews|
  {
    if |s.reviews| > 0 {
      var tail := s.(reviews := s.reviews[1..]);
      assert OneReviewPerUserBook(tail) by {
        forall i, j | 0 <= i < |tail.reviews| && 0 <= j < |tail.reviews| && i != j
          ensures !(tail.reviews[i].userId == tail.reviews[j].userId && tail.reviews[i].bookId == tail.reviews[j].bookId)
        {
          assert tail.reviews[i] == s.reviews[i + 1] && tail.reviews[j] == s.reviews[j + 1];
        }
      }
      FilterKeepsOneReviewPerUserBook(tail, p);
      var rest := Filter(s.reviews[1..], p);
      if p(s.reviews[0]) {
        var t := [s.reviews[0]] + rest;
        assert Filter(s.reviews, p) == t;
        forall i, j | 0 <= i < |t| && 0 <= j < |t| && i != j
          ensures !(t[i].userId == t[j].userId && t[i].bookId == t[j].bookId)
        {
          if i == 0 || j == 0 {
            var k := if i == 0 then j else i;
            assert t[k] in s.reviews[1..];
            var m :| 0 <= m < |s.reviews[1..]| && s.reviews[1..][m] == t[k];
            assert s.reviews[m + 1] == t[k];
          }
        }
      }
    }
  }

  lemma DeleteReviewKeepsOneReviewPerUserBook(s: Store, user: UserId, id: Option<int>)
    requires OneReviewPerUserBook(s)
    ensures OneReviewPerUserBook(DeleteReview(s, user, id).store)
  {
    if id.Some? {
      FilterKeepsOneReviewPerUserBook(s, (w: Review) => w.id != id.value);
    }
  }

  // ---------------------------------------------------------------------------
  // Likes and unlikes on reviews.
  // ---------------------------------------------------------------------------

  /** The reaction invariant: nobody both likes and unlikes the same review. */
  ghost predicate ReactionsExclusive(s: Store) {
    s.reviewLikes !! s.reviewUnlikes
  }

  /** The notification a review reaction sends to the review's author. Both
      reactions use the type `like_review`. */
  function ReactionNotice(s: Store, user: UserId, author: UserId, reviewId: int, verb: string): NotificationRequest {
    NotificationRequest(user, author, "like_review",
      NameOr(UsernameOf(s, user), "Someone ") + " " + verb + " your review",
      Some("review"), Some(reviewId))
  }

  /** `POST /reviews/:reviewId/like`. An unreadable id fails the first SELECT
      (500, nothing written). A repeated like is refused with 400. The like is
      inserted and any unlike removed before the author is looked up, so a
      missing review leaves those writes in place and answers 500. */
  function LikeReview(s: Store, user: UserId, id: Option<int>, persisted: bool): (r: Reply<()>)
    ensures id.None? ==> r.status == SERVER_ERROR && r.store == s
    ensures id.Some? && (user, id.value) in s.reviewLikes ==> r.status == BAD_REQUEST && r.store == s
    ensures id.Some? && (user, id.value) !in s.reviewLikes ==>
      var reviewId := id.value;
      && r.store.reviewLikes == s.reviewLikes + {(user, reviewId)}
      && r.store.reviewUnlikes == s.reviewUnlikes - {(user, reviewId)}
      && r.store.reviews == s.reviews && r.store.cached == s.cached
      && r.store.comments == s.comments && r.store.followers == s.followers
      && (FindReview(s, reviewId).None? ==> r.status == SERVER_ERROR && r.store.notifications == s.notifications)
      && (FindReview(s, reviewId).Some? ==>
            && r.status == CREATED
            && |r.store.notifications| == |s.notifications| + (if persisted then 1 else 0)
            && r.store.notifications[..|s.notifications|] == s.notifications
            && (persisted ==> r.store.notifications[|s.notifications|].receiver == FindReview(s, reviewId).value.userId))
  {
    match id
    case None => Fail(s, SERVER_ERROR)
    case Some(reviewId) =>
      if (user, reviewId) in s.reviewLikes then Fail(s, BAD_REQUEST)
      else
        var s1 := s.(reviewLikes := s.reviewLikes + {(user, reviewId)},
                     reviewUnlikes := s.reviewUnlikes - {(user, reviewId)});
        match FindReview(s1, reviewId)
        case None => Reply(SERVER_ERROR, None, s1)
        case Some(v) =>
          var s2 := SendNotification(s1, ReactionNotice(s1, user, v.userId, reviewId, "liked"), persisted);
          Reply(CREATED, Some(()), s2)
  }

  /** `POST /reviews/:reviewId/unlike`: the mirror image of `LikeReview`. */
  function UnlikeReview(s: Store, user: UserId, id: Option<int>, persisted: bool): (r: Reply<()>)
    ensures id.None? ==> r.status == SERVER_ERROR && r.store == s
    ensures id.Some? && (user, id.value) in s.reviewUnlikes ==> r.status == BAD_REQUEST && r.store == s
    ensures id.Some? && (user, id.value) !in s.reviewUnlikes ==>
      var reviewId := id.value;
      && r.store.reviewUnlikes == s.reviewUnlikes + {(user, reviewId)}
      && r.store.reviewLikes == s.reviewLikes - {(user, reviewId)}
      && r.store.reviews == s.reviews && r.store.cached == s.cached
      && r.store.comments == s.comments && r.store.followers == s.followers
      && (FindReview(s, reviewId).None? ==> r.status == SERVER_ERROR && r.store.notifications == s.notifications)
      && (FindReview(s, reviewId).Some? ==>
            && r.status == CREATED
            && |r.store.notifications| == |s.notifications| + (if persisted then 1 else 0)
            && r.store.notifications[..|s.notifications|] == s.notifications
            && (persisted ==> r.store.notifications[|s.notifications|].receiver == FindReview(s, reviewId).value.userId))
  {
    match id
    case None => Fail(s, SERVER_ERROR)
    case Some(reviewId) =>
      if (user, reviewId) in s.reviewUnlikes then Fail(s, BAD_REQUEST)
      else
        var s1 := s.(reviewUnlikes := s.reviewUnlikes + {(user, reviewId)},
                     reviewLikes := s.reviewLikes - {(user, reviewId)});
        match FindReview(s1, reviewId)
        case None => Reply(SERVER_ERROR, None, s1)
        case Some(v) =>
          var s2 := SendNotification(s1, ReactionNotice(s1, user, v.userId, reviewId, "dis-liked"), persisted);
          Reply(CREATED, Some(()), s2)
  }

  /** `DELETE /reviews/:reviewId/like`: removes the like, if any; 200 for any
      readable id, 500 otherwise. */
  function RemoveLike(s: Store, user: UserId, id: Option<int>): (r: Reply<()>)
    ensures id.None? ==> r.status == SERVER_ERROR && r.store == s
    ensures id.Some? ==> r.status == OK
    ensures r.store == s.(reviewLikes := r.store.reviewLikes)
    ensures id.Some? ==> forall p :: p in r.store.reviewLikes <==> p in s.reviewLikes && p != (user, id.value)
  {
    match id
    case None => Fail(s, SERVER_ERROR)
    case Some(reviewId) => Reply(OK, Some(()), s.(reviewLikes := s.reviewLikes - {(user, reviewId)}))
  }

  /** `DELETE /reviews/:reviewId/unlike`: removes the unlike, if any; 200 for
      any readable id, 500 otherwise. */
  function RemoveUnlike(s: Store, user: UserId, id: Option<int>): (r: Reply<()>)
    ensures id.None? ==> r.status == SERVER_ERROR && r.store == s
    ensures id.Some? ==> r.status == OK
    ensures r.store == s.(reviewUnlikes := r.store.reviewUnlikes)
    ensures id.Some? ==> forall p :: p in r.store.reviewUnlikes <==> p in s.reviewUnlikes && p != (user, id.value)
  {
    match id
    case None => Fail(s, SERVER_ERROR)
    case Some(reviewId) => Reply(OK, Some(()), s.(reviewUnlikes := s.reviewUnlikes - {(user, reviewId)}))
  }

  datatype LikeStatus = LikeStatus(liked: bool, unliked: bool)

  /** `GET /reviews/:reviewId/like-status`: 500 for an unreadable id, else 200
      with both flags. Nothing is written. */
  function CheckReviewLikeStatus(s: Store, user: UserId, id: Option<int>): (r: Reply<LikeStatus>)
    ensures r.store == s
    ensures id.None? ==> r.status == SERVER_ERROR
    ensures id.Some? ==>
      && r.status == OK && r.result.Some?
      && (r.result.value.liked <==> (user, id.value) in s.reviewLikes)
      && (r.result.value.unliked <==> (user, id.value) in s.reviewUnlikes)
      && (ReactionsExclusive(s) ==> !(r.result.value.liked && r.result.value.unliked))
  {
    match id
    case None => Fail(s, SERVER_ERROR)
    case Some(reviewId) =>
      Reply(OK, Some(LikeStatus((user, reviewId) in s.reviewLikes, (user, reviewId) in s.reviewUnlikes)), s)
  }

  /** Every reaction handler keeps likes and unlikes disjoint. */
  lemma ReactionsStayExclusive(s: Store, user: UserId, id: Option<int>, persisted: bool)
    requires ReactionsExclusive(s)
    ensures ReactionsExclusive(LikeReview(s, user, id, persisted).store)
    ensures ReactionsExclusive(UnlikeReview(s, user, id, persisted).store)
    ensures ReactionsExclusive(RemoveLike(s, user, id).store)
    ensures ReactionsExclusive(RemoveUnlike(s, user, id).store)
  {
  }

  /** After an unlike, a like from the same user flips the reaction back. */
  lemma LikeAfterUnlike(s: Store, user: UserId, reviewId: int, persisted: bool)
    requires ReactionsExclusive(s) && (user, reviewId) in s.reviewUnlikes
    ensures
      var st := CheckReviewLikeStatus(LikeReview(s, user, Some(reviewId), persisted).store, user, Some(reviewId)).result.value;
      st.liked && !st.unliked
  {
  }
}

=== FILE: social.dfy ===
/** The social graph, profiles and user search (`controllers/userController.js`).
    Follow edges are pairs (follower, followee). The followee id is the route
    parameter after `parseInt`; `None` stands for `NaN`. The socket pushes
    that accompany each notification are left out: they only mirror rows the
    notification log already holds. */
module Social {
  import opened Common
  import opened Text
  import opened Db
  import opened Notify

  /** No user follows themself. */
  ghost predicate NoSelfFollow(s: Store) {
    forall e :: e in s.followers ==> e.0 != e.1
  }

  /** The tables a follow handler leaves alone (besides notifications). */
  ghost predicate SameOutsideFollowers(s: Store, t: Store) {
    && s.users == t.users && s.reviews == t.reviews && s.cached == t.cached
    && s.custom == t.custom && s.reviewLikes == t.reviewLikes
    && s.reviewUnlikes == t.reviewUnlikes && s.comments == t.comments
    && s.commentLikes == t.commentLikes && s.recommended == t.recommended
  }

  /** `a` extends `b` by one row when `sent` holds and by none otherwise. */
  ghost predicate AppendedIf(a: seq<Notification>, b: seq<Notification>, sent: bool) {
    |a| == |b| + (if sent then 1 else 0) && a[..|b|] == b
  }

  /** The notice the followee gets. */
  function FollowedNotice(s: Store, follower: UserId, followee: UserId): NotificationRequest {
    NotificationRequest(follower, followee, "follow",
      NameOr(UsernameOf(s, follower), "Someone ") + " started following you", None, None)
  }

  /** The text of the follower's own confirmation, also the response message. */
  function FollowingMessage(s: Store, followee: UserId): string {
    "You are now following " + NameOr(UsernameOf(s, followee), "this user") + "."
  }

  /** The notice the follower gets about their own follow. */
  function FollowingNotice(s: Store, follower: UserId, followee: UserId): NotificationRequest {
    NotificationRequest(follower, follower, "follow", FollowingMessage(s, followee), None, None)
  }

  /** The notice the follower gets about their own unfollow. */
  function UnfollowNotice(s: Store, follower: UserId, followee: UserId): NotificationRequest {
    NotificationRequest(follower, follower, "unfollow",
      "You unfollowed " + NameOr(UsernameOf(s, followee), "a user"), None, None)
  }

  /** Adds the edge and sends both follow notices; `sent1` and `sent2` say
      whether each notice was stored. */
  function AddFollow(s: Store, follower: UserId, followee: UserId, sent1: bool, sent2: bool): (t: Store)
    ensures t.followers == s.followers + {(follower, followee)}
    ensures SameOutsideFollowers(s, t)
    ensures |t.notifications| == |s.notifications| + (if sent1 then 1 else 0) + (if sent2 then 1 else 0)
    ensures t.notifications[..|s.notifications|] == s.notifications
    ensures sent1 ==>
      t.notifications[|s.notifications|].sender == follower
      && t.notifications[|s.notifications|].receiver == followee
      && t.notifications[|s.notifications|].kind == "follow"
    ensures sent2 ==>
      t.notifications[|t.notifications| - 1].sender == follower
      && t.notifications[|t.notifications| - 1].receiver == follower
      && t.notifications[|t.notifications| - 1].kind == "follow"
      && t.notifications[|t.notifications| - 1].message == FollowingMessage(s, followee)
  {
    var s1 := s.(followers := s.followers + {(follower, followee)});
    var s2 := SendNotification(s1, FollowedNotice(s1, follower, followee), sent1);
    var s3 := SendNotification(s2, FollowingNotice(s2, follower, followee), sent2);
    assert s3.notifications[..|s.notifications|] == s2.notifications[..|s.notifications|];
    s3
  }

  /** Removes the edge and sends the unfollow notice to the follower. */
  function RemoveFollow(s: Store, follower: UserId, followee: UserId, sent: bool): (t: Store)
    ensures t.followers == s.followers - {(follower, followee)}
    ensures SameOutsideFollowers(s, t)
    ensures AppendedIf(t.notifications, s.notifications, sent)
    ensures sent ==>
      t.notifications[|s.notifications|].sender == follower
      && t.notifications[|s.notifications|].receiver == follower
      && t.notifications[|s.notifications|].kind == "unfollow"
  {
    var s1 := s.(followers := s.followers - {(follower, followee)});
    SendNotification(s1, UnfollowNotice(s1, follower, followee), sent)
  }

  /** `POST /users/:id/follow`. */
  function Follow(s: Store, follower: UserId, followee: Option<int>, sent1: bool, sent2: bool): (r: Reply<string>)
    ensures followee == Some(follower) ==> r.status == BAD_REQUEST && r.store == s
    ensures followee.None? ==> r.status == SERVER_ERROR && r.store == s
    ensures followee.Some? && followee.value != follower && (follower, followee.value) in s.followers ==>
      r.status == CONFLICT && r.store == s
    ensures r.status == OK <==>
      followee.Some? && followee.value != follower && (follower, followee.value) !in s.followers
    ensures r.status == OK ==>
      && r.store.followers == s.followers + {(follower, followee.value)}
      && SameOutsideFollowers(s, r.store)
      && |r.store.notifications| == |s.notifications| + (if sent1 then 1 else 0) + (if sent2 then 1 else 0)
      && r.store.notifications[..|s.notifications|] == s.notifications
      && r.result == Some(FollowingMessage(s, followee.value))
    // first the followee hears of the follow, then the follower gets a self-notice
    ensures r.status == OK && sent1 ==>
      var n := r.store.notifications[|s.notifications|];
      n.sender == follower && n.receiver == followee.value && n.kind == "follow"
    ensures r.status == OK && sent2 ==>
      var n := r.store.notifications[|r.store.notifications| - 1];
      && n.sender == follower && n.receiver == follower && n.kind == "follow"
      && n.message == FollowingMessage(s, followee.value)
  {
    match followee
    case None => Fail(s, SERVER_ERROR)
    case Some(f) =>
      if f == follower then Fail(s, BAD_REQUEST)
      else if (follower, f) in s.followers then Fail(s, CONFLICT)
      else Reply(OK, Some(FollowingMessage(s, f)), AddFollow(s, follower, f, sent1, sent2))
  }

  /** `DELETE /users/:id/follow`. */
  function Unfollow(s: Store, follower: UserId, followee: Option<int>, sent: bool): (r: Reply<()>)
    ensures followee == Some(follower) ==> r.status == BAD_REQUEST && r.store == s
    ensures followee.None? ==> r.status == SERVER_ERROR && r.store == s
    ensures followee.Some? && followee.value != follower && (follower, followee.value) !in s.followers ==>
      r.status == CONFLICT && r.store == s
    ensures r.status == OK <==>
      followee.Some? && followee.value != follower && (follower, followee.value) in s.followers
    ensures r.status == OK ==>
      && r.store.followers == s.followers - {(follower, followee.value)}
      && SameOutsideFollowers(s, r.store)
      && AppendedIf(r.store.notifications, s.notifications, sent)
    // the one notice is a self-notice to the follower
    ensures r.status == OK && sent ==>
      var n := r.store.notifications[|s.notifications|];
      n.sender == follower && n.receiver == follower && n.kind == "unfollow"
  {
    match followee
    case None => Fail(s, SERVER_ERROR)
    case Some(f) =>
      if f == follower then Fail(s, BAD_REQUEST)
      else if (follower, f) !in s.followers then Fail(s, CONFLICT)
      else Reply(OK, Some(()), RemoveFollow(s, follower, f, sent))
  }

  datatype FollowOutcome = Followed | Unfollowed

  /** `POST /users/:id/toggle-follow`: 400 for `NaN` or self; otherwise the
      edge flips, with the notices of a follow or of an unfollow. */
  function ToggleFollow(s: Store, follower: UserId, followee: Option<int>, sent1: bool, sent2: bool): (r: Reply<FollowOutcome>)
    ensures followee.None? || followee == Some(follower) ==> r.status == BAD_REQUEST && r.store == s
    ensures followee.Some? && followee.value != follower ==>
      var e := (follower, followee.value);
      && r.status == OK
      && (e in r.store.followers <==> e !in s.followers)
      && (forall d :: d != e ==> (d in r.store.followers <==> d in s.followers))
      && r.result == Some(if e in s.followers then Unfollowed else Followed)
      && SameOutsideFollowers(s, r.store)
  {
    match followee
    case None => Fail(s, BAD_REQUEST)
    case Some(f) =>
      if f == follower then Fail(s, BAD_REQUEST)
      else if (follower, f) in s.followers then Reply(OK, Some(Unfollowed), RemoveFollow(s, follower, f, sent1))
      else Reply(OK, Some(Followed), AddFollow(s, follower, f, sent1, sent2))
  }

  /** `GET /users/:id/follow-status`. */
  function CheckFollowStatus(s: Store, follower: UserId, followee: Option<int>): (r: Reply<bool>)
    ensures followee.None? ==> r.status == SERVER_ERROR && r.store == s
    ensures followee.Some? ==>
      r.status == OK && r.store == s
      && r.result == Some((follower, followee.value) in s.followers)
  {
    match followee
    case None => Fail(s, SERVER_ERROR)
    case Some(f) => Reply(OK, Some((follower, f) in s.followers), s)
  }

  /** The status route reads back what a follow or an unfollow leaves: the
      edge is there after a follow (new or already present) and gone after an
      unfollow. */
  lemma FollowStatusReadsBack(s: Store, a: UserId, b: UserId, sent1: bool, sent2: bool, sent: bool)
    requires a != b
    ensures CheckFollowStatus(Follow(s, a, Some(b), sent1, sent2).store, a, Some(b)).result == Some(true)
    ensures CheckFollowStatus(Unfollow(s, a, Some(b), sent).store, a, Some(b)).result == Some(false)
  {
  }

  /** Every follow handler keeps the graph free of self-loops. */
  lemma FollowHandlersKeepNoSelfFollow(s: Store, follower: UserId, followee: Option<int>, sent1: bool, sent2: bool)
    requires NoSelfFollow(s)
    ensures NoSelfFollow(Follow(s, follower, followee, sent1, sent2).store)
    ensures NoSelfFollow(Unfollow(s, follower, followee, sent1).store)
    ensures NoSelfFollow(ToggleFollow(s, follower, followee, sent1, sent2).store)
  {
  }

  /** Toggling is a follow when there is no edge and an unfollow when there is. */
  lemma ToggleIsFollowOrUnfollow(s: Store, follower: UserId, f: int, sent1: bool, sent2: bool)
    requires f != follower
    ensures (follower, f) !in s.followers ==>
      ToggleFollow(s, follower, Some(f), sent1, sent2).store == Follow(s, follower, Some(f), sent1, sent2).store
    ensures (follower, f) in s.followers ==>
      ToggleFollow(s, follower, Some(f), sent1, sent2).store == Unfollow(s, follower, Some(f), sent1).store
  {
  }

  /** A follow followed by an unfollow restores the graph. */
  lemma FollowUnfollowRestores(s: Store, follower: UserId, f: int, sent1: bool, sent2: bool, sent3: bool)
    requires f != follower && (follower, f) !in s.followers
    ensures
      var t := Follow(s, follower, Some(f), sent1, sent2).store;
      Unfollow(t, follower, Some(f), sent3).status == OK
      && Unfollow(t, follower, Some(f), sent3).store.followers == s.followers
  {
  }

  /** Toggling twice restores the graph. */
  lemma ToggleTwiceRestores(s: Store, follower: UserId, f: int, sent1: bool, sent2: bool)
    requires f != follower
    ensures
      var t := ToggleFollow(s, follower, Some(f), sent1, sent2).store;
      ToggleFollow(t, follower, Some(f), sent1, sent2).store.followers == s.followers
  {
  }

  // ---------------------------------------------------------------------------
  // Profile update.
  // ---------------------------------------------------------------------------

  /** The multipart form of a profile update. `file` is the path of an
      uploaded image, if one was sent. */
  datatype ProfileForm = ProfileForm(
    username: Option<string>, email: Option<string>, bio: Option<string>,
    profileImg: Option<string>, favoriteGenres: Option<string>, file: Option<string>)

  /** `JSON.parse` of the genres field (`None` when it throws) and the image
      upload service (`None` when the upload throws). */
  datatype ProfileServices = ProfileServices(
    parseGenres: string -> Option<seq<string>>,
    upload: string -> Option<string>)

  /** `JSON.parse(raw || '[]')`: an absent or empty field is the empty list. */
  function ParseGenres(svc: ProfileServices, raw: Option<string>): (r: Option<seq<string>>)
    ensures raw.None? || raw.value == "" ==> r == Some([])
    ensures raw.Some? && raw.value != "" ==> r == svc.parseGenres(raw.value)
  {
    if raw.None? || raw.value == "" then Some([]) else svc.parseGenres(raw.value)
  }

  /** The caller's current image, `null` when absent or empty. */
  function CurrentImage(s: Store, user: UserId): (r: Option<string>)
    ensures r.Some? ==> r.value != ""
  {
    match FindUser(s, user)
    case Some(u) => if u.profileImg.Some? && u.profileImg.value != "" then u.profileImg else None
    case None => None
  }

  datatype ImageChoice = RejectedUrl | UploadFailed | Chosen(img: Option<string>)

  /** Which image the profile ends up with: an uploaded file wins over a URL;
      a URL must pass the image check; when neither yields a non-empty value,
      the current image is kept. */
  function ChooseImage(s: Store, user: UserId, form: ProfileForm, svc: ProfileServices): (r: ImageChoice)
    ensures form.file.Some? ==> r != RejectedUrl
    ensures form.file.Some? && svc.upload(form.file.value).None? ==> r == UploadFailed
    ensures form.file.None? ==> r != UploadFailed
    ensures form.file.None? && form.profileImg.Some? && form.profileImg.value != "" ==>
      (r == RejectedUrl <==> !ImageUrlPattern(form.profileImg.value))
    ensures form.file.None? && form.profileImg.Some? && form.profileImg.value != "" && ImageUrlPattern(form.profileImg.value) ==>
      r == Chosen(form.profileImg)
    ensures form.file.None? && (form.profileImg.None? || form.profileImg.value == "") ==>
      r == Chosen(CurrentImage(s, user))
    ensures form.file.Some? && svc.upload(form.file.value).Some? ==>
      r == Chosen(if svc.upload(form.file.value).value != "" then svc.upload(form.file.value) else CurrentImage(s, user))
  {
    var keep := (url: string) => if url != "" then Chosen(Some(url)) else Chosen(CurrentImage(s, user));
    match form.file
    case Some(path) =>
      (match svc.upload(path)
       case None => UploadFailed
       case Some(url) => keep(url))
    case None =>
      if form.profileImg.Some? && form.profileImg.value != "" then
        if IsImageUrl(form.profileImg.value) then keep(form.profileImg.value) else RejectedUrl
      else keep("")
  }

  /** `PUT /users/profile`. Malformed genres are refused with 400 before
      anything else happens; a bad image URL with 400 before the update. The
      response carries the updated row, absent when the caller has none. */
  function UpdateUserProfile(s: Store, user: UserId, form: ProfileForm, svc: ProfileServices): (r: Reply<User>)
    ensures ParseGenres(svc, form.favoriteGenres).None? ==> r.status == BAD_REQUEST && r.store == s
    ensures ChooseImage(s, user, form, svc) == RejectedUrl ==> r.status == BAD_REQUEST && r.store == s
    ensures ParseGenres(svc, form.favoriteGenres).Some? && ChooseImage(s, user, form, svc) == UploadFailed ==>
      r.status == SERVER_ERROR && r.store == s
    ensures r.status == OK <==>
      ParseGenres(svc, form.favoriteGenres).Some? && ChooseImage(s, user, form, svc).Chosen?
    ensures r.status == OK ==>
      var genres := ParseGenres(svc, form.favoriteGenres).value;
      var img := ChooseImage(s, user, form, svc).img;
      && r.store == s.(users := r.store.users)
      && |r.store.users| == |s.users|
      && (forall i :: 0 <= i < |s.users| && s.users[i].id != user ==> r.store.users[i] == s.users[i])
      && (forall i :: 0 <= i < |s.users| && s.users[i].id == user ==>
            r.store.users[i] == s.users[i].(username := form.username, email := form.email, bio := form.bio,
                                            profileImg := img, favoriteGenres := Some(genres)))
      && (r.result.Some? <==> FindUser(s, user).Some?)
  {
    match ParseGenres(svc, form.favoriteGenres)
    case None => Fail(s, BAD_REQUEST)
    case Some(genres) =>
      match ChooseImage(s, user, form, svc)
      case RejectedUrl => Fail(s, BAD_REQUEST)
      case UploadFailed => Fail(s, SERVER_ERROR)
      case Chosen(img) =>
        var edit := EditProfile(user, form, img, genres);
        var users := Map(s.users, edit);
        var row := match FindUser(s, user) case Some(u) => Some(edit(u)) case None => None;
        Reply(OK, row, s.(users := users))
  }

  /** `UPDATE users SET ... WHERE id = user` on one row. */
  function EditProfile(user: UserId, form: ProfileForm, img: Option<string>, genres: seq<string>): User -> User {
    (u: User) =>
      if u.id == user then u.(username := form.username, email := form.email, bio := form.bio,
                              profileImg := img, favoriteGenres := Some(genres))
      else u
  }

  /** Looking a user up after editing every row with an id-preserving edit
      finds the edited first match. */
  lemma {:induction false} FindUserEdited(s: Store, id: UserId, edit: User -> User)
    requires forall u :: edit(u).id == u.id
    ensures FindUser(s.(users := Map(s.users, edit)), id) ==
      match FindUser(s, id) case Some(u) => Some(edit(u)) case None => None
    decreases |s.users|
  {
    if |s.users| > 0 {
      var t := s.(users := s.users[1..]);
      FindUserEdited(t, id, edit);
      assert Map(s.users, edit)[1..] == Map(t.users, edit);
    }
  }

  /** After a successful update, looking the user up reads back the columns
      just written, and the reply's row is that same row. */
  lemma UpdatedProfileReadsBack(s: Store, user: UserId, form: ProfileForm, svc: ProfileServices)
    requires UpdateUserProfile(s, user, form, svc).status == OK
    ensures var r := UpdateUserProfile(s, user, form, svc);
      && FindUser(r.store, user) == r.result
      && (r.result.Some? ==>
            var u := r.result.value;
            && u.username == form.username && u.email == form.email && u.bio == form.bio
            && u.profileImg == ChooseImage(s, user, form, svc).img
            && u.favoriteGenres == Some(ParseGenres(svc, form.favoriteGenres).value))
  {
    var img := ChooseImage(s, user, form, svc).img;
    var genres := ParseGenres(svc, form.favoriteGenres).value;
    FindUserEdited(s, user, EditProfile(user, form, img, genres));
  }

  // ---------------------------------------------------------------------------
  // User search.
  // ---------------------------------------------------------------------------

  /** The columns the search returns. */
  datatype UserCard = UserCard(id: UserId, username: Option<string>, profileImg: Option<string>, bio: Option<string>)

  /** `LOWER(col) LIKE pattern`; a NULL column never matches. */
  predicate ColumnLike(col: Option<string>, pattern: string) {
    col.Some? && Like(Lower(col.value), pattern)
  }

  predicate UserMatches(u: User, pattern: string) {
    ColumnLike(u.username, pattern) || ColumnLike(u.email, pattern)
  }

  function Card(u: User): UserCard {
    UserCard(u.id, u.username, u.profileImg, u.bio)
  }

  /** `GET /users/search?q=`: 400 for an absent or blank keyword; otherwise the
      first eight users whose lower-cased name or e-mail is LIKE
      `%keyword%` (keyword lower-cased), 204 when there are none. */
  function SearchUsers(s: Store, q: Option<string>): (r: Reply<seq<UserCard>>)
    ensures r.store == s
    ensures q.None? || IsBlank(q.value) ==> r.status == BAD_REQUEST
    ensures q.Some? && !IsBlank(q.value) ==>
      var matching := Filter(s.users, (u: User) => UserMatches(u, "%" + Lower(q.value) + "%"));
      && (r.status == NO_CONTENT <==> |matching| == 0)
      && (r.status != NO_CONTENT ==> r.status == OK)
      && r.result.Some?
      && |r.result.value| == (if |matching| < 8 then |matching| else 8)
      && (forall i :: 0 <= i < |r.result.value| ==> r.result.value[i] == Card(matching[i]))
  {
    if q.None? || IsBlank(q.value) then Fail(s, BAD_REQUEST)
    else
      var pattern := "%" + Lower(q.value) + "%";
      var matching := Filter(s.users, (u: User) => UserMatches(u, pattern));
      var cards := Map(Take(matching, 8), Card);
      Reply(if |cards| == 0 then NO_CONTENT else OK, Some(cards), s)
  }

  /** For a keyword without LIKE wildcards the search is a case-insensitive
      substring search on the name or the e-mail. */
  lemma SearchIsSubstring(u: User, q: string)
    requires NoWildcards(Lower(q))
    ensures UserMatches(u, "%" + Lower(q) + "%") <==>
      (u.username.Some? && IsSubstring(Lower(q), Lower(u.username.value)))
      || (u.email.Some? && IsSubstring(Lower(q), Lower(u.email.value)))
  {
    if u.username.Some? { SubstringLike(Lower(u.username.value), Lower(q)); }
    if u.email.Some? { SubstringLike(Lower(u.email.value), Lower(q)); }
  }
}

=== FILE: suggestions.dfy ===
/** The sources of dashboard suggestions (`controllers/dashboardController.js`):
    stored books matching the reader's favourite genres, Open Library subject
    pages (`fetchBooksByGenreFromAPI`), and the random tier
    (`fetchRandomBooks`); how each row becomes a suggestion
    (`processBookData`); and how recently shown keys are excluded. */
module Suggestions {
  import opened Common
  import opened Text
  import opened Db
  import opened Catalog
  import opened BookDetails

  /** The dashboard's batch size. */
  const Limit: nat := 5
  /** Below this many genre matches the response reports a fallback. */
  const MinNewBooks: nat := 4
  /** `LIMIT ${limit * 2}` on each genre-matching query. */
  const MatchedPerTable: nat := 10
  const RandomSubjects: seq<string> := ["fiction", "science", "history", "romance", "fantasy"]

  // ---------------------------------------------------------------------------
  // Candidates and `processBookData`.
  // ---------------------------------------------------------------------------

  /** `review_count` as it reaches `processBookData`: the number 0 for an Open
      Library item, the text of `COUNT(r.id)` for a database row. */
  datatype ReviewCount = CountNumber(n: nat) | CountText(n: nat)

  /** A suggestion before processing. `source` is `None` where the row has no
      `source` column (a custom row in the genre tier). */
  datatype Candidate = Candidate(
    key: string, title: Option<string>, author: Option<string>, cover: Option<string>,
    genre: Option<seq<string>>, description: Option<string>, source: Option<Source>,
    avgTenths: Option<int>, reviewCount: ReviewCount)

  /** A suggestion as sent to the reader. */
  datatype DashBook = DashBook(
    key: string, title: Option<string>, author: Option<string>, cover: Option<string>,
    genres: seq<string>, description: string, source: Option<Source>,
    avgTenths: Option<int>, reviewCount: nat, isNew: bool)

  /** A `reviewed_books` row joined with its reviews: `AVG(r.rating)` and `COUNT(r.id)`. */
  function CachedCandidate(s: Store, b: CachedBook): (c: Candidate)
    ensures c.key == b.key && c.source == Some(b.source)
    ensures c.reviewCount == CountText(|ReviewsOfBook(s, b.key)|)
    ensures c.avgTenths.None? <==> |RatingsOf(s, b.key)| == 0
  {
    Candidate(b.key, b.info.title, b.info.author, b.info.cover, b.info.genre, b.info.description,
      Some(b.source), AverageTenths(RatingsOf(s, b.key)), CountText(|ReviewsOfBook(s, b.key)|))
  }

  /** A `custom_books` row joined with its reviews, tagged with `source`. */
  function CustomCandidate(s: Store, b: CustomBook, source: Option<Source>): (c: Candidate)
    ensures c.key == b.key && c.source == source
    ensures c.reviewCount == CountText(|ReviewsOfBook(s, b.key)|)
    ensures c.avgTenths.None? <==> |RatingsOf(s, b.key)| == 0
  {
    Candidate(b.key, b.info.title, b.info.author, b.info.cover, b.info.genre, b.info.description,
      source, AverageTenths(RatingsOf(s, b.key)), CountText(|ReviewsOfBook(s, b.key)|))
  }

  /** `processBookData`: genres default to `[]`, a missing or empty description
      becomes the placeholder, the count becomes a number, and the book is new
      when it comes from Open Library with no count (`!review_count`). */
  function ProcessBookData(c: Candidate): (d: DashBook)
    ensures d.key == c.key && d.source == c.source && d.avgTenths == c.avgTenths
    ensures d.description != ""
    ensures c.genre.Some? ==> d.genres == c.genre.value
    ensures c.genre.None? ==> d.genres == []
    ensures d.reviewCount == c.reviewCount.n
    ensures d.isNew <==> c.source == Some(Api) && c.reviewCount == CountNumber(0)
  {
    DashBook(c.key, c.title, c.author, c.cover, c.genre.GetOr([]),
      NameOr(c.description, NoDescriptionText), c.source, c.avgTenths, c.reviewCount.n,
      c.source == Some(Api) && (c.reviewCount == CountNumber(0)))
  }

  /** Only Open Library items are ever flagged new: a database row's count is
      text, which is truthy even when it reads "0". */
  lemma NewOnlyFromOpenLibrary(s: Store, b: CachedBook, cb: CustomBook, src: Option<Source>, w: SubjectWork, g: string)
    ensures !ProcessBookData(CachedCandidate(s, b)).isNew
    ensures !ProcessBookData(CustomCandidate(s, cb, src)).isNew
    ensures ProcessBookData(WorkCandidate(w, g)).isNew
  {
  }

  function Keys(cs: seq<Candidate>): (ks: seq<string>)
    ensures |ks| == |cs| && forall i :: 0 <= i < |cs| ==> ks[i] == cs[i].key
  {
    Map(cs, (c: Candidate) => c.key)
  }

  function BookKeys(ds: seq<DashBook>): (ks: seq<string>)
    ensures |ks| == |ds| && forall i :: 0 <= i < |ds| ==> ks[i] == ds[i].key
  {
    Map(ds, (d: DashBook) => d.key)
  }

  // ---------------------------------------------------------------------------
  // Excluding recently shown keys: `book_key NOT IN ($n)` bound to a JS array.
  // ---------------------------------------------------------------------------

  /** An array element as the PostgreSQL driver writes it: backslashes and
      double quotes escaped. */
  function EscapeElement(k: string): (e: string)
    ensures |e| >= |k|
  {
    if |k| == 0 then ""
    else (if k[0] == '\\' then "\\\\" else if k[0] == '"' then "\\\"" else [k[0]]) + EscapeElement(k[1..])
  }

  function QuotedElements(ks: seq<string>): string {
    if |ks| == 0 then ""
    else if |ks| == 1 then "\"" + EscapeElement(ks[0]) + "\""
    else "\"" + EscapeElement(ks[0]) + "\"," + QuotedElements(ks[1..])
  }

  /** The text the driver sends for a JS array of keys: `{"k1","k2"}`. */
  function ArrayLiteral(ks: seq<string>): (t: string)
    ensures |t| >= 2 && t[0] == '{' && t[|t| - 1] == '}'
  {
    "{" + QuotedElements(ks) + "}"
  }

  /** The exclusion clause AS WRITTEN: the array reaches `NOT IN ($n)` as one
      text value, so a key is kept unless it equals the array's text. The
      clause is only added when the list is non-empty. */
  predicate KeyAllowedAsWritten(key: string, excluded: seq<string>) {
    |excluded| == 0 || key != ArrayLiteral(excluded)
  }

  /** The exclusion as intended (`<> ALL($n)`): a key is kept unless it is
      one of the excluded keys. */
  predicate KeyAllowed(key: string, excluded: seq<string>) {
    key !in excluded
  }

  /** As written, no key that does not start with `{` is ever excluded,
      which covers every Open Library and custom key. */
  lemma AsWrittenExcludesNothing(key: string, excluded: seq<string>)
    requires |key| == 0 || key[0] != '{'
    ensures KeyAllowedAsWritten(key, excluded)
  {
    if |excluded| > 0 {
      assert ArrayLiteral(excluded)[0] == '{';
    }
  }

  /** The input that shows it: the key just shown is offered again. */
  lemma ExclusionCounterexample()
    ensures KeyAllowedAsWritten("OL1W", ["OL1W"])
    ensures !KeyAllowed("OL1W", ["OL1W"])
  {
    AsWrittenExcludesNothing("OL1W", ["OL1W"]);
  }

  // ---------------------------------------------------------------------------
  // `fetchBooksByGenreFromAPI`.
  // ---------------------------------------------------------------------------

  /** `genre.toLowerCase().replace(/\s+/g, '_')`. */
  function FormatGenre(g: string): (r: string)
    ensures NoSpace(r)
    ensures |r| <= |g|
    ensures |r| > 0 <==> |g| > 0
    ensures NoSpace(g) ==> r == Lower(g)
    ensures forall i :: 0 <= i < |r| ==> !('A' <= r[i] <= 'Z')
  {
    CollapseLowerNoUpper(g);
    LowerKeepsNoSpace(g);
    CollapseSpace(Lower(g))
  }

  /** `https://openlibrary.org/subjects/${formattedGenre}.json?limit=${limit * 3}`. */
  function SubjectUrl(g: string, limit: int): string {
    Host + "/subjects/" + FormatGenre(g) + ".json?limit=" + IntToString(limit * 3)
  }

  /** One subject work as a suggestion: stripped key, first author's name or
      "Unknown Author", cover when `cover_id` is truthy, the genre asked for. */
  function WorkCandidate(w: SubjectWork, g: string): (c: Candidate)
    ensures c.key == StripWorks(w.key) && c.source == Some(Api)
    ensures c.genre == Some([g]) && c.cover == CoverFromId(w.coverId)
    ensures c.author.Some? && c.author.value != ""
    ensures c.avgTenths.None? && c.reviewCount == CountNumber(0)
  {
    Candidate(StripWorks(w.key), w.title, Some(NameOr(w.firstAuthorName, UnknownAuthor)),
      CoverFromId(w.coverId), Some([g]), None, Some(Api), None, CountNumber(0))
  }

  /** A fresh Open Library suggestion for one of `genres`, outside `excluded`. */
  predicate FromSubject(c: Candidate, genres: seq<string>, excluded: seq<string>) {
    && c.source == Some(Api) && c.reviewCount == CountNumber(0)
    && KeyAllowed(c.key, excluded)
    && c.genre.Some? && |c.genre.value| == 1 && c.genre.value[0] in genres
  }

  /** The suggestions one subject page contributes: up to `need` of its
      works outside `excluded`, in random order; nothing for a page without
      works. */
  function SubjectPicks(rng: Rng, site: string, g: string, works: Option<seq<SubjectWork>>, need: int,
                        excluded: seq<string>): (r: seq<Candidate>)
    ensures |r| <= (if need < 0 then 0 else need)
    ensures forall i :: 0 <= i < |r| ==> FromSubject(r[i], [g], excluded)
  {
    if works.Some? && |works.value| > 0 then
      var picked := Sample(rng, site + "/" + g, works.value, (w: SubjectWork) => StripWorks(w.key) !in excluded, need);
      Map(picked, (w: SubjectWork) => WorkCandidate(w, g))
    else []
  }

  /** The loop over the (shuffled) genres: stop once `limit` items are
      collected; otherwise add the current genre's picks, up to the number
      still missing. A failed request aborts the whole fetch (`None`). */
  function GenreLoop(api: OpenLibrary, rng: Rng, site: string, genres: seq<string>, limit: int,
                     excluded: seq<string>, acc: seq<Candidate>): (r: Option<seq<Candidate>>)
    ensures r.Some? ==> |r.value| >= |acc| && r.value[..|acc|] == acc
    ensures r.Some? && |acc| <= limit ==> |r.value| <= limit
    ensures r.Some? && |acc| >= limit ==> r.value == acc
    ensures r.Some? ==> forall i :: |acc| <= i < |r.value| ==> FromSubject(r.value[i], genres, excluded)
    decreases |genres|
  {
    if |genres| == 0 || |acc| >= limit then Some(acc)
    else
      match api.subjects(SubjectUrl(genres[0], limit))
      case None => None
      case Some(rec) =>
        var picks := SubjectPicks(rng, site, genres[0], rec.works, limit - |acc|, excluded);
        var next := acc + picks;
        var r := GenreLoop(api, rng, site, genres[1..], limit, excluded, next);
        if r.Some? then
          TailOfLoop(genres, excluded, acc, picks, r.value);
          r
        else r
  }

  /** The step of `GenreLoop`'s contract: what the current genre adds and
      what the rest of the loop adds both come from `genres`. */
  lemma TailOfLoop(genres: seq<string>, excluded: seq<string>, acc: seq<Candidate>, picks: seq<Candidate>,
                   r: seq<Candidate>)
    requires |genres| > 0
    requires forall i :: 0 <= i < |picks| ==> FromSubject(picks[i], [genres[0]], excluded)
    requires |r| >= |acc + picks| && r[..|acc + picks|] == acc + picks
    requires forall i :: |acc + picks| <= i < |r| ==> FromSubject(r[i], genres[1..], excluded)
    ensures r[..|acc|] == acc
    ensures forall i :: |acc| <= i < |r| ==> FromSubject(r[i], genres, excluded)
  {
    assert (acc + picks)[..|acc|] == acc;
    forall i | |acc| <= i < |r| ensures FromSubject(r[i], genres, excluded) {
      if i < |acc + picks| {
        assert r[i] == picks[i - |acc|];
        assert FromSubject(picks[i - |acc|], [genres[0]], excluded);
      } else {
        assert FromSubject(r[i], genres[1..], excluded);
      }
    }
  }

  /** `fetchBooksByGenreFromAPI(genres, limit, excludeKeys)`: nothing for no
      genres; at most `limit` fresh Open Library items, each outside the
      excluded keys and tagged with one of the genres; nothing at all when any
      request fails. */
  function FetchBooksByGenre(api: OpenLibrary, rng: Rng, site: string, genres: seq<string>, limit: int,
                             excluded: seq<string>): (r: seq<Candidate>)
    ensures |genres| == 0 || limit <= 0 ==> r == []
    ensures |r| <= (if limit < 0 then 0 else limit)
    ensures forall c :: c in r ==> FromSubject(c, genres, excluded)
  {
    if |genres| == 0 then []
    else
      var order := ShuffleWith(rng, site, genres);
      match GenreLoop(api, rng, site, order, limit, excluded, [])
      case None => []
      case Some(found) =>
        assert forall c :: c in found ==> FromSubject(c, genres, excluded) by {
          forall c | c in found ensures FromSubject(c, genres, excluded) {
            var i :| 0 <= i < |found| && found[i] == c;
            assert FromSubject(c, order, excluded);
            assert c.genre.value[0] in order;
          }
        }
        found
  }

  // ---------------------------------------------------------------------------
  // `fetchRandomBooks`.
  // ---------------------------------------------------------------------------

  /** The random tier AS WRITTEN: its first statement puts `LIMIT $2` after one
      placeholder (`LIMIT $1` with none) and binds one value (none), so it is
      always refused and the `catch` returns `[]`. */
  function FetchRandomBooksAsWritten(s: Store, api: OpenLibrary, rng: Rng, limit: int, excluded: seq<string>): (r: seq<Candidate>)
    ensures r == []
  {
    var placeholders := if |excluded| > 0 then 2 else 1;
    var values := if |excluded| > 0 then 1 else 0;
    if BindAccepts(placeholders, values) then FetchRandomBooks(s, api, rng, limit, excluded) else []
  }

  /** The input that shows it: with one stored book and nothing excluded the
      intended tier suggests that book, the written one nothing. */
  lemma RandomTierCounterexample(b: CachedBook, api: OpenLibrary, rng: Rng)
    ensures var s := Store([], [], [b], [], {}, {}, [], {}, {}, [], [], 0);
      && FetchRandomBooksAsWritten(s, api, rng, 1, []) == []
      && |FetchRandomBooks(s, api, rng, 1, [])| == 1
  {
    var s := Store([], [], [b], [], {}, {}, [], {}, {}, [], [], 0);
    assert Filter(s.cached, (x: CachedBook) => KeyAllowed(x.key, [])) == [b];
  }

  /** Where a random-tier suggestion comes from. */
  predicate FromRandomTier(s: Store, c: Candidate, excluded: seq<string>) {
    && KeyAllowed(c.key, excluded)
    && (|| (c.source == Some(Reviewed) && exists b :: b in s.cached && b.key == c.key)
        || (c.source == Some(Custom) && exists b :: b in s.custom && b.key == c.key)
        || FromSubject(c, RandomSubjects, excluded))
  }

  /** The reviewed-books tier of `fetchRandomBooks`, as intended: up to
      `limit` random stored books outside `excluded`, tagged 'reviewed'. */
  function RandomReviewed(s: Store, rng: Rng, limit: int, excluded: seq<string>): (r: seq<Candidate>)
    ensures |r| <= (if limit < 0 then 0 else limit)
    ensures |r| == LimitCount(limit, |Filter(s.cached, CachedAllowed(excluded))|)
    ensures forall c :: c in r ==> FromRandomTier(s, c, excluded) && c.source == Some(Reviewed)
  {
    var rows := Sample(rng, "random/reviewed", s.cached, CachedAllowed(excluded), limit);
    ReviewedRowsFromTier(s, rows, excluded);
    Map(rows, ReviewedRow(s))
  }

  /** The custom-books tier of `fetchRandomBooks`, as intended. */
  function RandomCustom(s: Store, rng: Rng, limit: int, excluded: seq<string>): (r: seq<Candidate>)
    ensures |r| <= (if limit < 0 then 0 else limit)
    ensures |r| == LimitCount(limit, |Filter(s.custom, CustomAllowed(excluded))|)
    ensures forall c :: c in r ==> FromRandomTier(s, c, excluded) && c.source == Some(Custom)
  {
    var rows := Sample(rng, "random/custom", s.custom, CustomAllowed(excluded), limit);
    CustomRowsFromTier(s, rows, excluded);
    Map(rows, CustomTierRow(s))
  }

  /** `WHERE book_key NOT IN (...)` on a stored or catalogue row, as intended. */
  function CachedAllowed(excluded: seq<string>): CachedBook -> bool {
    (b: CachedBook) => KeyAllowed(b.key, excluded)
  }

  function CustomAllowed(excluded: seq<string>): CustomBook -> bool {
    (b: CustomBook) => KeyAllowed(b.key, excluded)
  }

  /** A sampled row as a suggestion of the given tier. */
  function ReviewedRow(s: Store): CachedBook -> Candidate {
    (b: CachedBook) => CachedCandidate(s, b).(source := Some(Reviewed))
  }

  function CustomTierRow(s: Store): CustomBook -> Candidate {
    (b: CustomBook) => CustomCandidate(s, b, Some(Custom))
  }

  /** Allowed stored rows become suggestions of the random tier. */
  lemma ReviewedRowsFromTier(s: Store, rows: seq<CachedBook>, excluded: seq<string>)
    requires forall i :: 0 <= i < |rows| ==> rows[i] in s.cached && KeyAllowed(rows[i].key, excluded)
    ensures forall c :: c in Map(rows, ReviewedRow(s)) ==> FromRandomTier(s, c, excluded) && c.source == Some(Reviewed)
  {
    var r := Map(rows, ReviewedRow(s));
    forall c | c in r ensures FromRandomTier(s, c, excluded) && c.source == Some(Reviewed) {
      var i :| 0 <= i < |r| && r[i] == c;
      assert rows[i] in s.cached && rows[i].key == c.key;
    }
  }

  /** Allowed catalogue rows become suggestions of the random tier. */
  lemma CustomRowsFromTier(s: Store, rows: seq<CustomBook>, excluded: seq<string>)
    requires forall i :: 0 <= i < |rows| ==> rows[i] in s.custom && KeyAllowed(rows[i].key, excluded)
    ensures forall c :: c in Map(rows, CustomTierRow(s)) ==> FromRandomTier(s, c, excluded) && c.source == Some(Custom)
  {
    var r := Map(rows, CustomTierRow(s));
    forall c | c in r ensures FromRandomTier(s, c, excluded) && c.source == Some(Custom) {
      var i :| 0 <= i < |r| && r[i] == c;
      assert rows[i] in s.custom && rows[i].key == c.key;
    }
  }

  /** `fetchRandomBooks(limit, excludeKeys)` as intended: random stored books,
      then (if short) random custom books, then (if still short) books from a
      fixed list of subjects; cut to `limit`. */
  function FetchRandomBooks(s: Store, api: OpenLibrary, rng: Rng, limit: int, excluded: seq<string>): (r: seq<Candidate>)
    ensures |r| <= (if limit < 0 then 0 else limit)
    ensures forall i :: 0 <= i < |r| ==> FromRandomTier(s, r[i], excluded)
    // the stored books come first
    ensures BeginsWith(r, RandomReviewed(s, rng, limit, excluded))
  {
    var reviewed := RandomReviewed(s, rng, limit, excluded);
    var custom := if |reviewed| < limit then RandomCustom(s, rng, limit, excluded) else [];
    var fromApi :=
      if |reviewed + custom| < limit then FetchBooksByGenre(api, rng, "random", RandomSubjects, limit - |reviewed + custom|, excluded)
      else [];
    RandomTierCut(s, excluded, reviewed, custom, fromApi, limit);
    Take(reviewed + custom + fromApi, limit)
  }

  /** The later tiers are consulted only when the stored books fall short: a
      full first tier is the whole answer. */
  lemma FullFirstTierSuffices(s: Store, api: OpenLibrary, rng: Rng, limit: int, excluded: seq<string>)
    requires limit >= 0 && |RandomReviewed(s, rng, limit, excluded)| == limit
    ensures FetchRandomBooks(s, api, rng, limit, excluded) == RandomReviewed(s, rng, limit, excluded)
  {
    var reviewed := RandomReviewed(s, rng, limit, excluded);
    assert reviewed + [] + [] == reviewed;
  }

  /** A short tier is followed by the next: when the stored books fall short
      the custom books come next, and when both fall short Open Library's
      books for the fixed subjects follow, none of them cut off. */
  lemma ShortTiersFallThrough(s: Store, api: OpenLibrary, rng: Rng, limit: int, excluded: seq<string>)
    ensures var r, reviewed := FetchRandomBooks(s, api, rng, limit, excluded), RandomReviewed(s, rng, limit, excluded);
      |reviewed| < limit ==> BeginsWith(r, Take(reviewed + RandomCustom(s, rng, limit, excluded), limit))
    ensures var both := RandomReviewed(s, rng, limit, excluded) + RandomCustom(s, rng, limit, excluded);
      |both| < limit ==>
        FetchRandomBooks(s, api, rng, limit, excluded)
          == both + FetchBooksByGenre(api, rng, "random", RandomSubjects, limit - |both|, excluded)
  {
    var reviewed := RandomReviewed(s, rng, limit, excluded);
    if |reviewed| < limit {
      var custom := RandomCustom(s, rng, limit, excluded);
      var fromApi :=
        if |reviewed + custom| < limit then FetchBooksByGenre(api, rng, "random", RandomSubjects, limit - |reviewed + custom|, excluded)
        else [];
      assert FetchRandomBooks(s, api, rng, limit, excluded) == Take(reviewed + custom + fromApi, limit);
      TiersFallThrough(reviewed, custom, fromApi, limit);
    } else {
      assert |RandomReviewed(s, rng, limit, excluded) + RandomCustom(s, rng, limit, excluded)| >= limit;
    }
  }

  /** Tiers cut to `n` keep the first two tiers, cut to `n`, in front, and
      keep everything when the last tier only fills what the first two leave. */
  lemma TiersFallThrough<T>(a: seq<T>, b: seq<T>, c: seq<T>, n: int)
    requires |a + b| < n ==> |c| <= n - |a + b|
    ensures BeginsWith(Take(a + b + c, n), Take(a + b, n))
    ensures |a + b| < n ==> Take(a + b + c, n) == a + b + c
  {
    TakeKeepsPrefix(a + b, c, n);
  }

  /** The three tiers together, cut to `n`, still come from the random tier,
      and keep the first tier in front. */
  lemma RandomTierCut(s: Store, excluded: seq<string>, a: seq<Candidate>, b: seq<Candidate>, c: seq<Candidate>, n: int)
    requires |a| <= (if n < 0 then 0 else n)
    requires forall x :: x in a ==> FromRandomTier(s, x, excluded)
    requires forall x :: x in b ==> FromRandomTier(s, x, excluded)
    requires forall x :: x in c ==> FromSubject(x, RandomSubjects, excluded)
    ensures var r := Take(a + b + c, n);
      && |r| <= (if n < 0 then 0 else n)
      && (forall i :: 0 <= i < |r| ==> FromRandomTier(s, r[i], excluded))
      && BeginsWith(r, a)
  {
    var all := a + b + c;
    var r := Take(all, n);
    forall i | 0 <= i < |r| ensures FromRandomTier(s, r[i], excluded) {
      assert r[i] == all[i];
      if i < |a| {
        assert all[i] == a[i] && a[i] in a;
      } else if i < |a| + |b| {
        assert all[i] == b[i - |a|] && b[i - |a|] in b;
      } else {
        assert all[i] == c[i - |a| - |b|] && c[i - |a| - |b|] in c;
      }
    }
    assert forall i :: 0 <= i < |a| ==> r[i] == all[i];
  }

  // ---------------------------------------------------------------------------
  // `getDashboardBooks`.
  // ---------------------------------------------------------------------------

  /** A stored book that may be shown as a genre match. */
  predicate MatchesCached(b: CachedBook, fav: seq<string>, excluded: seq<string>) {
    Overlaps(b.info.genre, fav) && KeyAllowed(b.key, excluded)
  }

  /** A custom book that may be shown as a genre match: not already stored. */
  predicate MatchesCustom(s: Store, b: CustomBook, fav: seq<string>, excluded: seq<string>) {
    Overlaps(b.info.genre, fav) && FindCached(s, b.key).None? && KeyAllowed(b.key, excluded)
  }

  /** The rows the two genre queries may return (before the random cut). */
  predicate GenreMatch(s: Store, c: Candidate, fav: seq<string>, excluded: seq<string>) {
    || (exists b :: b in s.cached && MatchesCached(b, fav, excluded) && c == CachedCandidate(s, b))
    || (exists b :: b in s.custom && MatchesCustom(s, b, fav, excluded) && c == CustomCandidate(s, b, None))
  }

  /** The rows of the two genre queries as candidates, stored books first. */
  function GenreRows(s: Store, cached: seq<CachedBook>, custom: seq<CustomBook>): seq<Candidate> {
    Map(cached, CachedRow(s)) + Map(custom, CustomRow(s))
  }

  function CachedRow(s: Store): CachedBook -> Candidate {
    (b: CachedBook) => CachedCandidate(s, b)
  }

  function CustomRow(s: Store): CustomBook -> Candidate {
    (b: CustomBook) => CustomCandidate(s, b, None)
  }

  /** A matching stored row gives a matching candidate. */
  lemma CachedRowMatches(s: Store, fav: seq<string>, excluded: seq<string>, b: CachedBook)
    requires b in s.cached && MatchesCached(b, fav, excluded)
    ensures GenreMatch(s, CachedCandidate(s, b), fav, excluded) && KeyAllowed(CachedCandidate(s, b).key, excluded)
  {
  }

  /** A matching custom row gives a matching candidate. */
  lemma CustomRowMatches(s: Store, fav: seq<string>, excluded: seq<string>, b: CustomBook)
    requires b in s.custom && MatchesCustom(s, b, fav, excluded)
    ensures GenreMatch(s, CustomCandidate(s, b, None), fav, excluded) && KeyAllowed(CustomCandidate(s, b, None).key, excluded)
  {
  }

  /** Position `i` of the genre rows holds a stored row's candidate, or past
      those a custom row's. */
  lemma GenreRowAt(s: Store, cached: seq<CachedBook>, custom: seq<CustomBook>, i: int)
    requires 0 <= i < |GenreRows(s, cached, custom)|
    ensures i < |cached| ==> GenreRows(s, cached, custom)[i] == CachedCandidate(s, cached[i])
    ensures i >= |cached| ==> GenreRows(s, cached, custom)[i] == CustomCandidate(s, custom[i - |cached|], None)
  {
    MapConcatAt(cached, CachedRow(s), custom, CustomRow(s), i);
  }

  /** Rows the genre queries may return give candidates that match. */
  lemma GenreRowsMatch(s: Store, fav: seq<string>, excluded: seq<string>, cached: seq<CachedBook>, custom: seq<CustomBook>)
    requires forall i :: 0 <= i < |cached| ==> cached[i] in s.cached && MatchesCached(cached[i], fav, excluded)
    requires forall i :: 0 <= i < |custom| ==> custom[i] in s.custom && MatchesCustom(s, custom[i], fav, excluded)
    ensures forall c :: c in GenreRows(s, cached, custom) ==> GenreMatch(s, c, fav, excluded) && KeyAllowed(c.key, excluded)
  {
    var rows := GenreRows(s, cached, custom);
    forall c | c in rows ensures GenreMatch(s, c, fav, excluded) && KeyAllowed(c.key, excluded) {
      var i :| 0 <= i < |rows| && rows[i] == c;
      GenreRowAt(s, cached, custom, i);
      if i < |cached| {
        CachedRowMatches(s, fav, excluded, cached[i]);
      } else {
        CustomRowMatches(s, fav, excluded, custom[i - |cached|]);
      }
    }
  }

  /** The genre tier: up to ten matching stored books and up to ten matching
      custom books, shuffled together, the first five processed. */
  function GenreMatched(s: Store, rng: Rng, fav: seq<string>, excluded: seq<string>): (r: seq<Candidate>)
    ensures |r| <= Limit
    ensures forall c :: c in r ==> GenreMatch(s, c, fav, excluded) && KeyAllowed(c.key, excluded)
  {
    var cached := Sample(rng, "dashboard/reviewed", s.cached, CachedMatch(fav, excluded), MatchedPerTable);
    var custom := Sample(rng, "dashboard/custom", s.custom, CustomMatch(s, fav, excluded), MatchedPerTable);
    GenreRowsMatch(s, fav, excluded, cached, custom);
    Take(ShuffleWith(rng, "dashboard/matched", GenreRows(s, cached, custom)), Limit)
  }

  /** The genre tier holds five books, or every sampled match when fewer:
      each of the two queries returns up to ten matching rows. */
  lemma GenreMatchedCount(s: Store, rng: Rng, fav: seq<string>, excluded: seq<string>)
    ensures |GenreMatched(s, rng, fav, excluded)| == LimitCount(Limit,
      LimitCount(MatchedPerTable, |Filter(s.cached, CachedMatch(fav, excluded))|)
      + LimitCount(MatchedPerTable, |Filter(s.custom, CustomMatch(s, fav, excluded))|))
  {
    var cached := Sample(rng, "dashboard/reviewed", s.cached, CachedMatch(fav, excluded), MatchedPerTable);
    var custom := Sample(rng, "dashboard/custom", s.custom, CustomMatch(s, fav, excluded), MatchedPerTable);
    SampleCount(rng, "dashboard/reviewed", s.cached, CachedMatch(fav, excluded), MatchedPerTable);
    SampleCount(rng, "dashboard/custom", s.custom, CustomMatch(s, fav, excluded), MatchedPerTable);
    assert |GenreRows(s, cached, custom)| == |cached| + |custom|;
  }

  /** The `WHERE` clauses of the two genre queries, as intended. */
  function CachedMatch(fav: seq<string>, excluded: seq<string>): CachedBook -> bool {
    (b: CachedBook) => MatchesCached(b, fav, excluded)
  }

  function CustomMatch(s: Store, fav: seq<string>, excluded: seq<string>): CustomBook -> bool {
    (b: CustomBook) => MatchesCustom(s, b, fav, excluded)
  }

  // ---------------------------------------------------------------------------
  // The batch of `getDashboardBooks`.
  // ---------------------------------------------------------------------------

  /** The genre matches, processed; none without favourite genres. */
  function Matched(s: Store, rng: Rng, fav: seq<string>, excluded: seq<string>): (m: seq<DashBook>)
    ensures |m| <= Limit
    ensures |fav| == 0 ==> m == []
    ensures |fav| > 0 ==> |m| == |GenreMatched(s, rng, fav, excluded)|
    ensures forall d :: d in m ==> KeyAllowed(d.key, excluded)
  {
    if |fav| > 0 then Map(GenreMatched(s, rng, fav, excluded), ProcessBookData) else []
  }

  /** The Open Library books for the favourite genres that top up a batch
      holding `matched`: up to the number still needed, none without
      favourite genres, none excluded or already chosen. */
  function GenreFill(api: OpenLibrary, rng: Rng, fav: seq<string>, excluded: seq<string>, matched: seq<DashBook>): (r: seq<Candidate>)
    requires |matched| <= Limit
    ensures |r| <= Limit - |matched|
    ensures |fav| == 0 ==> r == []
    ensures forall c :: c in r ==> FromSubject(c, fav, excluded + BookKeys(matched))
  {
    if |fav| > 0 then FetchBooksByGenre(api, rng, "dashboard", fav, Limit - |matched|, excluded + BookKeys(matched)) else []
  }

  /** Whether a batch holding `matched` falls back on the random tier: it is
      short of five, and Open Library's genre books do not fill it. */
  ghost predicate RandomTierUsed(api: OpenLibrary, rng: Rng, fav: seq<string>, excluded: seq<string>, matched: seq<DashBook>)
    requires |matched| <= Limit
  {
    |matched| < Limit && |GenreFill(api, rng, fav, excluded, matched)| < Limit - |matched|
  }

  /** Topping up a short batch: books from Open Library for the favourite
      genres, then (if still short, which is reported) the random tier, each
      told to skip the excluded keys and what is already chosen. */
  function TopUp(s: Store, api: OpenLibrary, rng: Rng, fav: seq<string>, excluded: seq<string>, matched: seq<DashBook>): (r: (seq<DashBook>, bool))
    requires |matched| < Limit
    requires forall d :: d in matched ==> KeyAllowed(d.key, excluded)
    ensures |r.0| <= Limit && BeginsWith(r.0, matched)
    ensures forall i :: 0 <= i < |r.0| ==> KeyAllowed(r.0[i].key, excluded)
    ensures |fav| == 0 ==> r.1
    // the flag reports exactly that the random tier was consulted
    ensures r.1 <==> RandomTierUsed(api, rng, fav, excluded, matched)
    // without the random tier the genre books fill the batch to five
    ensures !r.1 ==> |r.0| == Limit
    // the genre books follow the matches, uncut
    ensures BeginsWith(r.0, matched + Map(GenreFill(api, rng, fav, excluded, matched), ProcessBookData))
  {
    var needed := Limit - |matched|;
    var seen := excluded + BookKeys(matched);
    var byGenre := GenreFill(api, rng, fav, excluded, matched);
    var random := if |byGenre| < needed then FetchRandomBooks(s, api, rng, needed - |byGenre|, seen + Keys(byGenre)) else [];
    BatchCut(excluded, seen, seen + Keys(byGenre), matched, byGenre, random);
    FillInOrder(matched, byGenre, random);
    (Take(matched + Map(byGenre + random, ProcessBookData), Limit), |byGenre| < needed)
  }

  /** The batch before the featured book's description is refetched, and
      whether a fallback was used: at most five books, none excluded. */
  function Batch(s: Store, api: OpenLibrary, rng: Rng, fav: seq<string>, excluded: seq<string>): (r: (seq<DashBook>, bool))
    ensures |r.0| <= Limit
    ensures forall i :: 0 <= i < |r.0| ==> KeyAllowed(r.0[i].key, excluded)
    // no fallback reported only for a full batch
    ensures !r.1 ==> |r.0| == Limit
  {
    var matched := Matched(s, rng, fav, excluded);
    var usedMatchFallback := |fav| > 0 && |matched| < MinNewBooks;
    if |matched| < Limit then
      var topped := TopUp(s, api, rng, fav, excluded, matched);
      (topped.0, usedMatchFallback || topped.1)
    else
      FullMatches(matched, excluded);
      (matched, usedMatchFallback)
  }

  /** A batch of matches alone is full, and keeps the exclusion. */
  lemma FullMatches(matched: seq<DashBook>, excluded: seq<string>)
    requires |matched| <= Limit <= |matched|
    requires forall d :: d in matched ==> KeyAllowed(d.key, excluded)
    ensures |matched| == Limit
    ensures forall i :: 0 <= i < |matched| ==> KeyAllowed(matched[i].key, excluded)
  {
    forall i | 0 <= i < |matched| ensures KeyAllowed(matched[i].key, excluded) {
      assert matched[i] in matched;
    }
  }

  /** The genre matches open the batch, and a full set of matches is the
      whole batch: the fallbacks only fill what the matches leave. */
  lemma BatchKeepsMatches(s: Store, api: OpenLibrary, rng: Rng, fav: seq<string>, excluded: seq<string>)
    ensures var b, m := Batch(s, api, rng, fav, excluded).0, Matched(s, rng, fav, excluded);
      && BeginsWith(b, m)
      && (|m| == Limit ==> b == m)
  {
    var m := Matched(s, rng, fav, excluded);
    if |m| < Limit {
      var t := TopUp(s, api, rng, fav, excluded, m);
      assert Batch(s, api, rng, fav, excluded).0 == t.0;
    } else {
      assert Batch(s, api, rng, fav, excluded).0 == m;
    }
  }

  /** `used_fallback` is set exactly when fewer than four books matched the
      favourite genres or the random tier was consulted; so it is false only
      when there are favourite genres and at least four matches. */
  lemma BatchReportsFallback(s: Store, api: OpenLibrary, rng: Rng, fav: seq<string>, excluded: seq<string>)
    ensures |fav| == 0 ==> Batch(s, api, rng, fav, excluded).1
    ensures !Batch(s, api, rng, fav, excluded).1 ==> |fav| > 0 && |GenreMatched(s, rng, fav, excluded)| >= MinNewBooks
    ensures var m, used := Matched(s, rng, fav, excluded), Batch(s, api, rng, fav, excluded).1;
      used <==> (|fav| > 0 && |m| < MinNewBooks) || RandomTierUsed(api, rng, fav, excluded, m)
  {
  }

  /** The processed genre books follow the matches uncut, and fill the
      batch when they are as many as it lacks. */
  lemma FillInOrder(matched: seq<DashBook>, byGenre: seq<Candidate>, random: seq<Candidate>)
    requires |matched| + |byGenre| <= Limit
    ensures var r := Take(matched + Map(byGenre + random, ProcessBookData), Limit);
      && BeginsWith(r, matched + Map(byGenre, ProcessBookData))
      && (|matched| + |byGenre| == Limit ==> |r| == Limit)
  {
    var head := matched + Map(byGenre, ProcessBookData);
    var all := matched + Map(byGenre + random, ProcessBookData);
    forall i | 0 <= i < |head| ensures all[i] == head[i] {
      if i >= |matched| {
        assert (byGenre + random)[i - |matched|] == byGenre[i - |matched|];
      }
    }
  }

  /** The genre matches followed by the processed fallbacks, cut to five:
      the matches stay in front and no excluded key gets in. */
  lemma BatchCut(excluded: seq<string>, seen: seq<string>, seen2: seq<string>,
                 matched: seq<DashBook>, byGenre: seq<Candidate>, random: seq<Candidate>)
    requires |matched| <= Limit
    requires forall d :: d in matched ==> KeyAllowed(d.key, excluded)
    requires forall k :: k in excluded ==> k in seen
    requires forall k :: k in seen ==> k in seen2
    requires forall c :: c in byGenre ==> KeyAllowed(c.key, seen)
    requires forall i :: 0 <= i < |random| ==> KeyAllowed(random[i].key, seen2)
    ensures var r := Take(matched + Map(byGenre + random, ProcessBookData), Limit);
      && |r| <= Limit
      && (forall i :: 0 <= i < |r| ==> KeyAllowed(r[i].key, excluded))
      && BeginsWith(r, matched)
  {
    var fallback := byGenre + random;
    var all := matched + Map(fallback, ProcessBookData);
    var r := Take(all, Limit);
    forall i | 0 <= i < |r| ensures KeyAllowed(r[i].key, excluded) {
      assert r[i] == all[i];
      if i < |matched| {
        assert matched[i] in matched;
      } else {
        var j := i - |matched|;
        assert all[i] == ProcessBookData(fallback[j]);
        if j < |byGenre| {
          assert fallback[j] == byGenre[j] && byGenre[j] in byGenre;
        } else {
          assert fallback[j] == random[j - |byGenre|];
        }
      }
    }
    assert forall i :: 0 <= i < |matched| ==> r[i] == all[i];
  }
}

=== FILE: text.dfy ===
/** String operations the handlers perform on titles, genres, keys and URLs:
    ASCII case folding, JavaScript whitespace, decimal rendering of numbers,
    the `"/works/"` key prefix, `join`, the image-URL regular expression
    `/\.(jpg|jpeg|png)(\?.*)?$/i`, and SQL `LIKE` matching. */
module Text {
  import Common

  /** Characters JavaScript's `\s` and `String.prototype.trim` treat as white space. */
  predicate IsSpace(c: char) {
    c == ' ' || c == '\t' || c == '\n' || c == '\r' || c == '\U{000B}' || c == '\U{000C}'
    || c == '\U{00A0}' || c == '\U{1680}' || ('\U{2000}' <= c <= '\U{200A}')
    || c == '\U{2028}' || c == '\U{2029}' || c == '\U{202F}' || c == '\U{205F}'
    || c == '\U{3000}' || c == '\U{FEFF}'
  }

  /** Characters a regular-expression `.` does not match. */
  predicate IsLineTerminator(c: char) {
    c == '\n' || c == '\r' || c == '\U{2028}' || c == '\U{2029}'
  }

  predicate NoSpace(s: string) {
    forall i :: 0 <= i < |s| ==> !IsSpace(s[i])
  }

  /** `s.trim() === ''`: the string is empty or all white space. */
  predicate IsBlank(s: string) {
    forall i :: 0 <= i < |s| ==> IsSpace(s[i])
  }

  function LowerChar(c: char): (d: char)
    ensures 'A' <= c <= 'Z' ==> 'a' <= d <= 'z'
    ensures !('A' <= c <= 'Z') ==> d == c
  {
    if 'A' <= c <= 'Z' then (c as int - 'A' as int + 'a' as int) as char else c
  }

  /** `toLowerCase()` / SQL `LOWER`, restricted to ASCII letters. */
  function Lower(s: string): (r: string)
    ensures |r| == |s|
    ensures forall i :: 0 <= i < |s| ==> r[i] == LowerChar(s[i])
  {
    if |s| == 0 then [] else [LowerChar(s[0])] + Lower(s[1..])
  }

  /** A lowered string holds no upper-case ASCII letter. */
  lemma LowerHasNoUpper(s: string)
    ensures forall c :: c in Lower(s) ==> !('A' <= c <= 'Z')
  {
    forall c | c in Lower(s) ensures !('A' <= c <= 'Z') {
      var i :| 0 <= i < |Lower(s)| && Lower(s)[i] == c;
    }
  }

  /** Lowering and then collapsing white space leaves no upper-case ASCII letter. */
  lemma CollapseLowerNoUpper(s: string)
    ensures forall i :: 0 <= i < |CollapseSpace(Lower(s))| ==> !('A' <= CollapseSpace(Lower(s))[i] <= 'Z')
  {
    var r := CollapseSpace(Lower(s));
    CollapseSpaceChars(Lower(s));
    LowerHasNoUpper(s);
    forall i | 0 <= i < |r| ensures !('A' <= r[i] <= 'Z') {
      assert r[i] in r;
    }
  }

  /** Lowering adds no white space. */
  lemma LowerKeepsNoSpace(s: string)
    ensures NoSpace(s) ==> NoSpace(Lower(s))
  {
  }

  /** `s.replace(/\s+/g, '_')`: every maximal run of white space becomes one `_`. */
  function CollapseSpace(s: string): (r: string)
    ensures NoSpace(r)
    ensures |r| <= |s|
    ensures |r| > 0 <==> |s| > 0
    ensures |s| > 0 && IsSpace(s[0]) ==> r[0] == '_'
    ensures |s| > 0 && !IsSpace(s[0]) ==> r[0] == s[0]
    ensures NoSpace(s) ==> r == s
    decreases |s|
  {
    if |s| == 0 then []
    else if IsSpace(s[0]) then "_" + CollapseSpace(DropSpaces(s[1..]))
    else [s[0]] + CollapseSpace(s[1..])
  }

  /** Every character of the result is `_` or a character of the input. */
  lemma {:induction false} CollapseSpaceChars(s: string)
    ensures forall c :: c in CollapseSpace(s) ==> c == '_' || c in s
    decreases |s|
  {
    if |s| > 0 {
      if IsSpace(s[0]) {
        var t := DropSpaces(s[1..]);
        CollapseSpaceChars(t);
        assert forall c :: c in t ==> c in s;
      } else {
        CollapseSpaceChars(s[1..]);
        assert forall c :: c in s[1..] ==> c in s;
      }
    }
  }

  /** `s` without its leading white space. */
  function DropSpaces(s: string): (r: string)
    ensures |r| <= |s|
    ensures r == s[|s| - |r|..]
    ensures |r| > 0 ==> !IsSpace(r[0])
  {
    if |s| > 0 && IsSpace(s[0]) then DropSpaces(s[1..]) else s
  }

  /** Collapsing twice is collapsing once. */
  lemma CollapseSpaceIdempotent(s: string)
    ensures CollapseSpace(CollapseSpace(s)) == CollapseSpace(s)
  {
  }

  /** A run of white space followed by text that does not start with white
      space is dropped whole. */
  lemma {:induction false} DropSpacesRun(sp: string, t: string)
    requires IsBlank(sp)
    requires |t| == 0 || !IsSpace(t[0])
    ensures DropSpaces(sp + t) == t
  {
    if |sp| > 0 {
      assert (sp + t)[1..] == sp[1..] + t;
      DropSpacesRun(sp[1..], t);
    } else {
      assert sp + t == t;
    }
  }

  /** A leading character that is not white space is kept. */
  lemma CollapseSpaceCons(c: char, rest: string)
    requires !IsSpace(c)
    ensures CollapseSpace([c] + rest) == [c] + CollapseSpace(rest)
  {
    assert ([c] + rest)[1..] == rest;
  }

  /** The replacement run by run: a word without white space is kept, the
      maximal run of white space after it becomes one `_`, and the rest is
      collapsed in the same way. */
  lemma {:induction false} CollapseSpaceSplit(w: string, sp: string, t: string)
    requires NoSpace(w) && |sp| > 0 && IsBlank(sp)
    requires |t| == 0 || !IsSpace(t[0])
    ensures CollapseSpace(w + sp + t) == w + "_" + CollapseSpace(t)
  {
    if |w| > 0 {
      var rest := w[1..] + sp + t;
      assert w + sp + t == [w[0]] + rest;
      CollapseSpaceCons(w[0], rest);
      CollapseSpaceSplit(w[1..], sp, t);
      assert w == [w[0]] + w[1..];
    } else {
      assert w + sp + t == sp + t;
      CollapseSpaceRun(sp, t);
    }
  }

  /** A leading run of white space becomes one `_`. */
  lemma CollapseSpaceRun(sp: string, t: string)
    requires |sp| > 0 && IsBlank(sp)
    requires |t| == 0 || !IsSpace(t[0])
    ensures CollapseSpace(sp + t) == "_" + CollapseSpace(t)
  {
    assert (sp + t)[0] == sp[0];
    assert (sp + t)[1..] == sp[1..] + t;
    DropSpacesRun(sp[1..], t);
  }

  /** The decimal digits of a natural number, as a template literal renders it. */
  function NatToString(n: nat): (r: string)
    ensures |r| > 0
    ensures forall i :: 0 <= i < |r| ==> '0' <= r[i] <= '9'
    decreases n
  {
    if n < 10 then [Digit(n)] else NatToString(n / 10) + [Digit(n % 10)]
  }

  function Digit(d: nat): (c: char)
    requires d < 10
    ensures '0' <= c <= '9'
  {
    ('0' as int + d) as char
  }

  /** `${n}` for an integer. */
  function IntToString(n: int): (r: string)
    ensures |r| > 0
  {
    if n < 0 then "-" + NatToString(-n) else NatToString(n)
  }

  /** The value of a string of decimal digits; the inverse of `NatToString`. */
  function DigitsValue(s: string): nat
    requires forall i :: 0 <= i < |s| ==> '0' <= s[i] <= '9'
  {
    if |s| == 0 then 0 else 10 * DigitsValue(s[..|s| - 1]) + (s[|s| - 1] as int - '0' as int)
  }

  /** Rendering a number and reading the digits back gives the number. */
  lemma {:induction false} NatToStringRoundTrip(n: nat)
    ensures DigitsValue(NatToString(n)) == n
    decreases n
  {
    if n >= 10 {
      var r := NatToString(n);
      assert r[..|r| - 1] == NatToString(n / 10);
      NatToStringRoundTrip(n / 10);
    }
  }

  /** Distinct numbers render to distinct strings. */
  lemma NatToStringInjective(m: nat, n: nat)
    requires NatToString(m) == NatToString(n)
    ensures m == n
  {
    NatToStringRoundTrip(m);
    NatToStringRoundTrip(n);
  }

  /** The longest prefix of `s` made of decimal digits. */
  function LeadingDigits(s: string): (r: string)
    ensures |r| <= |s| && r == s[..|r|]
    ensures forall i :: 0 <= i < |r| ==> '0' <= r[i] <= '9'
    ensures |r| < |s| ==> !('0' <= s[|r|] <= '9')
  {
    if |s| > 0 && '0' <= s[0] <= '9' then [s[0]] + LeadingDigits(s[1..]) else []
  }

  /** The value of the digits `u` starts with, `None` when it starts with none. */
  function ParseDigits(u: string): (r: Common.Option<int>)
    ensures r.Some? ==> r.value >= 0
  {
    var d := LeadingDigits(u);
    if |d| == 0 then Common.None else Common.Some(DigitsValue(d) as int)
  }

  function Negate(r: Common.Option<int>): Common.Option<int> {
    if r.Some? then Common.Some(-r.value) else Common.None
  }

  /** `parseInt(s)` in base ten: leading white space is skipped, then an
      optional sign, then the longest run of digits is read; `None` stands for
      `NaN`, when no digit follows. */
  function ParseInt(s: string): Common.Option<int> {
    var t := DropSpaces(s);
    if |t| > 0 && t[0] == '-' then Negate(ParseDigits(t[1..]))
    else if |t| > 0 && t[0] == '+' then ParseDigits(t[1..])
    else ParseDigits(t)
  }

  /** A string of digits reads back in full. */
  lemma {:induction false} LeadingDigitsAll(s: string)
    requires forall i :: 0 <= i < |s| ==> '0' <= s[i] <= '9'
    ensures LeadingDigits(s) == s
  {
    if |s| > 0 {
      LeadingDigitsAll(s[1..]);
    }
  }

  /** A run of digits parses to its value. */
  lemma ParseDigitsAll(d: string)
    requires |d| > 0 && forall i :: 0 <= i < |d| ==> '0' <= d[i] <= '9'
    ensures ParseDigits(d) == Common.Some(DigitsValue(d) as int)
  {
    LeadingDigitsAll(d);
  }

  /** A string that starts with a digit or a sign has no white space to skip. */
  lemma DropSpacesNone(s: string)
    requires |s| > 0 && ('0' <= s[0] <= '9' || s[0] == '-')
    ensures DropSpaces(s) == s
  {
    assert !IsSpace(s[0]);
  }

  /** An unsigned run of digits parses to its value. */
  lemma ParseIntOfDigits(d: string)
    requires |d| > 0 && forall i :: 0 <= i < |d| ==> '0' <= d[i] <= '9'
    ensures ParseInt(d) == Common.Some(DigitsValue(d) as int)
  {
    DropSpacesNone(d);
    ParseDigitsAll(d);
  }

  /** A leading minus sign negates what follows it. */
  lemma ParseIntMinus(m: string)
    requires |m| > 0 && m[0] == '-'
    ensures ParseInt(m) == Negate(ParseDigits(m[1..]))
  {
    DropSpacesNone(m);
  }

  /** A minus sign followed by a run of digits parses to the negated value. */
  lemma ParseIntOfNegative(m: string, d: string)
    requires |m| > 0 && m[0] == '-' && m[1..] == d
    requires |d| > 0 && forall i :: 0 <= i < |d| ==> '0' <= d[i] <= '9'
    ensures ParseInt(m) == Common.Some(-(DigitsValue(d) as int))
  {
    ParseIntMinus(m);
    ParseDigitsAll(d);
  }

  /** `parseInt` reads back a negative number `${n}` renders. */
  lemma ParseIntRoundTripNegative(n: int)
    requires n < 0
    ensures ParseInt(IntToString(n)) == Common.Some(n)
  {
    var m: nat := -n;
    var t, digits := IntToString(n), NatToString(m);
    NatToStringRoundTrip(m);
    var v := DigitsValue(digits);
    assert v == m;
    assert t[0] == '-' && t[1..] == digits;
    ParseIntOfNegative(t, digits);
    assert ParseInt(t) == Common.Some(-(v as int));
  }

  /** `parseInt` reads back every integer `${n}` renders. */
  lemma ParseIntRoundTrip(n: int)
    ensures ParseInt(IntToString(n)) == Common.Some(n)
  {
    if n < 0 {
      ParseIntRoundTripNegative(n);
    } else {
      ParseIntOfDigits(NatToString(n));
      NatToStringRoundTrip(n);
    }
  }

  /** `parseInt(q) || fallback` for an optional query parameter: a missing
      parameter, `NaN` and 0 (all falsy) give the fallback. */
  function QueryInt(q: Common.Option<string>, fallback: int): (r: int)
    ensures q.None? ==> r == fallback
    ensures q.Some? && ParseInt(q.value).None? ==> r == fallback
    ensures q.Some? && ParseInt(q.value).Some? ==>
      r == (if ParseInt(q.value).value == 0 then fallback else ParseInt(q.value).value)
  {
    match q
    case None => fallback
    case Some(t) =>
      match ParseInt(t)
      case None => fallback
      case Some(n) => if n == 0 then fallback else n
  }

  /** A non-zero number sent as a query parameter is read back as itself. */
  lemma QueryIntRoundTrip(n: int, fallback: int)
    requires n != 0
    ensures QueryInt(Common.Some(IntToString(n)), fallback) == n
  {
    ParseIntRoundTrip(n);
  }

  const WorksPrefix: string := "/works/"

  /** `pat` occurs in `s` starting at index `j`. */
  predicate OccursAt(s: string, pat: string, j: nat) {
    j + |pat| <= |s| && s[j..j + |pat|] == pat
  }

  lemma OccursShift(s: string, pat: string)
    requires |s| > 0
    ensures forall j: nat :: OccursAt(s, pat, j + 1) <==> OccursAt(s[1..], pat, j)
  {
    forall j: nat
      ensures OccursAt(s, pat, j + 1) <==> OccursAt(s[1..], pat, j)
    {
      if j + 1 + |pat| <= |s| {
        var t := s[1..];
        var u, v := s[j + 1..j + 1 + |pat|], t[j..j + |pat|];
        assert forall i :: 0 <= i < |pat| ==> u[i] == v[i];
        assert u == v;
      }
    }
  }

  /** Index of the first occurrence of `pat` in `s`. */
  function IndexOf(s: string, pat: string): (r: Common.Option<nat>)
    ensures r.Some? ==> OccursAt(s, pat, r.value)
    ensures r.Some? ==> forall j: nat :: j < r.value ==> !OccursAt(s, pat, j)
    ensures r.None? ==> forall j: nat :: !OccursAt(s, pat, j)
    decreases |s|
  {
    if |pat| > |s| then Common.None
    else if s[..|pat|] == pat then
      assert OccursAt(s, pat, 0);
      Common.Some(0)
    else
      OccursShift(s, pat);
      assert !OccursAt(s, pat, 0);
      assert forall j: nat :: j >= 1 ==> (OccursAt(s, pat, j) <==> OccursAt(s[1..], pat, j - 1));
      match IndexOf(s[1..], pat)
      case None => Common.None
      case Some(i) => Common.Some(i + 1)
  }

  /** `key.replace('/works/', '')`: removes the first occurrence of `/works/`, wherever it is. */
  function StripWorks(key: string): (r: string)
  {
    match IndexOf(key, WorksPrefix)
    case Some(i) => key[..i] + key[i + |WorksPrefix|..]
    case None => key
  }

  /** An Open Library work path `/works/<id>` normalises to `<id>`. */
  lemma StripWorksOfPath(id: string)
    ensures StripWorks(WorksPrefix + id) == id
  {
    var s := WorksPrefix + id;
    assert s[..|WorksPrefix|] == WorksPrefix;
    assert IndexOf(s, WorksPrefix) == Common.Some(0);
    assert s[|WorksPrefix|..] == id;
  }

  /** A key that never mentions `/works/` is left unchanged. */
  lemma StripWorksNoPrefix(key: string)
    requires forall j: nat :: !OccursAt(key, WorksPrefix, j)
    ensures StripWorks(key) == key
  {
  }

  /** `xs.join(sep)`. */
  function Join(xs: seq<string>, sep: string): (r: string)
    ensures |xs| == 0 ==> r == ""
    ensures |xs| == 1 ==> r == xs[0]
  {
    if |xs| == 0 then "" else if |xs| == 1 then xs[0] else xs[0] + sep + Join(xs[1..], sep)
  }

  // ---------------------------------------------------------------------------
  // The image-URL test `/\.(jpg|jpeg|png)(\?.*)?$/i.test(url)`.
  // ---------------------------------------------------------------------------

  /** `t` ends with `.jpg`, `.jpeg` or `.png`, letters in either case. */
  predicate EndsWithImageExt(t: string) {
    (|t| >= 4 && (Lower(t[|t| - 4..]) == ".jpg" || Lower(t[|t| - 4..]) == ".png"))
    || (|t| >= 5 && Lower(t[|t| - 5..]) == ".jpeg")
  }

  predicate NoLineTerminator(t: string) {
    forall i :: 0 <= i < |t| ==> !IsLineTerminator(t[i])
  }

  /** The regular expression matches when the extension ends at cut point `k`: either
      `k` is the end of the string, or a `?` sits at `k` followed by anything
      a `.` matches up to the end. */
  predicate MatchesAtCut(s: string, k: nat)
    requires k <= |s|
  {
    EndsWithImageExt(s[..k])
    && (k == |s| || (s[k] == '?' && NoLineTerminator(s[k + 1..])))
  }

  /** What the regular expression accepts: some cut point matches. */
  predicate ImageUrlPattern(s: string) {
    exists k :: 0 <= k <= |s| && MatchesAtCut(s, k)
  }

  /** A line terminator at `k - 1` rules out every `?` before it. */
  lemma LineTerminatorBlocks(s: string, k: nat)
    requires 0 < k <= |s| && IsLineTerminator(s[k - 1])
    ensures forall j :: 0 <= j < k - 1 && s[j] == '?' ==> !NoLineTerminator(s[j + 1..])
  {
    forall j | 0 <= j < k - 1 && s[j] == '?'
      ensures !NoLineTerminator(s[j + 1..])
    {
      assert s[j + 1..][k - 2 - j] == s[k - 1];
    }
  }

  /** Scans backwards from `k` for a `?` whose prefix ends with an image extension,
      stopping at the first line terminator. */
  function QueryCutScan(s: string, k: nat): (b: bool)
    requires k <= |s|
    requires NoLineTerminator(s[k..])
    ensures b <==> exists j :: 0 <= j < k && s[j] == '?' && EndsWithImageExt(s[..j]) && NoLineTerminator(s[j + 1..])
    decreases k
  {
    if k == 0 then false
    else if IsLineTerminator(s[k - 1]) then
      LineTerminatorBlocks(s, k);
      false
    else
      assert s[k - 1..] == [s[k - 1]] + s[k..];
      if s[k - 1] == '?' && EndsWithImageExt(s[..k - 1]) then true
      else QueryCutScan(s, k - 1)
  }

  /** The regular expression matches iff the string itself ends with an extension,
      or some `?` is preceded by one and followed only by characters `.` matches. */
  lemma ImageUrlCases(s: string)
    ensures ImageUrlPattern(s) <==>
      EndsWithImageExt(s)
      || exists j :: 0 <= j < |s| && s[j] == '?' && EndsWithImageExt(s[..j]) && NoLineTerminator(s[j + 1..])
  {
    assert s[..|s|] == s;
    if ImageUrlPattern(s) {
      var k :| 0 <= k <= |s| && MatchesAtCut(s, k);
      if k < |s| {
        assert s[k] == '?' && EndsWithImageExt(s[..k]) && NoLineTerminator(s[k + 1..]);
      }
    }
    if EndsWithImageExt(s) {
      assert MatchesAtCut(s, |s|);
    } else if exists j :: 0 <= j < |s| && s[j] == '?' && EndsWithImageExt(s[..j]) && NoLineTerminator(s[j + 1..]) {
      var j :| 0 <= j < |s| && s[j] == '?' && EndsWithImageExt(s[..j]) && NoLineTerminator(s[j + 1..]);
      assert MatchesAtCut(s, j);
    }
  }

  /** The image-URL check as the handlers run it; accepts exactly `ImageUrlPattern`. */
  function IsImageUrl(s: string): (b: bool)
    ensures b <==> ImageUrlPattern(s)
  {
    ImageUrlCases(s);
    assert s[|s|..] == [];
    EndsWithImageExt(s) || QueryCutScan(s, |s|)
  }

  /** Every cover URL the code builds, `https://covers.openlibrary.org/b/id/<id>-M.jpg`,
      passes the image-URL check. */
  lemma CoverUrlIsImage(prefix: string)
    ensures IsImageUrl(prefix + "-M.jpg")
  {
    var s := prefix + "-M.jpg";
    assert s[|s| - 4..] == ".jpg";
    assert Lower(".jpg") == ".jpg";
  }

  // ---------------------------------------------------------------------------
  // SQL LIKE with `%`, `_` and the default escape character `\`.
  // ---------------------------------------------------------------------------

  /** `t LIKE p`. */
  function Like(t: string, p: string): bool
    decreases |t| + |p|
  {
    if |p| == 0 then |t| == 0
    else if p[0] == '%' then Like(t, p[1..]) || (|t| > 0 && Like(t[1..], p))
    else if p[0] == '_' then |t| > 0 && Like(t[1..], p[1..])
    else if p[0] == '\\' && |p| >= 2 then |t| > 0 && t[0] == p[1] && Like(t[1..], p[2..])
    else |t| > 0 && t[0] == p[0] && Like(t[1..], p[1..])
  }

  /** `k` has none of the characters LIKE gives a meaning to. */
  predicate NoWildcards(k: string) {
    forall i :: 0 <= i < |k| ==> k[i] != '%' && k[i] != '_' && k[i] != '\\'
  }

  predicate IsSubstring(k: string, t: string) {
    exists i :: 0 <= i <= |t| && k <= t[i..]
  }

  lemma {:induction false} LikePercentAll(t: string)
    ensures Like(t, "%")
    decreases |t|
  {
    if |t| > 0 {
      LikePercentAll(t[1..]);
    }
  }

  lemma {:induction false} LikePrefix(t: string, k: string)
    requires NoWildcards(k)
    ensures Like(t, k + "%") <==> k <= t
    decreases |k|
  {
    if |k| == 0 {
      assert k + "%" == "%";
      LikePercentAll(t);
    } else {
      assert (k + "%")[0] == k[0];
      assert (k + "%")[1..] == k[1..] + "%";
      if |t| > 0 {
        LikePrefix(t[1..], k[1..]);
        assert k <= t <==> t[0] == k[0] && k[1..] <= t[1..];
      }
    }
  }

  lemma {:induction false} LikeLeadingPercent(t: string, r: string)
    ensures Like(t, "%" + r) <==> exists i :: 0 <= i <= |t| && Like(t[i..], r)
    decreases |t|
  {
    var p := "%" + r;
    assert p[1..] == r;
    assert t[0..] == t;
    if |t| > 0 {
      LikeLeadingPercent(t[1..], r);
      assert forall i :: 1 <= i <= |t| ==> t[i..] == t[1..][i - 1..];
      if Like(t[1..], p) {
        var i :| 0 <= i <= |t[1..]| && Like(t[1..][i..], r);
        assert t[i + 1..] == t[1..][i..];
      }
    }
  }

  /** For a keyword without wildcards, `t LIKE '%' || k || '%'` is substring search. */
  lemma SubstringLike(t: string, k: string)
    requires NoWildcards(k)
    ensures Like(t, "%" + k + "%") <==> IsSubstring(k, t)
  {
    assert "%" + k + "%" == "%" + (k + "%");
    LikeLeadingPercent(t, k + "%");
    forall i | 0 <= i <= |t|
      ensures Like(t[i..], k + "%") <==> k <= t[i..]
    {
      LikePrefix(t[i..], k);
    }
  }
}
